=== FILE: README.md ===
# RDBMS normalisation engine in Dafny

This project models the normalisation engine of `normalizer.py`. The engine takes one table, stored as a pandas DataFrame, and rewrites it step by step into first, second, third, Boyce-Codd, fourth and fifth normal form. It is driven by:

- a dictionary of functional dependencies (`fds`, determinant tuple to dependent list);
- a dictionary of multi-valued dependencies (`mvds`);
- a primary key (`pk`, a column tuple);
- for 5NF, the candidate keys of each relation.

From 1NF on, every stage returns a *relation set*: a dictionary from a relation name to a relation. The name is an attribute tuple. Each stage also returns a flag saying whether the input was already in that normal form.

The Dafny modules follow the structure of the file:

| module | models |
|---|---|
| `Schema` | Cells, rows and relations.<br>Column selection `rel[cols]`, `drop_duplicates`, `drop(columns=…)`. |
| `RelationSets` | The insertion-ordered dictionary the stages build.<br>An assignment to an existing key overwrites the value and keeps its place. |
| `Closure` | `attribute_closure`. |
| `FirstNF` | `validate_1NF`, `is_nested_collection`, `transform_to_1NF`, including pandas `explode`. |
| `SecondNF` | `validate_2NF`, `transform_to_2NF`. |
| `ThirdNF` | `has_partial_dependencies`, `validate_3NF`, `create_new_relations`, `transform_to_3NF`. |
| `Bcnf` | `validate_bcnf`, `transform_to_BCNF`. |
| `Grouping` | The `groupby(...)` row counting shared by the 4NF checks and `is_superkey`. |
| `FourthNF` | `validate_4NF`, and `transform_to_4NF` with its recursion. |
| `FifthNF` | `is_superkey`, the check loop of `validate_5NF`, `decompose_into_5NF` and its local `is_lossless`, and `transform_to_5NF`. |

Modelling choices:

- **Rows and relations.** A row is a map from column name to cell. A relation is a column sequence together with a row sequence. Rows keep their order and may repeat, as DataFrame rows do.
- **Exceptions.** The model returns an error value for these raising cases: reading an absent relation, selecting dependency columns a relation lacks (2NF and 3NF), and grouping by no columns or by an absent column in `is_superkey`. Three other raising cases get no error value. The 4NF grouping on an empty determinant, or on a dependent inside its determinant, is excluded by a precondition (the `FourthNF.Validate4NF` lines under "Left out"). `explode` on repeated column labels is not modelled (the `FirstNF.Transform1NF` line under "Left out"). The `TypeError` the 5NF projection raises at line 365 is listed under "Findings", and the model follows the intended code there. The column helpers `Schema.Project`, `Schema.ProjectDistinct`, `Schema.Drop` and `FifthNF.KeySplit` instead require their columns to be present. Each call site either has just checked the columns, as the BCNF split test (lines 236-239) and the 5NF key test (line 414) do, or follows the point where the model has already returned the error (2NF selections at line 106, 3NF selections at lines 154-155). The columns dropped at line 115 are dependents that line 106 already selected.
- **Unbounded recursion.** `transform_to_4NF` recurses without any bound, so the model takes a fuel parameter. It reports `FuelExhausted` when the fuel runs out.

### Where the model reads the code literally

Several stages behave differently from what their comments and names suggest. The model follows the code in each case.

- **3NF validator.** `has_partial_dependencies` builds `pk` as a set of determinant *tuples* (line 127). It then asks whether single attribute *names* belong to that set (line 138), and a name never does. So `validate_3NF` holds exactly when no relation contains the whole non-empty determinant of any dependency (`ThirdNF.Validate3NF`).
- **3NF and 2NF dependents are not checked against the columns.** A dependency whose determinant lies in the relation but whose dependents do not makes `rel[list(lhs) + rhs]` raise. The model returns `Err(MissingColumns(...))` there.
- **BCNF loop runs once.** `transform_to_BCNF` returns inside the first iteration of its `while True` loop, so it is one pass (`Bcnf.TransformBCNF`). The `relation.drop(columns=rhs)` at line 243 does not remove duplicate rows.
- **4NF stopping rule.** `transform_to_4NF` stops when a round produced as many relations as it consumed (line 322). That can happen while the result still violates 4NF, and the flag is then `False`. `FourthNF.Transform4NF` states exactly this.
- **5NF decomposition keeps every column in the second table.** `decompose_into_5NF` projects its second table on `remaining_columns | set(key)`, which is all the columns (line 417). The table a key split yields is therefore the table without duplicate rows (`FifthNF.KeySplit`).

## Model

| member | source | states |
|---|---|---|
| Schema.Distinct | normalizer.py:106 | `drop_duplicates` keeps each element once, keeps every element, and never lengthens the sequence |
| Schema.DistinctKeepsFirst | normalizer.py:106 | `drop_duplicates` keeps the first occurrence of each element, in the order the elements first occur |
| Schema.DistinctOfNoDup | normalizer.py:106 | on a sequence without repetitions `drop_duplicates` changes nothing |
| Schema.DistinctShorter | normalizer.py:277 | a repeated element makes the de-duplicated sequence strictly shorter |
| Schema.DistinctLengthIffNoDup | normalizer.py:277 | the de-duplicated sequence has the original length exactly when there was no repetition |
| Schema.Without | normalizer.py:312 | the filter `[col for col in cols if col not in xs]` keeps exactly the elements outside `xs` |
| Schema.RestrictAll | normalizer.py:365 | restricting a row to a superset of its columns gives the row back |
| Schema.Project | normalizer.py:106 | column selection, as at lines 106, 154-155, 240, 309, 312 and 398, yields the requested column list, one restricted row per input row, and keeps well-formedness |
| Schema.ProjectDistinct | normalizer.py:106 | `rel[cols].drop_duplicates()` has the selected columns, no more rows than the input, and keeps well-formedness; with at least one column no row repeats, and with none every row is kept, as pandas returns a frame without columns unchanged |
| Schema.ProjectDistinctRows | normalizer.py:106 | a row is in `rel[cols].drop_duplicates()` exactly when it is the restriction of some input row to the selected columns |
| Schema.Drop | normalizer.py:115 | `drop(columns=cols)` removes exactly those columns from every row and keeps the row count |
| RelationSets.IndexOf | normalizer.py:85 | the position found holds the key and no earlier entry does |
| RelationSets.NamesListed | normalizer.py:119-120 | a name is listed exactly when some entry is stored under it |
| RelationSets.Lookup | normalizer.py:85 | `rs[n]` is absent exactly when `n` is not a key, and otherwise is the value of an entry under `n` |
| RelationSets.LookupEntry | normalizer.py:85 | in a dictionary with unique keys every entry is what its key looks up |
| RelationSets.Put | normalizer.py:107 | assignment overwrites an existing key in place and appends a new one; the keys become the old keys plus `n` and stay unique |
| RelationSets.PutLookup | normalizer.py:116 | after `rs[n] = t`, `n` looks up `t` and every other key looks up what it did before |
| RelationSets.PutAll | normalizer.py:175-176 | a run of assignments adds exactly the assigned keys, only assigned or existing entries, and keeps keys unique |
| RelationSets.PutParts | normalizer.py:231-246 | assigning each relation's tables in turn keeps every earlier key, adds every key of every part, and keeps keys unique |
| RelationSets.PutPartsKeepsNames | normalizer.py:231-246 | when each relation's part ends with an entry under its own name, the loop keeps every relation name |
| RelationSets.PutPartsFrom | normalizer.py:231-246 | every entry that loop writes was there before or belongs to one of the parts |
| RelationSets.PutAllFresh | normalizer.py:241-246 | assigning distinct fresh keys appends the entries in order |
| RelationSets.LastUnder | normalizer.py:175-176 | a name has a last entry in a run of assignments exactly when the run assigns it |
| RelationSets.LastUnderIsLast | normalizer.py:175-176 | the entry found is under the name and no later entry of the run is |
| RelationSets.LastUnderCons | normalizer.py:175-176 | read from the front, the last entry under a name is in the tail when the tail has one, and otherwise is the head or missing |
| RelationSets.PutAllLookup | normalizer.py:175-176 | last write wins: after a run of assignments a name looks up the relation of the last entry assigned under it, and what it looked up before when the run never assigns it |
| RelationSets.PutAllAppend | normalizer.py:175-176 | a run of assignments over two lists is the run over the first followed by the run over the second |
| RelationSets.Concat | normalizer.py:231-246 | the concatenated parts hold exactly the entries of the parts, part by part in order |
| RelationSets.PutPartsIsPutAll | normalizer.py:231-246 | the relation loop equals one run of assignments over all the parts' entries in relation order |
| RelationSets.PutPartsLookup | normalizer.py:231-246 | last write wins across the relation loop: a name looks up the relation of its last entry in the last part that writes it, and its earlier relation when no part does |
| Closure.Dependents | normalizer.py:129 | the set of dependents is exactly the union of all right-hand sides |
| Closure.Apply | normalizer.py:196-197 | one dependency step only adds its dependents, adds all of them when the determinant is inside, and changes the set exactly when the determinant is inside and some dependent is new |
| Closure.Pass | normalizer.py:194-197 | one pass over the dependencies only adds dependents to the current set |
| Closure.Saturate | normalizer.py:192-201 | repeating passes ends in a set the next pass leaves unchanged, between the start set and the start set plus all dependents |
| Closure.GrowthShrinksRemainder | normalizer.py:200-201 | a pass that adds something leaves fewer dependents to add, so the `while True` loop terminates |
| Closure.AttributeClosure | normalizer.py:189-203 | the closure contains the attributes, adds only dependents, and is closed under every dependency |
| Closure.PassFixedIsClosed | normalizer.py:200-201 | a set the pass leaves unchanged is closed under the dependencies |
| Closure.PassWithin | normalizer.py:194-197 | a pass started inside a closed set stays inside it |
| Closure.SaturateWithin | normalizer.py:192-201 | the saturation of a subset of a closed set stays inside it |
| Closure.ClosureLeast | normalizer.py:189-203 | the closure lies inside every closed set containing the attributes |
| Closure.ClosureIdempotent | normalizer.py:189-203 | closing a closure again adds nothing |
| Closure.ClosureMonotone | normalizer.py:189-203 | a larger attribute set has a larger closure |
| FirstNF.IsNestedCollection | normalizer.py:30-37 | the column test that triggers `explode` accepts exactly the nested cells other than dicts |
| FirstNF.ManyDistinct | normalizer.py:21 | `nunique() > 1` holds exactly when two entries differ |
| FirstNF.ColumnPasses | normalizer.py:19-26 | a column passes both tests exactly when all its cells have one runtime type and none is a list, dict or set |
| FirstNF.ColumnsValid | normalizer.py:19-27 | the column loop succeeds exactly when every column from the current one on is in 1NF |
| FirstNF.Validate1NF | normalizer.py:7-28 | a relation passes exactly when it has rows and columns and every column is in 1NF |
| FirstNF.ExplodeRow | normalizer.py:60 | a cell that is not a list, set or dict keeps its row; otherwise the row gives one row per element, in element order and with repeats, a dict giving its keys, each being the row with that element in the exploded column; an empty collection gives one row holding NaN there |
| FirstNF.ExplodeRows | normalizer.py:60 | a row is in the output exactly when it is in the explosion of some input row, and there are at least as many output rows as input rows |
| FirstNF.ExplodeRowsAppend | normalizer.py:60 | exploding a concatenation of rows gives the explosion of the first part followed by that of the second, and one row explodes as `ExplodeRow` says; so the output is the input rows' explosions, each kept whole, in row order and with their multiplicities |
| FirstNF.Explode | normalizer.py:60 | `explode` keeps the column list and well-formedness, and its rows are the input rows' explosions, each kept whole, in row order |
| FirstNF.ExplodeStep | normalizer.py:56-60 | one step of the column loop explodes the column when some cell of it holds a list or a set, and otherwise returns the relation unchanged; it keeps the column list and well-formedness and never loses a row |
| FirstNF.ExplodeColumns | normalizer.py:56-60 | the column loop keeps the column list and well-formedness |
| FirstNF.ExplodeColumnsKeepsClean | normalizer.py:56-60 | the column loop returns the relation unchanged when none of the columns it still has to visit holds a list or a set |
| FirstNF.Transform1NF | normalizer.py:39-65 | the flag is exactly the 1NF test; a relation already in 1NF comes back unchanged under `pk`; otherwise one relation under `pk` with the same columns |
| FirstNF.Transform1NFKeepsClean | normalizer.py:47-63 | a relation with no list or set cell comes back unchanged under `pk` even when it fails the 1NF test (for a dict cell or mixed types), since only columns holding a list or a set are exploded |
| FirstNF.ExplodedRowSource | normalizer.py:58-60 | every exploded row copies some input row off the exploded column and holds no collection there |
| FirstNF.CellAfterExplode | normalizer.py:60 | after exploding, a cell whose elements are flat is not a collection |
| FirstNF.ElementFlat | normalizer.py:60 | an element taken out of a flat cell is itself flat, so exploding never uncovers a list or set |
| FirstNF.ExplodeClears | normalizer.py:58-60 | exploding a column clears it of collections and keeps already cleared columns clear |
| FirstNF.ExplodeStepClears | normalizer.py:56-60 | one step of the column loop keeps the cells flat, clears its own column and keeps the earlier columns clear |
| FirstNF.ExplodeColumnsClears | normalizer.py:56-60 | after the loop no column holds a list or a set |
| FirstNF.Transform1NFFlattens | normalizer.py:39-65 | when collections hold only flat elements and dict keys are scalars, the transformed relation has no list or set cell |
| FirstNF.ExplodeRowFrom | normalizer.py:60 | one row's explosion is never empty and each of its rows differs from the row only in the exploded column, holding an element of the cell there, or NaN for an empty one |
| FirstNF.ExplodeStepRows | normalizer.py:56-60 | after one step of the column loop every row comes from some input row changed only in that column, and every input row yields at least one row |
| FirstNF.ExplodeColumnsRows | normalizer.py:56-60 | after the column loop every row comes from some input row changed only in the visited columns, each changed cell an element of the input cell or NaN for an empty one, and every input row yields at least one row |
| FirstNF.Transform1NFRows | normalizer.py:39-65 | when the relation is not in 1NF, every output row comes from some input row with each cell kept or replaced by an element of its list-like cell (NaN for an empty one), and every input row yields at least one output row |
| SecondNF.NoPartialFrom | normalizer.py:73-79 | the dependency loop passes exactly when no remaining dependency has a partial-key determinant with a non-key dependent |
| SecondNF.Validate2NF | normalizer.py:68-81 | the relation fails exactly when some determinant is a proper subset of the key and some dependent is a non-key column |
| SecondNF.Violating | normalizer.py:100-104 | the transform acts on exactly the dependencies the validator rejects, in dictionary order (a subsequence of the dependencies) |
| SecondNF.FirstMissing | normalizer.py:106 | selection fails exactly when some violating dependency names a column the relation lacks, and reports only absent columns |
| SecondNF.SplitEntryRows | normalizer.py:106-107 | the table written for a violating dependency sits under its determinant and holds exactly the input rows cut down to its determinant and dependents |
| SecondNF.AddDependents | normalizer.py:110-112 | the inner loop adds exactly the dependents outside the determinant, without repeating any |
| SecondNF.AttributesToRemove | normalizer.py:109-112 | `attributes_to_remove` holds, once each, exactly the dependents outside their determinant of the violating dependencies |
| SecondNF.ReducedBase | normalizer.py:115 | the base relation loses exactly those columns, keeps its row count, and each of its rows is the input row at the same place without them |
| SecondNF.Decompose2NF | normalizer.py:100-116 | the key relation holds the reduced base and every other entry sits under a violating determinant |
| SecondNF.Transform2NF | normalizer.py:83-123 | an absent key relation is a KeyError; a relation in 2NF comes back with flag true; otherwise a KeyError on absent dependency columns, or the decomposition with flag false |
| SecondNF.Transform2NFBase | normalizer.py:114-116 | when a relation not in 2NF is decomposed, the relation under `pk` loses exactly the dependents outside their own determinant of the violating dependencies, and keeps every input row, in order, without those columns |
| SecondNF.Transform2NFSplits | normalizer.py:100-107 | when a relation not in 2NF is decomposed with distinct determinants, each violating dependency has its own entry, ahead of the key relation |
| SecondNF.Transform2NFCoversColumns | normalizer.py:100-116 | when a relation not in 2NF is decomposed, the output relations together hold exactly the columns of the input relation |
| SecondNF.PartsCoverColumns | normalizer.py:106-116 | the split tables and the reduced base together hold exactly the relation's columns |
| SecondNF.SplitHolds | normalizer.py:106 | every dependent of a violating dependency is a column of its split table |
| SecondNF.SplitWithin | normalizer.py:106 | a split table holds only columns of the relation |
| SecondNF.Transform2NFReachesSecondNF | normalizer.py:83-123 | after a transform that succeeds the relation under `pk` passes the 2NF check |
| SecondNF.ReducedBaseIn2NF | normalizer.py:68-81 | no partial-key dependency names a non-key column of the reduced base |
| SecondNF.InRemoved | normalizer.py:110-112 | a dependent outside its determinant is among the removed attributes |
| ThirdNF.PartialAtReduces | normalizer.py:127-139 | for a dependency of the dictionary the three-part test holds exactly when its determinant is non-empty and inside the relation |
| ThirdNF.KeyTuples | normalizer.py:127 | the key set holds no single attribute name, and is empty only when there are no dependencies |
| ThirdNF.RelationHasPartial | normalizer.py:134-140 | the dependency loop finds a hit exactly when a remaining dependency has a non-empty determinant inside the relation |
| ThirdNF.HasPartialFrom | normalizer.py:132-141 | the relation loop finds a hit exactly when some remaining relation contains a non-empty determinant |
| ThirdNF.HasPartialDependencies | normalizer.py:125-141 | `has_partial_dependencies` holds exactly when some relation contains some non-empty determinant |
| ThirdNF.Validate3NF | normalizer.py:143-145 | the check passes exactly when no relation contains the non-empty determinant of any dependency |
| ThirdNF.FirstSplit | normalizer.py:168-177 | the transform splits on the first dependency whose determinant lies in the relation and whose dependents are not all in it |
| ThirdNF.CreateNewRelations | normalizer.py:147-157 | the first table has columns `lhs + rhs`; the second has the relation's columns without the dependents; together they cover the relation, and a table with columns holds no repeated row |
| ThirdNF.CreateNewRelationsRows | normalizer.py:154-155 | a row is in either new table exactly when it is some input row cut down to that table's columns |
| ThirdNF.Split3NF | normalizer.py:167-179 | an unsplit relation is kept; a split is a KeyError exactly when the dependents are not all columns, and otherwise yields the determinant table and the reduced relation under its name |
| ThirdNF.Rebuild | normalizer.py:167-179 | the loop fails exactly when some relation's split fails; otherwise every relation name survives, keys stay unique and every entry comes from some relation's split |
| ThirdNF.RebuildIsPutAll | normalizer.py:167-179 | when no split fails, the relation loop is one run of assignments over all split tables in relation order |
| ThirdNF.RebuildLookup | normalizer.py:167-179 | when no split fails, the loop succeeds and each name holds the last table any relation's split wrote under it, relation by relation |
| ThirdNF.Transform3NF | normalizer.py:159-186 | valid input is returned unchanged with flag true; otherwise the result has flag false, keeps every relation name, has unique keys, and holds only split tables |
| Bcnf.DependentViolates | normalizer.py:211-216 | the dependent loop fails exactly when some dependent lies outside the determinant and the determinant's closure misses a column |
| Bcnf.RelationViolates | normalizer.py:210-216 | the dependency loop fails exactly when some remaining dependency violates BCNF on the relation |
| Bcnf.AnyViolates | normalizer.py:207-216 | the relation loop fails exactly when some remaining relation has a violating dependency |
| Bcnf.ValidateBCNF | normalizer.py:205-217 | the check passes exactly when no dependency with a dependent outside its determinant has a closure missing a column of some relation |
| Bcnf.SplitRelation | normalizer.py:232-243 | the dependency loop leaves a remainder with a subset of the columns and the same number of rows; a column no remaining dependency names as a dependent stays in the remainder; a relation no remaining dependency splits comes through unchanged with nothing split off |
| Bcnf.SplitRelationIsLoop | normalizer.py:231-243 | the split walks every dependency in order: a dependency writes its table exactly when it passes the split test on the relation as the earlier split-off dependencies left it, the tables come in that order, and the remainder is the relation after the last dependency |
| Bcnf.WalkShift | normalizer.py:232-243 | walking the dependencies from one position is taking that position's step and walking on from the next |
| Bcnf.EmittedShift | normalizer.py:232-243 | the tables written from one position are what that position writes followed by the tables written from the next |
| Bcnf.SplitRelationStep | normalizer.py:236-243 | one dependency of the loop writes at most its own table and hands the relation, with its dependents dropped exactly when it passed the split test, to the next |
| Bcnf.SplitRelationCovers | normalizer.py:232-243 | every column of the relation survives in the remainder or in a split-off table |
| Bcnf.CoversStep | normalizer.py:240-243 | what one drop removes is in the table split off just before it |
| Bcnf.SplitRelationEntries | normalizer.py:236-243 | each split-off table sits under its determinant, has columns `lhs + rhs`, and its dependents are gone from the remainder |
| Bcnf.SplitRelationProvenance | normalizer.py:232-243 | each split-off table is the distinct rows on `lhs + rhs` of some relation `cur` on which its dependency passed the split test; `cur` is pinned by its columns only, lying between the final remainder's and the input's |
| Bcnf.SplitRemainderRows | normalizer.py:232-243 | the remainder keeps every input row, in order, cut down to the remainder's columns |
| Bcnf.SplitRelationRows | normalizer.py:240-242 | a row is in a split-off table exactly when it is some input row cut down to that table's columns |
| Bcnf.SplitRelationWellFormed | normalizer.py:240-243 | splitting keeps the remainder and every split-off table well formed |
| Bcnf.ColsOf | normalizer.py:241 | the collected columns are exactly those of some listed table |
| Bcnf.BcnfEntries | normalizer.py:231-246 | a relation contributes at least one table, the last one under its own name |
| Bcnf.RebuildBCNF | normalizer.py:231-246 | the loop, writing into a fresh dict, keeps every relation name, keeps keys unique, and writes only tables some relation's split produced |
| Bcnf.RebuildLookup | normalizer.py:231-246 | each name of the rebuilt set holds the last table any relation's split wrote under it, relation by relation, and a name no split wrote is absent |
| Bcnf.TransformBCNF | normalizer.py:220-256 | the flag is exactly the BCNF check; valid input comes back unchanged; otherwise every name survives with unique keys and only split tables |
| Bcnf.BcnfEntriesPreserveColumns | normalizer.py:231-246 | the tables a relation contributes hold exactly its columns |
| Grouping.GroupCount | normalizer.py:275-277 | there are never more groups than rows |
| Grouping.GroupKeysAgree | normalizer.py:275 | two rows fall in the same group exactly when they agree on every determinant column |
| Grouping.GroupCountBelowRows | normalizer.py:275-277 | there are fewer groups than rows exactly when two different rows agree on the determinant |
| Grouping.NoDupIffSingletons | normalizer.py:334-337 | all group counts are one exactly when no key repeats |
| FourthNF.FirstDependent | normalizer.py:265-279 | the dependent loop stops at the first flagged dependent, and finds none exactly when no dependent is flagged |
| FourthNF.FirstViolation | normalizer.py:294-314 | the transform's loops stop at the first flagged (determinant, dependent) pair in loop order, and find none exactly when no pair is flagged |
| FourthNF.CleanRelations | normalizer.py:262-281 | the relation loop passes exactly when no relation has a flagged pair |
| FourthNF.Validate4NF | normalizer.py:260-281 | the check passes exactly when no relation contains a determinant and dependent on which two different rows share determinant cells |
| FourthNF.Split4NF | normalizer.py:293-319 | a clean relation is kept; otherwise the determinant-plus-dependent table goes under the determinant and the table without the dependent under the relation's name, together covering its columns, each without repeated rows when it has columns |
| FourthNF.Split4NFRows | normalizer.py:309-312 | when a relation is split, a row is in either table exactly when it is some input row cut down to that table's columns |
| FourthNF.Round | normalizer.py:285-319 | one call's `four_relations` holds every input name, with unique keys |
| FourthNF.RoundProduced | normalizer.py:285-319 | one call's `four_relations` holds only tables some relation's split produced |
| FourthNF.RoundLookup | normalizer.py:285-319 | each name of `four_relations` holds the last table any relation's split wrote under it, relation by relation, and a name no split wrote is absent |
| FourthNF.Iterate | normalizer.py:321-325 | any number of rounds keeps every relation name, and after at least one round the names are unique |
| FourthNF.Transform4NF | normalizer.py:284-325 | valid input is returned with flag true; every input relation name survives; a true flag means the result passes the 4NF check and is some number of rounds applied to the input; a false flag means the result is a round on a failing set that kept the relation count |
| FifthNF.IsSuperkey | normalizer.py:331-337 | grouping by no columns is an error, and so is grouping by absent columns, reporting only absent ones; otherwise the determinant is a superkey exactly when no two different rows agree on it |
| FifthNF.PrependMember | normalizer.py:376 | a sequence is in the extension exactly when it starts with the column and continues with a combination |
| FifthNF.Combinations | normalizer.py:376 | some combination of size `k` exists exactly when `k` is at most the column count |
| FifthNF.CombinationMember | normalizer.py:376 | a sequence is a size-`k` combination exactly when it has length `k` and picks columns in order |
| FifthNF.CombinationsAreSubsequences | normalizer.py:375-376 | the combinations of each size are exactly the ordered selections of that size |
| FifthNF.CombinationsCount | normalizer.py:376 | there are `n` choose `k` combinations |
| FifthNF.ScanKeys | normalizer.py:368-372 | `superkey(attributes)` holds exactly when some candidate key lies inside the attributes |
| FifthNF.RestrictSplit | normalizer.py:381-386 | a row is the union of its two projections |
| FifthNF.ProjectRowsShape | normalizer.py:363-366 | projecting rows with the same columns gives rows with the projected columns only, and gives nothing only when there are no rows |
| FifthNF.JoinShape | normalizer.py:385-386 | the pairwise join puts the columns of both sides in each row, and is empty exactly when one side is |
| FifthNF.RowsInSplitJoin | normalizer.py:381-388 | the join of the two projections never misses a row of the relation |
| FifthNF.JoinFailsIff | normalizer.py:381-388 | the test fails exactly when one row's part on the combination glued to another row's remaining part is not a row |
| FifthNF.CombinationsPass | normalizer.py:376-390 | the loop over one size passes exactly when every combination holds a key or joins back |
| FifthNF.SizesPass | normalizer.py:375-390 | the size loop passes exactly when every combination of every remaining size is accepted |
| FifthNF.SizesAcceptedIff | normalizer.py:375-376 | the sizes from one up to the column count minus one cover exactly the proper non-empty ordered selections |
| FifthNF.RelationPasses | normalizer.py:374-390 | a relation passes exactly when every proper non-empty selection of its columns holds a candidate key or joins back losslessly |
| FifthNF.RelationsPass | normalizer.py:357-390 | the relation loop passes exactly when every remaining relation passes |
| FifthNF.Validate5NF | normalizer.py:338-392 | the check passes exactly when every relation passes with its candidate keys |
| FifthNF.SingleRowJoinsBack | normalizer.py:381-388 | with at most one row every split joins back |
| FifthNF.SingleRowPasses | normalizer.py:374-390 | a relation with at most one row passes |
| FifthNF.RelationPassesAsWritten | normalizer.py:361-390 | the check as written raises exactly when the relation has rows and some proper non-empty selection exists that holds no key |
| FifthNF.ReachesProjectIff | normalizer.py:375-381 | the loop reaches `project` exactly when some proper non-empty selection holds no candidate key |
| FifthNF.AsWrittenRaisesOnValidRelation | normalizer.py:364-366 | a one-row, two-column relation without candidate keys makes the check as written raise, although it passes |
| FifthNF.Matches | normalizer.py:405 | the rows matching one left row on the common columns, each joined with it |
| FifthNF.MergeRows | normalizer.py:405 | the inner merge holds exactly the joins of left and right rows that agree on the common columns |
| FifthNF.Merge | normalizer.py:405 | the merged table has exactly the columns of the two tables |
| FifthNF.MergeWellFormed | normalizer.py:405 | merging well-formed tables gives a well-formed table |
| FifthNF.IsLossless | normalizer.py:401-406 | a pair is lossless exactly when the tables share a column and their merge on the shared columns equals the table |
| FifthNF.KeySplit | normalizer.py:397-398 | the key split yields the key projection and a projection with the same columns as the table |
| FifthNF.KeySplitMergeKeepsRows | normalizer.py:415-420 | merging the two tables of a key split never loses a row of the table |
| FifthNF.SplitTable | normalizer.py:414-425 | a table is replaced by its key split exactly when it holds the key and the split is lossless, and then the split merges back to it; otherwise it is kept |
| FifthNF.AllCols | normalizer.py:408-426 | every listed table's columns are among the collected ones |
| FifthNF.AllColsCovers | normalizer.py:408-426 | a column is collected exactly when some listed table has it |
| FifthNF.AllColsAppend | normalizer.py:421 | the columns of two lists together are the columns of their concatenation |
| FifthNF.SplitTableColumns | normalizer.py:414-425 | a table's replacement holds exactly its columns |
| FifthNF.SplitTables | normalizer.py:412-426 | the table loop at most doubles the table count and keeps exactly the columns |
| FifthNF.SplitTablesFrom | normalizer.py:412-426 | every table the loop outputs comes from one input table's split, and every input table's split is output |
| FifthNF.DecomposeFrom | normalizer.py:411-426 | each key at most doubles the table count, and the columns are kept |
| FifthNF.Decompose5NF | normalizer.py:395-428 | the decomposition has between one and two-to-the-number-of-keys tables, holding exactly the table's columns |
| FifthNF.Transform5NF | normalizer.py:431-444 | the flag is exactly the 5NF check; valid input comes back unchanged; otherwise each relation is replaced by its decomposition under its own name |

## Left out

- The driver `main.py` is not part of this model. It reads the CSV and dependency files, parses input, chooses the target normal form and generates SQL.
- All `print` output is left out. It is output only.
- Candidate keys are not modelled as read. In `validate_5NF` they come from `input()` and a regular expression (lines 341-350). The model takes them as a parameter `ck` from relation name to key list.
- NaN is not modelled as a group key. `groupby` drops rows whose key is NaN (lines 275, 305 and 334), but the model groups the NaN an empty explosion writes like any other value. `merge` (line 405) matches NaN keys to each other, as the model does.
- `DataFrame.equals` is modelled as equality of the column list and the row sequence. Index labels and dtypes are not compared.
- Column order from Python set iteration is not modelled. Lines 151, 382 and 416-417 build column lists from sets, and the model uses the relation's own column order without repeats instead.
- The 5NF join is read as a map union. The source concatenates value tuples at line 386; the model reads rows by column name.
- Dict cells never trigger the transform on their own. `is_nested_collection` ignores them, so a column whose only nested cells are dicts is not exploded, and the relation stays out of 1NF. A column exploded for its lists or sets also explodes its dict cells into their keys, since pandas treats a dict as list-like.
- FirstNF.Transform1NF: when column labels repeat, pandas `explode` raises ValueError, but the model returns a result. `FirstNF.Transform1NFRows` and `FirstNF.ExplodeColumnsRows` require distinct column names. A frame read by `read_csv` has distinct labels.
- FirstNF.ExplodeColumns: its contract covers only the column list and well-formedness. Where each output row comes from is stated by the lemma `FirstNF.ExplodeColumnsRows`, which keeps a recursive function's contract cheap for its callers.
- FirstNF.Transform1NF: its contract does not speak of rows. They are stated by `FirstNF.Transform1NFRows`.
- RelationSets.PutAll: its contract covers keys and entries only. What each key looks up is stated by `RelationSets.PutAllLookup`.
- RelationSets.PutParts: its contract covers keys and entries only. What each key looks up is stated by `RelationSets.PutPartsIsPutAll` and `RelationSets.PutPartsLookup`.
- FirstNF.ExplodeRow: tuple cells are not modelled. pandas explodes a tuple like a list, but the model's cells have no tuple value.
- FirstNF.Transform1NFFlattens: it assumes dict keys are scalars and that collections do not hold collections. Python dict keys are hashable, so a list key cannot occur; a nested list would survive one explode.
- Repeated column names in a selection are not modelled beyond the column list. When `lhs` and `rhs` overlap, pandas selects the column twice; the model keeps the repeated name in the column list and one cell per name in each row.
- FourthNF.Transform4NF: the recursion of `transform_to_4NF` is bounded by a fuel parameter and reports `FuelExhausted` when the fuel runs out. The source recurses until Python's recursion limit.
- FourthNF.Transform4NF: it does not state that the decomposition is lossless. The source makes no such promise.
- FourthNF.Validate4NF: it requires every determinant to be non-empty. Grouping by no columns raises in pandas, and `main.py` (lines 55-60) always builds non-empty determinants.
- FourthNF.Validate4NF: it requires that no dependent lies inside its own determinant (`A ->> A`). For such a dependency on a relation holding its columns, `reset_index` at lines 275 and 305 raises ValueError because the column already exists. The model does not return that error; `Transform4NF` carries the same requires.
- FourthNF.FirstViolation: it does not require `Groupable`, so on a dependent inside its determinant it gives a verdict where pandas raises. The entry points `Validate4NF` and `Transform4NF` exclude that case; `FirstViolation`, `Split4NF` and `Round` state what the loops compute once the grouping succeeded.
- Single-string determinants are not modelled. `isinstance(determinant, tuple)` (lines 267-270 and 297-300) admits a single string, but the dictionaries `main.py` builds only have tuple keys.
- The unused `pk` and `fds` parameters are not modelled. `validate_bcnf`, `transform_to_BCNF` and `transform_to_5NF` take them without reading them, so the Dafny functions do not have them.
- Bcnf.TransformBCNF: it does not claim that the result is in BCNF. The source returns after one pass, whatever the pass produced.
- Bcnf.SplitRelation: it does not claim the remainder is free of duplicate rows. `drop(columns=rhs)` at line 243 does not de-duplicate.
- FifthNF.Validate5NF: it requires a candidate-key list for every relation name. The source reads one per relation before the check loop.
- FifthNF.Transform5NF: it requires the same candidate-key lists, for the same reason.
- `reset_index` is not modelled. Rows carry no index labels in the model.

## Findings

| source | as written | input that shows it | evidently intended | confidence | as-written member | corrected member |
|---|---|---|---|---|---|---|
| normalizer.py:361-366 | `project` reads `row[attr]` with a column name, but each row is a tuple made by `tuple(row)` from `to_numpy()`, so indexing it with a string raises `TypeError` as soon as the loop reaches a combination that holds no candidate key | relation with columns `A`, `B`, one row, and no candidate keys: the combination `('A',)` reaches `project` | read each row's cells by column name (or by column position), so the projection and join test run | not executed | FifthNF.RelationPassesAsWritten, FifthNF.AsWrittenRaisesOnValidRelation | FifthNF.RelationPasses, FifthNF.SingleRowPasses |

=== FILE: bcnf.dfy ===
/**
 Boyce-Codd normal form (`validate_bcnf`, `transform_to_BCNF`). The
 validator asks, for every relation and every dependency with a dependent
 outside its determinant, whether the determinant's closure covers the
 relation. The transform makes a single pass: each relation is walked
 through the dependencies in order, splitting off `lhs + rhs` and dropping
 `rhs` from the relation, which later dependencies then see reduced.
 */
module Bcnf {
  import opened Schema
  import opened RelationSets
  import opened Closure

  /** Some dependent of `fd` from position `k` on lies outside its determinant. */
  predicate OutsideFrom(fd: FD, k: nat) {
    exists m :: k <= m < |fd.rhs| && fd.rhs[m] !in fd.lhs
  }

  /** The closure of `fd`'s determinant covers every column of `rel`. */
  predicate Covered(rel: Relation, fd: FD, fds: seq<FD>) {
    Cols(rel) <= AttributeClosure(Elems(fd.lhs), fds)
  }

  /** The dependency `fd` (of `fds`) shows `rel` is not in BCNF. */
  predicate ViolatesBCNF(rel: Relation, fd: FD, fds: seq<FD>) {
    OutsideFrom(fd, 0) && !Covered(rel, fd, fds)
  }

  /** The dependent loop at lines 211-216 for one relation and one dependency, from dependent `k` on. */
  function DependentViolates(rel: Relation, fd: FD, fds: seq<FD>, k: nat): (b: bool)
    requires k <= |fd.rhs|
    ensures b <==> OutsideFrom(fd, k) && !Covered(rel, fd, fds)
    decreases |fd.rhs| - k
  {
    if k == |fd.rhs| then false
    else
      var uncovered := Cols(rel) - AttributeClosure(Elems(fd.lhs), fds);
      EmptyDifference(Cols(rel), AttributeClosure(Elems(fd.lhs), fds));
      if fd.rhs[k] !in fd.lhs && uncovered != {} then true
      else DependentViolates(rel, fd, fds, k + 1)
  }

  lemma EmptyDifference(a: set<Attr>, b: set<Attr>)
    ensures a - b == {} <==> a <= b
  {
    if !(a <= b) {
      var x :| x in a && x !in b;
      assert x in a - b;
    }
  }

  /** The dependency loop for one relation, from dependency `i` on. */
  function RelationViolates(rel: Relation, fds: seq<FD>, i: nat): (b: bool)
    requires i <= |fds|
    ensures b <==> exists k :: i <= k < |fds| && ViolatesBCNF(rel, fds[k], fds)
    decreases |fds| - i
  {
    if i == |fds| then false
    else if DependentViolates(rel, fds[i], fds, 0) then true
    else RelationViolates(rel, fds, i + 1)
  }

  /** The relation loop, from relation `j` on. */
  function AnyViolates(rs: RelSet, fds: seq<FD>, j: nat): (b: bool)
    requires j <= |rs|
    ensures b <==> exists m, k :: j <= m < |rs| && 0 <= k < |fds| && ViolatesBCNF(rs[m].1, fds[k], fds)
    decreases |rs| - j
  {
    if j == |rs| then false
    else if RelationViolates(rs[j].1, fds, 0) then true
    else AnyViolates(rs, fds, j + 1)
  }

  /** `validate_bcnf(relations_dict, pk, fds)`; `pk` is not consulted and is not a parameter here. */
  function ValidateBCNF(rs: RelSet, fds: seq<FD>): (ok: bool)
    ensures ok <==> forall m, k | 0 <= m < |rs| && 0 <= k < |fds| :: !ViolatesBCNF(rs[m].1, fds[k], fds)
  {
    !AnyViolates(rs, fds, 0)
  }

  /** The test at lines 236-239 that splits `fd` off the current relation. */
  predicate SplitsOff(rel: Relation, fd: FD, fds: seq<FD>) {
    && !(Cols(rel) <= AttributeClosure(Elems(fd.lhs), fds))
    && Elems(fd.lhs + fd.rhs) <= Cols(rel)
    && Elems(fd.lhs + fd.rhs) != Cols(rel)
  }

  /** An entry split off from the relation by a dependency from `i` on, as the split leaves it. */
  predicate SplitFrom(e: Entry, rel: Relation, rest: Relation, fds: seq<FD>, i: nat) {
    exists k :: i <= k < |fds| && e.0 == fds[k].lhs && e.1.columns == fds[k].lhs + fds[k].rhs
                && Elems(fds[k].rhs) !! Cols(rest) && Cols(e.1) <= Cols(rel)
  }

  /**
   An entry a dependency from `i` on split off: the dependency passed the
   split test on the relation `cur` as it stood at that step, between the
   final remainder and the input, and the entry is `cur`'s distinct rows on
   `lhs + rhs`.
   */
  ghost predicate SplitOffAt(e: Entry, rel: Relation, rest: Relation, fds: seq<FD>, i: nat) {
    exists k, cur :: && i <= k < |fds| && SplitsOff(cur, fds[k], fds)
                     && Cols(rest) <= Cols(cur) <= Cols(rel)
                     && e == (fds[k].lhs, ProjectDistinct(cur, fds[k].lhs + fds[k].rhs))
  }

  /**
   The dependency loop of the transform for one relation, from dependency
   `i` on: the tables split off, in assignment order, and what remains of
   the relation. Dropping never removes rows.
   */
  function SplitRelation(rel: Relation, fds: seq<FD>, i: nat): (r: (seq<Entry>, Relation))
    requires i <= |fds|
    ensures Cols(r.1) <= Cols(rel)
    ensures |r.1.rows| == |rel.rows|
    ensures (forall k | i <= k < |fds| :: !SplitsOff(rel, fds[k], fds)) ==> r == ([], rel)
    ensures forall a | a in Cols(rel) && (forall k | i <= k < |fds| :: a !in fds[k].rhs) :: a in Cols(r.1)
    decreases |fds| - i
  {
    if i == |fds| then ([], rel)
    else
      var fd := fds[i];
      if SplitsOff(rel, fd, fds) then
        ElemsConcat(fd.lhs, fd.rhs);
        var t := ProjectDistinct(rel, fd.lhs + fd.rhs);
        var r := SplitRelation(Drop(rel, fd.rhs), fds, i + 1);
        ([(fd.lhs, t)] + r.0, r.1)
      else SplitRelation(rel, fds, i + 1)
  }

  /** One step of the loop on the relation as it stands: drop `fd`'s dependents when `fd` passes the split test. */
  function StepOn(s: Relation, fd: FD, fds: seq<FD>): Relation {
    if SplitsOff(s, fd, fds) then
      ElemsConcat(fd.lhs, fd.rhs);
      Drop(s, fd.rhs)
    else s
  }

  /** What that step writes: the distinct rows on `lhs + rhs` under `lhs` when `fd` passes the split test, else nothing. */
  function WrittenOn(s: Relation, fd: FD, fds: seq<FD>): (w: seq<Entry>)
    ensures |w| <= 1
  {
    if SplitsOff(s, fd, fds) then
      ElemsConcat(fd.lhs, fd.rhs);
      [(fd.lhs, ProjectDistinct(s, fd.lhs + fd.rhs))]
    else []
  }

  /** `step` applied at the positions `i` to `k - 1`, in order, starting from `s`. */
  function Walk(step: (Relation, nat) -> Relation, s: Relation, i: nat, k: nat): Relation
    decreases k - i
  {
    if k <= i then s else step(Walk(step, s, i, k - 1), k - 1)
  }

  /** What `write` gives at each of the positions `i` to `k - 1` on the state `Walk` has reached there, concatenated in order. */
  function Emitted(write: (Relation, nat) -> seq<Entry>, step: (Relation, nat) -> Relation, s: Relation, i: nat, k: nat): seq<Entry>
    decreases k - i
  {
    if k <= i then [] else Emitted(write, step, s, i, k - 1) + write(Walk(step, s, i, k - 1), k - 1)
  }

  /** Walking from `i` is taking the step at `i` and walking on from `i + 1`. */
  lemma {:induction false} WalkShift(step: (Relation, nat) -> Relation, s: Relation, i: nat, k: nat)
    requires i < k
    ensures Walk(step, s, i, k) == Walk(step, step(s, i), i + 1, k)
    decreases k - i
  {
    if k > i + 1 {
      WalkShift(step, s, i, k - 1);
    }
  }

  /** What is emitted from `i` is what the step at `i` writes, then what is emitted from `i + 1` on. */
  lemma {:induction false} EmittedShift(write: (Relation, nat) -> seq<Entry>, step: (Relation, nat) -> Relation, s: Relation, i: nat, k: nat)
    requires i < k
    ensures Emitted(write, step, s, i, k) == write(s, i) + Emitted(write, step, step(s, i), i + 1, k)
    decreases k - i
  {
    var next := step(s, i);
    if k > i + 1 {
      EmittedShift(write, step, s, i, k - 1);
      WalkShift(step, s, i, k - 1);
      var last := write(Walk(step, next, i + 1, k - 1), k - 1);
      AppendAssoc(write(s, i), Emitted(write, step, next, i + 1, k - 1), last);
    } else {
      assert Emitted(write, step, s, i, k) == [] + write(s, i);
    }
  }

  lemma AppendAssoc(a: seq<Entry>, b: seq<Entry>, c: seq<Entry>)
    ensures (a + b) + c == a + (b + c)
  {
  }

  /** The step at position `j` of the dependency list. */
  function StepAt(fds: seq<FD>): (Relation, nat) -> Relation {
    (s: Relation, j: nat) => if j < |fds| then StepOn(s, fds[j], fds) else s
  }

  /** What the dependency at position `j` writes. */
  function WriteAt(fds: seq<FD>): (Relation, nat) -> seq<Entry> {
    (s: Relation, j: nat) => if j < |fds| then WrittenOn(s, fds[j], fds) else []
  }

  /**
   The relation as the loop holds it on reaching dependency `k`, having
   started at `i`: the input with the dependents of every earlier
   dependency that passed the split test dropped, in order.
   */
  function StateAt(rel: Relation, fds: seq<FD>, i: nat, k: nat): Relation
    requires i <= k <= |fds|
  {
    Walk(StepAt(fds), rel, i, k)
  }

  /** The tables written by the dependencies `i` to `k - 1`, in order. */
  function WrittenBefore(rel: Relation, fds: seq<FD>, i: nat, k: nat): seq<Entry>
    requires i <= k <= |fds|
  {
    Emitted(WriteAt(fds), StepAt(fds), rel, i, k)
  }

  /**
   The split walks the dependencies in order: dependency `k` is split off
   exactly when it passes the split test on the input with the dependents
   of the earlier split-off dependencies dropped, its table comes at its
   place in that order, and the remainder is the relation after the last
   dependency.
   */
  lemma {:induction false} SplitRelationIsLoop(rel: Relation, fds: seq<FD>, i: nat)
    requires i <= |fds|
    ensures SplitRelation(rel, fds, i) == (WrittenBefore(rel, fds, i, |fds|), StateAt(rel, fds, i, |fds|))
    decreases |fds| - i
  {
    if i < |fds| {
      var next := StepOn(rel, fds[i], fds);
      SplitRelationIsLoop(next, fds, i + 1);
      SplitRelationStep(rel, fds, i);
      assert StepAt(fds)(rel, i) == next;
      assert WriteAt(fds)(rel, i) == WrittenOn(rel, fds[i], fds);
      WalkShift(StepAt(fds), rel, i, |fds|);
      EmittedShift(WriteAt(fds), StepAt(fds), rel, i, |fds|);
    }
  }

  /** One step of `SplitRelation` in terms of `StepOn` and `WrittenOn`. */
  lemma SplitRelationStep(rel: Relation, fds: seq<FD>, i: nat)
    requires i < |fds|
    ensures var r := SplitRelation(StepOn(rel, fds[i], fds), fds, i + 1);
            SplitRelation(rel, fds, i) == (WrittenOn(rel, fds[i], fds) + r.0, r.1)
  {
    if SplitsOff(rel, fds[i], fds) {
      SplitStepTaken(rel, fds, i);
    } else {
      SplitStepSkipped(rel, fds, i);
    }
  }

  lemma SplitStepTaken(rel: Relation, fds: seq<FD>, i: nat)
    requires i < |fds| && SplitsOff(rel, fds[i], fds)
    ensures var r := SplitRelation(StepOn(rel, fds[i], fds), fds, i + 1);
            SplitRelation(rel, fds, i) == (WrittenOn(rel, fds[i], fds) + r.0, r.1)
  {
    var fd := fds[i];
    ElemsConcat(fd.lhs, fd.rhs);
    var next := Drop(rel, fd.rhs);
    var head := [(fd.lhs, ProjectDistinct(rel, fd.lhs + fd.rhs))];
    assert StepOn(rel, fd, fds) == next;
    assert WrittenOn(rel, fd, fds) == head;
    assert SplitRelation(rel, fds, i) == (head + SplitRelation(next, fds, i + 1).0, SplitRelation(next, fds, i + 1).1);
  }

  lemma SplitStepSkipped(rel: Relation, fds: seq<FD>, i: nat)
    requires i < |fds| && !SplitsOff(rel, fds[i], fds)
    ensures var r := SplitRelation(StepOn(rel, fds[i], fds), fds, i + 1);
            SplitRelation(rel, fds, i) == (WrittenOn(rel, fds[i], fds) + r.0, r.1)
  {
    SkipUnfold(rel, fds, i);
    SkipStep(rel, fds[i], fds);
    EmptyAppend(SplitRelation(rel, fds, i + 1));
  }

  lemma SkipUnfold(rel: Relation, fds: seq<FD>, i: nat)
    requires i < |fds| && !SplitsOff(rel, fds[i], fds)
    ensures SplitRelation(rel, fds, i) == SplitRelation(rel, fds, i + 1)
  {
  }

  lemma SkipStep(rel: Relation, fd: FD, fds: seq<FD>)
    requires !SplitsOff(rel, fd, fds)
    ensures StepOn(rel, fd, fds) == rel && WrittenOn(rel, fd, fds) == []
  {
  }

  lemma EmptyAppend(r: (seq<Entry>, Relation))
    ensures ([] + r.0, r.1) == r
  {
    assert [] + r.0 == r.0;
  }

  /** Every column of the relation is in the remainder or in a split-off table. */
  lemma {:induction false} SplitRelationCovers(rel: Relation, fds: seq<FD>, i: nat)
    requires i <= |fds|
    ensures Cols(rel) <= Cols(SplitRelation(rel, fds, i).1) + ColsOf(SplitRelation(rel, fds, i).0)
    decreases |fds| - i
  {
    if i < |fds| {
      var fd := fds[i];
      if SplitsOff(rel, fd, fds) {
        ElemsConcat(fd.lhs, fd.rhs);
        var t := ProjectDistinct(rel, fd.lhs + fd.rhs);
        var reduced := Drop(rel, fd.rhs);
        var r := SplitRelation(reduced, fds, i + 1);
        SplitRelationCovers(reduced, fds, i + 1);
        CoversStep(Cols(rel), Cols(reduced), Elems(fd.rhs), (fd.lhs, t), r.0, Cols(r.1));
        assert SplitRelation(rel, fds, i) == ([(fd.lhs, t)] + r.0, r.1);
      } else {
        SplitRelationCovers(rel, fds, i + 1);
      }
    }
  }

  /** The covering step of a split: what the drop removed is in the split-off table. */
  lemma CoversStep(all: set<Attr>, reduced: set<Attr>, dropped: set<Attr>, e: Entry, es: seq<Entry>, rest: set<Attr>)
    requires reduced == all - dropped && dropped <= Cols(e.1)
    requires reduced <= rest + ColsOf(es)
    ensures all <= rest + ColsOf([e] + es)
  {
    ColsOfCons(e, es);
    forall a | a in all ensures a in rest + ColsOf([e] + es) {
      if a !in dropped {
        assert a in reduced;
      }
    }
  }

  /** Each split-off table sits under its determinant, has columns `lhs + rhs`, and its dependents are gone from the remainder. */
  lemma {:induction false} SplitRelationEntries(rel: Relation, fds: seq<FD>, i: nat)
    requires i <= |fds|
    ensures forall e | e in SplitRelation(rel, fds, i).0 :: SplitFrom(e, rel, SplitRelation(rel, fds, i).1, fds, i)
    decreases |fds| - i
  {
    if i < |fds| {
      var fd := fds[i];
      var out := SplitRelation(rel, fds, i);
      if SplitsOff(rel, fd, fds) {
        ElemsConcat(fd.lhs, fd.rhs);
        var t := ProjectDistinct(rel, fd.lhs + fd.rhs);
        var reduced := Drop(rel, fd.rhs);
        var r := SplitRelation(reduced, fds, i + 1);
        SplitRelationEntries(reduced, fds, i + 1);
        assert out == ([(fd.lhs, t)] + r.0, r.1);
        forall e | e in out.0 ensures SplitFrom(e, rel, out.1, fds, i) {
          if e == (fd.lhs, t) {
            assert Elems(fd.rhs) !! Cols(out.1);
          } else {
            assert e in r.0;
            assert SplitFrom(e, reduced, r.1, fds, i + 1);
          }
        }
      } else {
        SplitRelationEntries(rel, fds, i + 1);
        assert out == SplitRelation(rel, fds, i + 1);
        forall e | e in out.0 ensures SplitFrom(e, rel, out.1, fds, i) {
          assert SplitFrom(e, rel, out.1, fds, i + 1);
        }
      }
    }
  }

  /** Each split-off table was cut from the relation as it stood when its dependency passed the split test. */
  lemma {:induction false} SplitRelationProvenance(rel: Relation, fds: seq<FD>, i: nat)
    requires i <= |fds|
    ensures forall e | e in SplitRelation(rel, fds, i).0 :: SplitOffAt(e, rel, SplitRelation(rel, fds, i).1, fds, i)
    decreases |fds| - i
  {
    if i < |fds| {
      var fd := fds[i];
      var out := SplitRelation(rel, fds, i);
      if SplitsOff(rel, fd, fds) {
        ElemsConcat(fd.lhs, fd.rhs);
        var t := ProjectDistinct(rel, fd.lhs + fd.rhs);
        var reduced := Drop(rel, fd.rhs);
        var r := SplitRelation(reduced, fds, i + 1);
        SplitRelationProvenance(reduced, fds, i + 1);
        assert out == ([(fd.lhs, t)] + r.0, r.1);
        forall e | e in out.0 ensures SplitOffAt(e, rel, out.1, fds, i) {
          if e == (fd.lhs, t) {
            assert SplitsOff(rel, fds[i], fds) && Cols(out.1) <= Cols(rel);
          } else {
            assert e in r.0;
            assert SplitOffAt(e, reduced, r.1, fds, i + 1);
          }
        }
      } else {
        SplitRelationProvenance(rel, fds, i + 1);
        forall e | e in out.0 ensures SplitOffAt(e, rel, out.1, fds, i) {
          assert SplitOffAt(e, rel, out.1, fds, i + 1);
        }
      }
    }
  }

  /** The remainder keeps every input row, in order, cut down to its own columns. */
  lemma {:induction false} SplitRemainderRows(rel: Relation, fds: seq<FD>, i: nat)
    requires i <= |fds| && WellFormed(rel)
    ensures var rest := SplitRelation(rel, fds, i).1;
            forall j | 0 <= j < |rel.rows| :: rest.rows[j] == Restrict(rel.rows[j], Cols(rest))
    decreases |fds| - i
  {
    var rest := SplitRelation(rel, fds, i).1;
    if i == |fds| {
      forall j | 0 <= j < |rel.rows| ensures rest.rows[j] == Restrict(rel.rows[j], Cols(rest)) {
        RestrictAll(rel.rows[j], Cols(rel));
      }
    } else if SplitsOff(rel, fds[i], fds) {
      var fd := fds[i];
      ElemsConcat(fd.lhs, fd.rhs);
      var reduced := Drop(rel, fd.rhs);
      SplitRemainderRows(reduced, fds, i + 1);
      assert rest == SplitRelation(reduced, fds, i + 1).1;
      forall j | 0 <= j < |rel.rows| ensures rest.rows[j] == Restrict(rel.rows[j], Cols(rest)) {
        RestrictDropped(rel.rows[j], Elems(fd.rhs), Cols(rest));
      }
    } else {
      SplitRemainderRows(rel, fds, i + 1);
    }
  }

  /** A row is in a split-off table exactly when it is some input row cut down to that table's columns. */
  lemma {:induction false} SplitRelationRows(rel: Relation, fds: seq<FD>, i: nat, t: Row)
    requires i <= |fds|
    ensures forall e | e in SplitRelation(rel, fds, i).0 ::
              t in e.1.rows <==> exists j :: 0 <= j < |rel.rows| && t == Restrict(rel.rows[j], Cols(e.1))
    decreases |fds| - i
  {
    if i < |fds| {
      var fd := fds[i];
      var out := SplitRelation(rel, fds, i);
      if SplitsOff(rel, fd, fds) {
        ElemsConcat(fd.lhs, fd.rhs);
        var head := (fd.lhs, ProjectDistinct(rel, fd.lhs + fd.rhs));
        var reduced := Drop(rel, fd.rhs);
        var r := SplitRelation(reduced, fds, i + 1);
        SplitRelationRows(reduced, fds, i + 1, t);
        SplitRelationEntries(reduced, fds, i + 1);
        assert out == ([head] + r.0, r.1);
        forall e | e in out.0
          ensures t in e.1.rows <==> exists j :: 0 <= j < |rel.rows| && t == Restrict(rel.rows[j], Cols(e.1))
        {
          if e == head {
            ProjectDistinctRows(rel, fd.lhs + fd.rhs, t);
          } else {
            assert e in r.0 && SplitFrom(e, reduced, r.1, fds, i + 1);
            DroppedRowsAgree(rel, fd.rhs, Cols(e.1), t);
          }
        }
      } else {
        SplitRelationRows(rel, fds, i + 1, t);
      }
    }
  }

  /** Cutting rows down to columns the drop kept gives the same rows as cutting down the rows before the drop. */
  lemma DroppedRowsAgree(rel: Relation, dropped: seq<Attr>, cols: set<Attr>, t: Row)
    requires Elems(dropped) <= Cols(rel) && cols <= Cols(Drop(rel, dropped))
    ensures (exists j :: 0 <= j < |rel.rows| && t == Restrict(Drop(rel, dropped).rows[j], cols)) <==>
            (exists j :: 0 <= j < |rel.rows| && t == Restrict(rel.rows[j], cols))
  {
    var d := Drop(rel, dropped);
    forall j | 0 <= j < |rel.rows| ensures Restrict(d.rows[j], cols) == Restrict(rel.rows[j], cols) {
      RestrictDropped(rel.rows[j], Elems(dropped), cols);
    }
  }

  /** Splitting keeps every table well formed. */
  lemma {:induction false} SplitRelationWellFormed(rel: Relation, fds: seq<FD>, i: nat)
    requires i <= |fds| && WellFormed(rel)
    ensures WellFormed(SplitRelation(rel, fds, i).1)
    ensures forall e | e in SplitRelation(rel, fds, i).0 :: WellFormed(e.1)
    decreases |fds| - i
  {
    if i < |fds| {
      var fd := fds[i];
      if SplitsOff(rel, fd, fds) {
        ElemsConcat(fd.lhs, fd.rhs);
        var t := ProjectDistinct(rel, fd.lhs + fd.rhs);
        var reduced := Drop(rel, fd.rhs);
        SplitRelationWellFormed(reduced, fds, i + 1);
        assert SplitRelation(rel, fds, i) == ([(fd.lhs, t)] + SplitRelation(reduced, fds, i + 1).0, SplitRelation(reduced, fds, i + 1).1);
      } else {
        SplitRelationWellFormed(rel, fds, i + 1);
      }
    }
  }

  /** All the columns of a list of entries. */
  function ColsOf(es: seq<Entry>): (s: set<Attr>)
    ensures forall e | e in es :: Cols(e.1) <= s
    ensures forall a | a in s :: exists e :: e in es && a in Cols(e.1)
  {
    if |es| == 0 then {}
    else
      assert forall e | e in es[1..] :: e in es;
      Cols(es[0].1) + ColsOf(es[1..])
  }

  lemma ColsOfCons(e: Entry, es: seq<Entry>)
    ensures ColsOf([e] + es) == Cols(e.1) + ColsOf(es)
  {
    assert ([e] + es)[1..] == es;
  }

  /** What one relation contributes: its split-off tables, then its remainder under its own name. */
  function BcnfEntries(name: Name, rel: Relation, fds: seq<FD>): (es: seq<Entry>)
    ensures |es| > 0 && es[|es| - 1].0 == name
  {
    var r := SplitRelation(rel, fds, 0);
    r.0 + [(name, r.1)]
  }

  /** Entry `e` is one of the tables some relation contributes. */
  predicate ProducedBy(rs: RelSet, fds: seq<FD>, e: Entry) {
    exists m :: 0 <= m < |rs| && e in BcnfEntries(rs[m].0, rs[m].1, fds)
  }

  /** What each relation contributes, in relation order. */
  function BcnfParts(rs: RelSet, fds: seq<FD>): (ps: seq<seq<Entry>>)
    ensures |ps| == |rs|
    ensures forall m | 0 <= m < |rs| :: ps[m] == BcnfEntries(rs[m].0, rs[m].1, fds)
  {
    seq(|rs|, m requires 0 <= m < |rs| => BcnfEntries(rs[m].0, rs[m].1, fds))
  }

  /**
   The relation loop of the transform, writing into a fresh dict: every
   relation name survives, names stay unique, and every table written is
   one some relation's split produced.
   */
  function RebuildBCNF(rs: RelSet, fds: seq<FD>): (out: RelSet)
    ensures UniqueNames(out)
    ensures forall m | 0 <= m < |rs| :: rs[m].0 in Names(out)
    ensures forall e | e in out :: ProducedBy(rs, fds, e)
  {
    var ps := BcnfParts(rs, fds);
    forall m | 0 <= m < |rs| ensures rs[m].0 in Names(ps[m]) {
      assert ps[m][|ps[m]| - 1].0 == rs[m].0;
    }
    var out := PutParts([], ps, 0);
    PutPartsFrom([], ps, 0);
    forall e | e in out ensures ProducedBy(rs, fds, e) {
      var m :| 0 <= m < |ps| && e in ps[m];
    }
    out
  }

  /** Last write wins across the relation loop: a name holds the last table any relation's split wrote under it, in relation order. */
  lemma RebuildLookup(rs: RelSet, fds: seq<FD>, n: Name)
    ensures Lookup(RebuildBCNF(rs, fds), n) == LastUnder(Concat(BcnfParts(rs, fds)), n)
  {
    PutPartsLookup([], BcnfParts(rs, fds), n);
  }

  /** `transform_to_BCNF(relations_dict, pk, fds)`: the first iteration of its loop always returns. */
  function TransformBCNF(rs: RelSet, fds: seq<FD>): (r: (RelSet, bool))
    ensures r.1 <==> ValidateBCNF(rs, fds)
    ensures r.1 ==> r.0 == rs
    ensures !r.1 ==> UniqueNames(r.0) && forall m | 0 <= m < |rs| :: rs[m].0 in Names(r.0)
    ensures !r.1 ==> forall e | e in r.0 :: ProducedBy(rs, fds, e)
  {
    if ValidateBCNF(rs, fds) then (rs, true)
    else
      (RebuildBCNF(rs, fds), false)
  }

  /**
   Every column of a relation survives its split: it stays in the
   remainder or lands in a split-off table, and no table has a column the
   relation lacked.
   */
  lemma BcnfEntriesPreserveColumns(name: Name, rel: Relation, fds: seq<FD>)
    ensures ColsOf(BcnfEntries(name, rel, fds)) == Cols(rel)
  {
    var r := SplitRelation(rel, fds, 0);
    var es := BcnfEntries(name, rel, fds);
    SplitRelationCovers(rel, fds, 0);
    SplitRelationEntries(rel, fds, 0);
    forall a | a in ColsOf(es) ensures a in Cols(rel) {
      var e :| e in es && a in Cols(e.1);
      if e != (name, r.1) {
        assert e in r.0;
        assert SplitFrom(e, rel, r.1, fds, 0);
      }
    }
    forall a | a in Cols(rel) ensures a in ColsOf(es) {
      if a in Cols(r.1) {
        assert (name, r.1) in es;
      } else {
        var e :| e in r.0 && a in Cols(e.1);
        assert e in es;
      }
    }
  }
}

=== FILE: closure.dfy ===
/**
 Attribute closure under a list of functional dependencies
 (`attribute_closure`): repeat full passes over the dependencies, adding the
 dependents of every dependency whose determinant is already inside the
 result, until a pass adds nothing.
 */
module Closure {
  import opened Schema

  /** Every attribute some dependency determines: the union of all right-hand sides. */
  function Dependents(fds: seq<FD>): (d: set<Attr>)
    ensures forall i | 0 <= i < |fds| :: Elems(fds[i].rhs) <= d
    ensures forall a | a in d :: exists i :: 0 <= i < |fds| && a in fds[i].rhs
  {
    if |fds| == 0 then {}
    else
      var rest := Dependents(fds[1..]);
      assert forall i | 1 <= i < |fds| :: fds[i] == fds[1..][i - 1];
      Elems(fds[0].rhs) + rest
  }

  /** `s` is closed under `fds`: it holds the dependents of every determinant it holds. */
  predicate Closed(s: set<Attr>, fds: seq<FD>) {
    forall i | 0 <= i < |fds| :: Elems(fds[i].lhs) <= s ==> Elems(fds[i].rhs) <= s
  }

  /** One step of the inner loop: add the dependents when the determinant lies inside the set. */
  function Apply(c: set<Attr>, fd: FD): (out: set<Attr>)
    ensures c <= out <= c + Elems(fd.rhs)
    ensures Elems(fd.lhs) <= c ==> Elems(fd.rhs) <= out
    ensures out == c <==> !(Elems(fd.lhs) <= c) || Elems(fd.rhs) <= c
  {
    if Elems(fd.lhs) <= c then c + Elems(fd.rhs) else c
  }

  /** One full pass over the dependencies, each step seeing the additions of the earlier ones. */
  function Pass(c: set<Attr>, fds: seq<FD>): (p: set<Attr>)
    ensures c <= p <= c + Dependents(fds)
    decreases |fds|
  {
    if |fds| == 0 then c else Pass(Apply(c, fds[0]), fds[1..])
  }

  /** Passes until one adds nothing; each productive pass takes a new dependent into `c`. */
  function Saturate(c: set<Attr>, fds: seq<FD>): (r: set<Attr>)
    ensures c <= r <= c + Dependents(fds)
    ensures Pass(r, fds) == r
    decreases |Dependents(fds) - c|
  {
    var p := Pass(c, fds);
    if p == c then c
    else
      GrowthShrinksRemainder(c, p, Dependents(fds));
      Saturate(p, fds)
  }

  /** A strict step inside `c + d` leaves fewer attributes of `d` to add. */
  lemma GrowthShrinksRemainder(c: set<Attr>, p: set<Attr>, d: set<Attr>)
    requires c <= p <= c + d && p != c
    ensures |d - p| < |d - c|
  {
    assert !(p <= c);
    var x :| x in p && x !in c;
    var rest := (d - c) - {x};
    assert d - p <= rest;
    assert |rest| == |d - c| - 1;
    SubsetCard(d - p, rest);
  }

  lemma {:induction false} SubsetCard(a: set<Attr>, b: set<Attr>)
    requires a <= b
    ensures |a| <= |b|
    decreases |b|
  {
    if a != {} {
      var y :| y in a;
      SubsetCard(a - {y}, b - {y});
    }
  }

  /** `attribute_closure(attrs, fds)`. */
  function AttributeClosure(attrs: set<Attr>, fds: seq<FD>): (r: set<Attr>)
    ensures attrs <= r
    ensures r <= attrs + Dependents(fds)
    ensures Closed(r, fds)
  {
    var r := Saturate(attrs, fds);
    PassFixedIsClosed(r, fds);
    r
  }

  /** A set a pass leaves unchanged is closed. */
  lemma {:induction false} PassFixedIsClosed(c: set<Attr>, fds: seq<FD>)
    requires Pass(c, fds) == c
    ensures Closed(c, fds)
    decreases |fds|
  {
    if |fds| > 0 {
      var a := Apply(c, fds[0]);
      assert Pass(c, fds) == Pass(a, fds[1..]);
      assert a == c;
      PassFixedIsClosed(c, fds[1..]);
      ClosedCons(c, fds);
    }
  }

  /** Closure under a list is closure under its head and under its tail. */
  lemma ClosedCons(c: set<Attr>, fds: seq<FD>)
    requires |fds| > 0
    ensures Closed(c, fds) <==> (Elems(fds[0].lhs) <= c ==> Elems(fds[0].rhs) <= c) && Closed(c, fds[1..])
  {
    assert forall i | 1 <= i < |fds| :: fds[i] == fds[1..][i - 1];
  }

  /** A pass starting inside a closed set stays inside it. */
  lemma {:induction false} PassWithin(c: set<Attr>, s: set<Attr>, fds: seq<FD>)
    requires c <= s && Closed(s, fds)
    ensures Pass(c, fds) <= s
    decreases |fds|
  {
    if |fds| > 0 {
      assert Apply(c, fds[0]) <= s;
      assert Closed(s, fds[1..]) by {
        forall i | 0 <= i < |fds[1..]| && Elems(fds[1..][i].lhs) <= s
          ensures Elems(fds[1..][i].rhs) <= s
        {
          assert fds[1..][i] == fds[i + 1];
        }
      }
      PassWithin(Apply(c, fds[0]), s, fds[1..]);
    }
  }

  lemma {:induction false} SaturateWithin(c: set<Attr>, s: set<Attr>, fds: seq<FD>)
    requires c <= s && Closed(s, fds)
    ensures Saturate(c, fds) <= s
    decreases |Dependents(fds) - c|
  {
    var p := Pass(c, fds);
    PassWithin(c, s, fds);
    if p != c {
      GrowthShrinksRemainder(c, p, Dependents(fds));
      SaturateWithin(p, s, fds);
    }
  }

  /** The closure is the least closed superset: it lies inside every closed set containing `attrs`. */
  lemma ClosureLeast(attrs: set<Attr>, s: set<Attr>, fds: seq<FD>)
    requires attrs <= s && Closed(s, fds)
    ensures AttributeClosure(attrs, fds) <= s
  {
    SaturateWithin(attrs, s, fds);
  }

  /** Closing a closure adds nothing. */
  lemma ClosureIdempotent(attrs: set<Attr>, fds: seq<FD>)
    ensures AttributeClosure(AttributeClosure(attrs, fds), fds) == AttributeClosure(attrs, fds)
  {
    var c := AttributeClosure(attrs, fds);
    ClosureLeast(c, c, fds);
  }

  /** More attributes in, more attributes out. */
  lemma ClosureMonotone(a: set<Attr>, b: set<Attr>, fds: seq<FD>)
    requires a <= b
    ensures AttributeClosure(a, fds) <= AttributeClosure(b, fds)
  {
    ClosureLeast(a, AttributeClosure(b, fds), fds);
  }
}

=== FILE: fifth_nf.dfy ===
/**
 Fifth normal form (`is_superkey`, the checking part of `validate_5NF`,
 `decompose_into_5NF`, `transform_to_5NF`). Candidate keys, which the
 source reads interactively, are a parameter: one list of keys per
 relation name. A projected row is a map restricted to the projected
 columns, and the concatenation of two projected rows is their map union.
 */
module FifthNF {
  import opened Schema
  import opened Grouping

  type Key = seq<Attr>

  /**
   `is_superkey(relation, determinant)`: every group of rows sharing
   determinant cells has size one. Grouping by no columns raises, and so
   does grouping by a column the relation lacks.
   */
  function IsSuperkey(rel: Relation, det: seq<Attr>): (r: Result<bool>)
    ensures |det| == 0 <==> r == Err(NoGroupKeys)
    ensures r.Err? && |det| > 0 <==> !(Elems(det) <= Cols(rel))
    ensures r.Err? && |det| > 0 ==> r.error.MissingColumns? && |r.error.attrs| > 0
                                    && forall a | a in r.error.attrs :: a in det && a !in Cols(rel)
    ensures r.Ok? ==> (r.value <==> !RowsAgreeOn(rel, det))
  {
    if |det| == 0 then Err(NoGroupKeys)
    else if !(Elems(det) <= Cols(rel)) then
      var missing := Without(det, rel.columns);
      var a :| a in det && a !in Cols(rel);
      assert a in missing;
      Err(MissingColumns(missing))
    else
      var ks := GroupKeys(rel, det);
      NoDupIffSingletons(ks);
      assert NoDup(ks) <==> !RowsAgreeOn(rel, det);
      Ok(forall k | k in ks :: multiset(ks)[k] == 1)
  }

  // ---------------------------------------------------------------------
  // Attribute combinations (`itertools.combinations`)
  // ---------------------------------------------------------------------

  /** `x` put in front of every sequence of `cs`. */
  function Prepend(x: Attr, cs: seq<seq<Attr>>): (r: seq<seq<Attr>>)
    ensures |r| == |cs|
    ensures forall i | 0 <= i < |cs| :: r[i] == [x] + cs[i]
  {
    seq(|cs|, i requires 0 <= i < |cs| => [x] + cs[i])
  }

  lemma PrependMember(x: Attr, cs: seq<seq<Attr>>, c: seq<Attr>)
    ensures c in Prepend(x, cs) <==> |c| > 0 && c[0] == x && c[1..] in cs
  {
    var r := Prepend(x, cs);
    if c in r {
      var i :| 0 <= i < |r| && r[i] == c;
      assert c[1..] == cs[i];
    }
    if |c| > 0 && c[0] == x && c[1..] in cs {
      var i :| 0 <= i < |cs| && cs[i] == c[1..];
      assert r[i] == c;
    }
  }

  /** `combinations(cols, k)`: the `k`-element selections of `cols`, in the order itertools yields them. */
  function Combinations(cols: seq<Attr>, k: nat): (cs: seq<seq<Attr>>)
    ensures |cs| > 0 <==> k <= |cols|
    decreases |cols|
  {
    if k == 0 then [[]]
    else if |cols| == 0 then []
    else Prepend(cols[0], Combinations(cols[1..], k - 1)) + Combinations(cols[1..], k)
  }

  /** A combination of size `k` is exactly a subsequence of length `k`. */
  lemma {:induction false} CombinationMember(cols: seq<Attr>, k: nat, c: seq<Attr>)
    ensures c in Combinations(cols, k) <==> |c| == k && IsSubsequence(c, cols)
    decreases |cols|
  {
    if k == 0 {
      assert c in Combinations(cols, k) <==> c == [];
    } else if |cols| == 0 {
      if |c| == k {
        assert !IsSubsequence(c, cols);
      }
    } else {
      CombinationMember(cols[1..], k, c);
      if |c| > 0 {
        CombinationMember(cols[1..], k - 1, c[1..]);
      }
      CombinationStep(cols, k, c);
    }
  }

  /** The step of `CombinationMember`: with the claim for the tail, it holds for the whole column list. */
  lemma CombinationStep(cols: seq<Attr>, k: nat, c: seq<Attr>)
    requires k > 0 && |cols| > 0
    requires c in Combinations(cols[1..], k) <==> |c| == k && IsSubsequence(c, cols[1..])
    requires |c| > 0 ==> (c[1..] in Combinations(cols[1..], k - 1) <==> |c| - 1 == k - 1 && IsSubsequence(c[1..], cols[1..]))
    ensures c in Combinations(cols, k) <==> |c| == k && IsSubsequence(c, cols)
  {
    var tail := cols[1..];
    var with := Prepend(cols[0], Combinations(tail, k - 1));
    var without := Combinations(tail, k);
    assert Combinations(cols, k) == with + without;
    assert c in Combinations(cols, k) <==> c in with || c in without;
    PrependMember(cols[0], Combinations(tail, k - 1), c);
    if |c| > 0 {
      assert c in with <==> |c| == k && c[0] == cols[0] && IsSubsequence(c[1..], tail);
      assert IsSubsequence(c, cols) == ((c[0] == cols[0] && IsSubsequence(c[1..], tail)) || IsSubsequence(c, tail));
    } else {
      assert c !in with && c !in without;
    }
  }

  /** The combinations of size `k` are exactly the subsequences of length `k`. */
  lemma CombinationsAreSubsequences(cols: seq<Attr>, k: nat)
    ensures forall c :: c in Combinations(cols, k) <==> |c| == k && IsSubsequence(c, cols)
  {
    forall c ensures c in Combinations(cols, k) <==> |c| == k && IsSubsequence(c, cols) {
      CombinationMember(cols, k, c);
    }
  }

  function Binomial(n: nat, k: nat): nat
    decreases n
  {
    if k == 0 then 1 else if n == 0 then 0 else Binomial(n - 1, k - 1) + Binomial(n - 1, k)
  }

  /** There are `n choose k` combinations. */
  lemma {:induction false} CombinationsCount(cols: seq<Attr>, k: nat)
    ensures |Combinations(cols, k)| == Binomial(|cols|, k)
    decreases |cols|
  {
    if k > 0 && |cols| > 0 {
      CombinationsCount(cols[1..], k - 1);
      CombinationsCount(cols[1..], k);
    }
  }

  // ---------------------------------------------------------------------
  // The check in `validate_5NF`
  // ---------------------------------------------------------------------

  /** Some candidate key lies inside `attrs`. */
  predicate HoldsCandidateKey(keys: seq<Key>, attrs: seq<Attr>) {
    exists i :: 0 <= i < |keys| && Elems(keys[i]) <= Elems(attrs)
  }

  /** The nested `superkey(attributes)`: scan the candidate keys from `i` on. */
  function ScanKeys(keys: seq<Key>, attrs: seq<Attr>, i: nat): (b: bool)
    requires i <= |keys|
    ensures b <==> exists m :: i <= m < |keys| && Elems(keys[m]) <= Elems(attrs)
    decreases |keys| - i
  {
    if i == |keys| then false
    else if Elems(keys[i]) <= Elems(attrs) then true
    else ScanKeys(keys, attrs, i + 1)
  }

  /** The nested `project(data, attributes)`, with rows read by column name. */
  function ProjectRows(rows: seq<Row>, attrs: set<Attr>): set<Row> {
    set i | 0 <= i < |rows| :: Restrict(rows[i], attrs)
  }

  /** Projecting rows that all have columns `cols` gives rows with columns `cols * attrs`, and nothing only from no rows. */
  lemma ProjectRowsShape(rows: seq<Row>, attrs: set<Attr>, cols: set<Attr>)
    requires forall i | 0 <= i < |rows| :: rows[i].Keys == cols
    ensures ProjectRows(rows, attrs) == {} <==> |rows| == 0
    ensures forall t | t in ProjectRows(rows, attrs) :: t.Keys == cols * attrs
  {
    if |rows| > 0 {
      assert Restrict(rows[0], attrs) in ProjectRows(rows, attrs);
    }
  }

  /** Every row of `p` glued to every row of `q`, each pair joined as a map union. */
  function Join(p: set<Row>, q: set<Row>): set<Row> {
    set x, y | x in p && y in q :: x + y
  }

  /** Joining rows with columns `a` to rows with columns `b` gives rows with columns `a + b`; it is empty exactly when a side is. */
  lemma JoinShape(p: set<Row>, q: set<Row>, a: set<Attr>, b: set<Attr>)
    requires forall x | x in p :: x.Keys == a
    requires forall y | y in q :: y.Keys == b
    ensures Join(p, q) == {} <==> p == {} || q == {}
    ensures forall z | z in Join(p, q) :: z.Keys == a + b
  {
    if p != {} && q != {} {
      var x :| x in p;
      var y :| y in q;
      assert x + y in Join(p, q);
    }
  }

  /** The join of the projections on `attrs` and on the other columns. */
  function SplitJoin(rel: Relation, attrs: seq<Attr>): set<Row> {
    Join(ProjectRows(rel.rows, Elems(attrs)), ProjectRows(rel.rows, Cols(rel) - Elems(attrs)))
  }

  /** The failure test at line 388 for one combination. */
  predicate JoinFails(rel: Relation, attrs: seq<Attr>) {
    Elems(rel.rows) != SplitJoin(rel, attrs)
  }

  /** A row is the union of its two projections. */
  lemma RestrictSplit(row: Row, a: set<Attr>, all: set<Attr>)
    requires row.Keys == all
    ensures Restrict(row, a) + Restrict(row, all - a) == row
  {
  }

  /** The join never misses a row of a well-formed relation. */
  lemma RowsInSplitJoin(rel: Relation, attrs: seq<Attr>)
    requires WellFormed(rel)
    ensures Elems(rel.rows) <= SplitJoin(rel, attrs)
  {
    var a := Elems(attrs);
    forall t | t in Elems(rel.rows) ensures t in SplitJoin(rel, attrs) {
      var i :| 0 <= i < |rel.rows| && rel.rows[i] == t;
      RestrictSplit(t, a, Cols(rel));
      assert Restrict(t, a) in ProjectRows(rel.rows, a);
      assert Restrict(t, Cols(rel) - a) in ProjectRows(rel.rows, Cols(rel) - a);
    }
  }

  /** The test fails exactly when gluing one row's `attrs` part to another row's remaining part makes a row the relation lacks. */
  lemma JoinFailsIff(rel: Relation, attrs: seq<Attr>)
    requires WellFormed(rel)
    ensures JoinFails(rel, attrs) <==>
              exists i, j :: 0 <= i < |rel.rows| && 0 <= j < |rel.rows|
                && Restrict(rel.rows[i], Elems(attrs)) + Restrict(rel.rows[j], Cols(rel) - Elems(attrs)) !in rel.rows
  {
    var a := Elems(attrs);
    var p := ProjectRows(rel.rows, a);
    var q := ProjectRows(rel.rows, Cols(rel) - a);
    RowsInSplitJoin(rel, attrs);
    if JoinFails(rel, attrs) {
      var z :| z in SplitJoin(rel, attrs) && z !in Elems(rel.rows);
      var x, y :| x in p && y in q && z == x + y;
      var i :| 0 <= i < |rel.rows| && x == Restrict(rel.rows[i], a);
      var j :| 0 <= j < |rel.rows| && y == Restrict(rel.rows[j], Cols(rel) - a);
      assert z !in rel.rows;
    } else {
      forall i, j | 0 <= i < |rel.rows| && 0 <= j < |rel.rows|
        ensures Restrict(rel.rows[i], a) + Restrict(rel.rows[j], Cols(rel) - a) in rel.rows
      {
        var x, y := Restrict(rel.rows[i], a), Restrict(rel.rows[j], Cols(rel) - a);
        assert x in p && y in q;
        assert x + y in SplitJoin(rel, attrs);
        assert x + y in Elems(rel.rows);
      }
    }
  }

  /** The combination loop for one size, from combination `d` on: each is a key-holder or joins back. */
  function CombinationsPass(rel: Relation, keys: seq<Key>, cs: seq<seq<Attr>>, d: nat): (ok: bool)
    requires d <= |cs|
    ensures ok <==> forall e | d <= e < |cs| :: Accepted(rel, keys, cs[e])
    decreases |cs| - d
  {
    if d == |cs| then true
    else if ScanKeys(keys, cs[d], 0) then CombinationsPass(rel, keys, cs, d + 1)
    else if Elems(rel.rows) != SplitJoin(rel, cs[d]) then false
    else CombinationsPass(rel, keys, cs, d + 1)
  }

  /** A combination the check accepts: it holds a candidate key or its split joins back. */
  predicate Accepted(rel: Relation, keys: seq<Key>, attrs: seq<Attr>) {
    HoldsCandidateKey(keys, attrs) || !JoinFails(rel, attrs)
  }

  /** Every combination of a size from `k` up to one less than the number of columns is accepted. */
  ghost predicate SizesAccepted(rel: Relation, keys: seq<Key>, k: nat) {
    forall n, c | k <= n < |rel.columns| && c in Combinations(rel.columns, n) :: Accepted(rel, keys, c)
  }

  /** The size loop, from size `k` up to one less than the number of columns. */
  function SizesPass(rel: Relation, keys: seq<Key>, k: nat): (ok: bool)
    requires k >= 1
    ensures ok <==> SizesAccepted(rel, keys, k)
    decreases |rel.columns| - k
  {
    if k >= |rel.columns| then true
    else
      var cs := Combinations(rel.columns, k);
      AllAccepted(rel, keys, cs);
      SizesAcceptedStep(rel, keys, k);
      CombinationsPass(rel, keys, cs, 0) && SizesPass(rel, keys, k + 1)
  }

  /** The combination loop passes exactly when every listed combination is accepted. */
  lemma AllAccepted(rel: Relation, keys: seq<Key>, cs: seq<seq<Attr>>)
    ensures CombinationsPass(rel, keys, cs, 0) <==> forall c | c in cs :: Accepted(rel, keys, c)
  {
    if CombinationsPass(rel, keys, cs, 0) {
      forall c | c in cs ensures Accepted(rel, keys, c) {
        var e :| 0 <= e < |cs| && cs[e] == c;
      }
    }
  }

  /** Sizes from `k` on are accepted exactly when size `k` and the sizes after it are. */
  lemma SizesAcceptedStep(rel: Relation, keys: seq<Key>, k: nat)
    requires k < |rel.columns|
    ensures SizesAccepted(rel, keys, k) <==>
              (forall c | c in Combinations(rel.columns, k) :: Accepted(rel, keys, c)) && SizesAccepted(rel, keys, k + 1)
  {
  }

  /** The relation passes: every proper, non-empty selection of its columns is accepted. */
  ghost predicate Passes5NF(rel: Relation, keys: seq<Key>) {
    forall c | IsSubsequence(c, rel.columns) && 1 <= |c| < |rel.columns| :: Accepted(rel, keys, c)
  }

  lemma SizesAcceptedIff(rel: Relation, keys: seq<Key>)
    ensures SizesAccepted(rel, keys, 1) <==> Passes5NF(rel, keys)
  {
    if SizesAccepted(rel, keys, 1) {
      forall c | IsSubsequence(c, rel.columns) && 1 <= |c| < |rel.columns| ensures Accepted(rel, keys, c) {
        CombinationMember(rel.columns, |c|, c);
      }
    }
    if Passes5NF(rel, keys) {
      forall n, c | 1 <= n < |rel.columns| && c in Combinations(rel.columns, n) ensures Accepted(rel, keys, c) {
        CombinationMember(rel.columns, n, c);
      }
    }
  }

  /** The check for one relation, with its candidate keys. */
  function RelationPasses(rel: Relation, keys: seq<Key>): (ok: bool)
    ensures ok <==> Passes5NF(rel, keys)
  {
    SizesAcceptedIff(rel, keys);
    SizesPass(rel, keys, 1)
  }

  /** The relation loop of the check, from relation `j` on. */
  function RelationsPass(rs: seq<(Name, Relation)>, ck: map<Name, seq<Key>>, j: nat): (ok: bool)
    requires j <= |rs|
    requires forall m | 0 <= m < |rs| :: rs[m].0 in ck
    ensures ok <==> forall m | j <= m < |rs| :: Passes5NF(rs[m].1, ck[rs[m].0])
    decreases |rs| - j
  {
    if j == |rs| then true
    else
      RelationsStep(rs, ck, j);
      RelationPasses(rs[j].1, ck[rs[j].0]) && RelationsPass(rs, ck, j + 1)
  }

  lemma RelationsStep(rs: seq<(Name, Relation)>, ck: map<Name, seq<Key>>, j: nat)
    requires j < |rs|
    requires forall m | 0 <= m < |rs| :: rs[m].0 in ck
    ensures (forall m | j <= m < |rs| :: Passes5NF(rs[m].1, ck[rs[m].0])) <==>
              Passes5NF(rs[j].1, ck[rs[j].0]) && forall m | j + 1 <= m < |rs| :: Passes5NF(rs[m].1, ck[rs[m].0])
  {
  }

  /** `validate_5NF(relations)` with its candidate keys `ck` given: true when every relation passes. */
  function Validate5NF(rs: seq<(Name, Relation)>, ck: map<Name, seq<Key>>): (ok: bool)
    requires forall m | 0 <= m < |rs| :: rs[m].0 in ck
    ensures ok <==> forall m | 0 <= m < |rs| :: Passes5NF(rs[m].1, ck[rs[m].0])
  {
    RelationsPass(rs, ck, 0)
  }

  /** In a relation with at most one row every split joins back. */
  lemma SingleRowJoinsBack(rel: Relation, c: seq<Attr>)
    requires WellFormed(rel) && |rel.rows| <= 1
    ensures !JoinFails(rel, c)
  {
    JoinFailsIff(rel, c);
    if |rel.rows| == 1 {
      RestrictSplit(rel.rows[0], Elems(c), Cols(rel));
    }
  }

  /** A relation with at most one row passes. */
  lemma SingleRowPasses(rel: Relation, keys: seq<Key>)
    requires WellFormed(rel) && |rel.rows| <= 1
    ensures Passes5NF(rel, keys)
  {
    forall c | IsSubsequence(c, rel.columns) && 1 <= |c| < |rel.columns| ensures Accepted(rel, keys, c) {
      SingleRowJoinsBack(rel, c);
    }
  }

  // ---------------------------------------------------------------------
  // The check as written: `project` subscripts a row tuple by column name
  // ---------------------------------------------------------------------

  /**
   The check for one relation as the source is written: the first
   combination holding no candidate key reaches `project`, which subscripts
   a row tuple with a column name and raises unless there are no rows.
   */
  function RelationPassesAsWritten(rel: Relation, keys: seq<Key>): (r: Result<bool>)
    ensures r.Err? <==> |rel.rows| > 0 && exists c :: IsSubsequence(c, rel.columns) && 1 <= |c| < |rel.columns|
                                                   && !HoldsCandidateKey(keys, c)
    ensures r.Ok? ==> r.value
  {
    ReachesProjectIff(rel, keys);
    if |rel.rows| > 0 && ReachesProject(rel, keys) then Err(TupleIndexedByName)
    else Ok(true)
  }

  /** Some combination the loop visits holds no candidate key. */
  predicate ReachesProject(rel: Relation, keys: seq<Key>) {
    exists n, c | 1 <= n < |rel.columns| && c in Combinations(rel.columns, n) :: !HoldsCandidateKey(keys, c)
  }

  lemma ReachesProjectIff(rel: Relation, keys: seq<Key>)
    ensures ReachesProject(rel, keys) <==>
              exists c :: IsSubsequence(c, rel.columns) && 1 <= |c| < |rel.columns| && !HoldsCandidateKey(keys, c)
  {
    if ReachesProject(rel, keys) {
      var n, c :| 1 <= n < |rel.columns| && c in Combinations(rel.columns, n) && !HoldsCandidateKey(keys, c);
      CombinationMember(rel.columns, n, c);
    }
    if exists c :: IsSubsequence(c, rel.columns) && 1 <= |c| < |rel.columns| && !HoldsCandidateKey(keys, c) {
      var c :| IsSubsequence(c, rel.columns) && 1 <= |c| < |rel.columns| && !HoldsCandidateKey(keys, c);
      CombinationMember(rel.columns, |c|, c);
    }
  }

  /** A one-row relation with two columns and no candidate keys: the source raises where the check should accept. */
  lemma AsWrittenRaisesOnValidRelation(x: Value, y: Value)
    ensures RelationPassesAsWritten(Relation(["A", "B"], [map["A" := x, "B" := y]]), []).Err?
    ensures RelationPasses(Relation(["A", "B"], [map["A" := x, "B" := y]]), [])
  {
    var rel := Relation(["A", "B"], [map["A" := x, "B" := y]]);
    assert IsSubsequence(["A"], rel.columns);
    assert !HoldsCandidateKey([], ["A"]);
    assert WellFormed(rel);
    SingleRowPasses(rel, []);
  }

  // ---------------------------------------------------------------------
  // `decompose_into_5NF`
  // ---------------------------------------------------------------------

  /** The rows of `r` whose `on` cells match `row`, each joined with `row`. */
  function Matches(row: Row, r: seq<Row>, on: set<Attr>): (ms: seq<Row>)
    ensures forall z :: z in ms <==> exists j :: 0 <= j < |r| && Restrict(r[j], on) == Restrict(row, on) && z == row + r[j]
  {
    if |r| == 0 then []
    else
      var rest := Matches(row, r[1..], on);
      assert forall j | 1 <= j < |r| :: r[j] == r[1..][j - 1];
      if Restrict(r[0], on) == Restrict(row, on) then [row + r[0]] + rest else rest
  }

  /** The rows of an inner merge: left rows in order, each followed by its matches in right order. */
  function MergeRows(l: seq<Row>, r: seq<Row>, on: set<Attr>): (ms: seq<Row>)
    ensures forall z :: z in ms <==> exists i, j :: 0 <= i < |l| && 0 <= j < |r|
                                       && Restrict(r[j], on) == Restrict(l[i], on) && z == l[i] + r[j]
  {
    if |l| == 0 then []
    else
      var rest := MergeRows(l[1..], r, on);
      assert forall i | 1 <= i < |l| :: l[i] == l[1..][i - 1];
      Matches(l[0], r, on) + rest
  }

  /** `pd.merge(l, r, how='inner', on=on)`: left columns, then the right's other columns. */
  function Merge(l: Relation, r: Relation, on: set<Attr>): (m: Relation)
    ensures Cols(m) == Cols(l) + Cols(r)
  {
    Relation(l.columns + Without(r.columns, l.columns), MergeRows(l.rows, r.rows, on))
  }

  /** Merging well-formed tables gives a well-formed table. */
  lemma MergeWellFormed(l: Relation, r: Relation, on: set<Attr>)
    requires WellFormed(l) && WellFormed(r)
    ensures WellFormed(Merge(l, r, on))
  {
    var m := Merge(l, r, on);
    forall k | 0 <= k < |m.rows| ensures m.rows[k].Keys == Cols(m) {
      assert m.rows[k] in m.rows;
      var i, j :| 0 <= i < |l.rows| && 0 <= j < |r.rows| && Restrict(r.rows[j], on) == Restrict(l.rows[i], on)
                  && m.rows[k] == l.rows[i] + r.rows[j];
    }
  }

  /** `is_lossless(df, df1, df2)`: the tables share a column and their merge equals `df`. */
  function IsLossless(t: Relation, t1: Relation, t2: Relation): (b: bool)
    ensures b <==> Cols(t1) * Cols(t2) != {} && Merge(t1, t2, Cols(t1) * Cols(t2)) == t
  {
    var common := Cols(t1) * Cols(t2);
    if common == {} then false
    else Merge(t1, t2, common) == t
  }

  /** The two candidate tables of a key split: the key projection and the all-columns projection. */
  function KeySplit(t: Relation, key: Key): (p: (Relation, Relation))
    requires Elems(key) <= Cols(t)
    ensures p.0.columns == key && Cols(p.1) == Cols(t)
  {
    (ProjectDistinct(t, key), ProjectDistinct(t, Distinct(t.columns)))
  }

  /** Merging a key split back never loses a row of a well-formed table. */
  lemma KeySplitMergeKeepsRows(t: Relation, key: Key)
    requires WellFormed(t) && Elems(key) <= Cols(t)
    ensures var p := KeySplit(t, key); Elems(t.rows) <= Elems(Merge(p.0, p.1, Elems(key)).rows)
  {
    forall row | row in t.rows ensures row in Merge(KeySplit(t, key).0, KeySplit(t, key).1, Elems(key)).rows {
      KeySplitMergeKeepsRow(t, key, row);
    }
  }

  /** One row of a key split merges back from its key part and itself. */
  lemma KeySplitMergeKeepsRow(t: Relation, key: Key, row: Row)
    requires WellFormed(t) && Elems(key) <= Cols(t) && row in t.rows
    ensures var p := KeySplit(t, key); row in MergeRows(p.0.rows, p.1.rows, Elems(key))
  {
    var p := KeySplit(t, key);
    var k := Elems(key);
    var i :| 0 <= i < |t.rows| && t.rows[i] == row;
    var left := Restrict(row, k);
    ProjectDistinctRows(t, key, left);
    var i1 :| 0 <= i1 < |p.0.rows| && p.0.rows[i1] == left;
    RestrictAll(row, Elems(Distinct(t.columns)));
    ProjectDistinctRows(t, Distinct(t.columns), row);
    var j1 :| 0 <= j1 < |p.1.rows| && p.1.rows[j1] == row;
    RestrictUnderRow(row, k);
  }

  /** What one table becomes under one key: its two split tables if the split is lossless, else itself. */
  function SplitTable(t: Relation, key: Key): (ts: seq<Relation>)
    ensures Elems(key) <= Cols(t) && IsLossless(t, KeySplit(t, key).0, KeySplit(t, key).1) ==>
              ts == [KeySplit(t, key).0, KeySplit(t, key).1] && Merge(ts[0], ts[1], Cols(ts[0]) * Cols(ts[1])) == t
    ensures !(Elems(key) <= Cols(t)) || !IsLossless(t, KeySplit(t, key).0, KeySplit(t, key).1) ==> ts == [t]
  {
    if Elems(key) <= Cols(t) then
      var p := KeySplit(t, key);
      if IsLossless(t, p.0, p.1) then [p.0, p.1] else [t]
    else [t]
  }

  /** All the columns of a list of tables. */
  function AllCols(ts: seq<Relation>): (s: set<Attr>)
    ensures forall t | t in ts :: Cols(t) <= s
  {
    if |ts| == 0 then {} else Cols(ts[0]) + AllCols(ts[1..])
  }

  /** Every collected column is a column of some listed table, so `AllCols` is exactly their union. */
  lemma {:induction false} AllColsCovers(ts: seq<Relation>, a: Attr)
    ensures a in AllCols(ts) <==> exists t :: t in ts && a in Cols(t)
    decreases |ts|
  {
    if |ts| > 0 {
      AllColsCovers(ts[1..], a);
      if a in AllCols(ts[1..]) {
        var t :| t in ts[1..] && a in Cols(t);
        assert t in ts;
      }
    }
  }

  lemma {:induction false} AllColsAppend(a: seq<Relation>, b: seq<Relation>)
    ensures AllCols(a + b) == AllCols(a) + AllCols(b)
    decreases |a|
  {
    if |a| > 0 {
      assert (a + b)[1..] == a[1..] + b;
      AllColsAppend(a[1..], b);
    } else {
      assert a + b == b;
    }
  }

  /** A split keeps exactly the table's columns. */
  lemma SplitTableColumns(t: Relation, key: Key)
    ensures AllCols(SplitTable(t, key)) == Cols(t)
  {
    var ts := SplitTable(t, key);
    if ts != [t] {
      assert AllCols(ts) == Cols(ts[0]) + Cols(ts[1]) + AllCols([]) by {
        assert ts[1..][1..] == [];
      }
    } else {
      assert AllCols([t][1..]) == {};
    }
  }

  /** The table loop for one key. */
  function SplitTables(ts: seq<Relation>, key: Key): (out: seq<Relation>)
    ensures |ts| <= |out| <= 2 * |ts|
    ensures AllCols(out) == AllCols(ts)
  {
    if |ts| == 0 then []
    else
      var here := SplitTable(ts[0], key);
      var rest := SplitTables(ts[1..], key);
      SplitTableColumns(ts[0], key);
      AllColsAppend(here, rest);
      here + rest
  }

  /** Every table the loop outputs comes from one input table's split, and every input's split is output. */
  lemma {:induction false} SplitTablesFrom(ts: seq<Relation>, key: Key)
    ensures forall u | u in SplitTables(ts, key) :: exists i :: 0 <= i < |ts| && u in SplitTable(ts[i], key)
    ensures forall i, u | 0 <= i < |ts| && u in SplitTable(ts[i], key) :: u in SplitTables(ts, key)
    decreases |ts|
  {
    if |ts| > 0 {
      var here := SplitTable(ts[0], key);
      var rest := SplitTables(ts[1..], key);
      SplitTablesFrom(ts[1..], key);
      assert SplitTables(ts, key) == here + rest;
      forall u | u in here + rest ensures exists i :: 0 <= i < |ts| && u in SplitTable(ts[i], key) {
        if u !in here {
          var i :| 0 <= i < |ts[1..]| && u in SplitTable(ts[1..][i], key);
          assert ts[i + 1] == ts[1..][i];
        }
      }
      forall i, u | 0 <= i < |ts| && u in SplitTable(ts[i], key) ensures u in here + rest {
        if i > 0 {
          assert ts[1..][i - 1] == ts[i];
        }
      }
    }
  }

  function Pow2(n: nat): nat {
    if n == 0 then 1 else 2 * Pow2(n - 1)
  }

  lemma ScaleBound(o: nat, n: nat, t: nat, p: nat)
    requires o <= n * p && n <= 2 * t
    ensures o <= t * (2 * p)
  {
    assert n * p <= (2 * t) * p;
  }

  /** The key loop from key `i` on, applied to the current list of tables. */
  function DecomposeFrom(ts: seq<Relation>, keys: seq<Key>, i: nat): (out: seq<Relation>)
    requires i <= |keys|
    ensures |ts| <= |out| <= |ts| * Pow2(|keys| - i)
    ensures AllCols(out) == AllCols(ts)
    decreases |keys| - i
  {
    if i == |keys| then ts
    else
      var next := SplitTables(ts, keys[i]);
      var out := DecomposeFrom(next, keys, i + 1);
      var p := Pow2(|keys| - i - 1);
      assert Pow2(|keys| - i) == 2 * p;
      ScaleBound(|out|, |next|, |ts|, p);
      out
  }

  /** `decompose_into_5NF(relation_name, dataframe, candidate_keys)`. */
  function Decompose5NF(t: Relation, keys: seq<Key>): (out: seq<Relation>)
    ensures 1 <= |out| <= Pow2(|keys|)
    ensures AllCols(out) == Cols(t)
  {
    assert AllCols([t]) == Cols(t) by {
      assert AllCols([t][1..]) == {};
    }
    DecomposeFrom([t], keys, 0)
  }

  /** The result of `transform_to_5NF`: the input when it passes, else each relation's list of tables. */
  datatype FiveNF = Unchanged(rels: seq<(Name, Relation)>) | Decomposed(tables: seq<(Name, seq<Relation>)>)

  /** `transform_to_5NF(relations, pk, fds)` with candidate keys `ck`; `pk` and `fds` are not consulted. */
  function Transform5NF(rs: seq<(Name, Relation)>, ck: map<Name, seq<Key>>): (r: (FiveNF, bool))
    requires forall m | 0 <= m < |rs| :: rs[m].0 in ck
    ensures r.1 <==> Validate5NF(rs, ck)
    ensures r.1 ==> r.0 == Unchanged(rs)
    ensures !r.1 ==> r.0.Decomposed? && |r.0.tables| == |rs|
                     && forall m | 0 <= m < |rs| :: r.0.tables[m] == (rs[m].0, Decompose5NF(rs[m].1, ck[rs[m].0]))
  {
    if Validate5NF(rs, ck) then (Unchanged(rs), true)
    else (Decomposed(seq(|rs|, m requires 0 <= m < |rs| => (rs[m].0, Decompose5NF(rs[m].1, ck[rs[m].0])))), false)
  }
}

=== FILE: first_nf.dfy ===
/**
 First normal form (`validate_1NF`, `is_nested_collection`,
 `transform_to_1NF`): the validator inspects the runtime type of every
 cell; the transform explodes, column by column, every column that holds a
 list or a set. In such a column every list, set or dict cell gives one row
 per element, a dict giving its keys.
 */
module FirstNF {
  import opened Schema
  import opened RelationSets

  /** The cells the validator rejects: lists, dicts and sets. */
  predicate IsNested(v: Value) {
    v.List? || v.Set? || v.Dict?
  }

  /** `is_nested_collection`: the cells the transform explodes (lists and sets, not dicts). */
  predicate IsNestedCollection(v: Value)
    ensures IsNestedCollection(v) <==> IsNested(v) && TypeOf(v) != DictType
  {
    v.List? || v.Set?
  }

  /** The elements a list-like cell explodes into, in iteration order: a dict gives its keys. */
  function Elements(v: Value): seq<Value> {
    match v
    case List(items) => items
    case Set(members) => members
    case Dict(entries) => seq(|entries|, k requires 0 <= k < |entries| => entries[k].0)
    case _ => []
  }

  /** One column of a 1NF relation: a single runtime type and no nested cell. */
  predicate ColumnIn1NF(r: Relation, c: Attr)
    requires WellFormed(r) && c in Cols(r)
  {
    && (forall i, j | 0 <= i < |r.rows| && 0 <= j < |r.rows| :: TypeOf(r.rows[i][c]) == TypeOf(r.rows[j][c]))
    && (forall i | 0 <= i < |r.rows| :: !IsNested(r.rows[i][c]))
  }

  /** A relation in 1NF: it has rows and columns, and every column is in 1NF. */
  predicate In1NF(r: Relation)
    requires WellFormed(r)
  {
    |r.rows| > 0 && |r.columns| > 0 && forall c | c in r.columns :: ColumnIn1NF(r, c)
  }

  /** The runtime type of each cell of a column, row by row. */
  function ColumnTypes(r: Relation, c: Attr): (ts: seq<RuntimeType>)
    requires WellFormed(r) && c in Cols(r)
    ensures |ts| == |r.rows|
    ensures forall i | 0 <= i < |r.rows| :: ts[i] == TypeOf(r.rows[i][c])
  {
    seq(|r.rows|, i requires 0 <= i < |r.rows| => TypeOf(r.rows[i][c]))
  }

  /** `nunique() > 1` holds exactly when two entries differ. */
  lemma ManyDistinct<T(!new)>(s: seq<T>)
    ensures |Distinct(s)| > 1 <==> exists i, j :: 0 <= i < |s| && 0 <= j < |s| && s[i] != s[j]
  {
    var d := Distinct(s);
    if |d| > 1 {
      assert d[0] in s && d[1] in s;
      var i :| 0 <= i < |s| && s[i] == d[0];
      var j :| 0 <= j < |s| && s[j] == d[1];
      assert s[i] != s[j];
    }
  }

  /** The two tests of the column loop of `validate_1NF` on one column. */
  predicate ColumnPasses(r: Relation, c: Attr)
    requires WellFormed(r) && c in Cols(r)
    ensures ColumnPasses(r, c) <==> ColumnIn1NF(r, c)
  {
    var ts := ColumnTypes(r, c);
    ManyDistinct(ts);
    !(|Distinct(ts)| > 1) && !(exists i :: 0 <= i < |r.rows| && IsNested(r.rows[i][c]))
  }

  /** The column loop of `validate_1NF`, from column `k` on. */
  function ColumnsValid(r: Relation, k: nat): (ok: bool)
    requires WellFormed(r) && k <= |r.columns|
    ensures ok <==> forall m | k <= m < |r.columns| :: ColumnIn1NF(r, r.columns[m])
    decreases |r.columns| - k
  {
    if k == |r.columns| then true
    else
      ColumnsFromStep(r, k);
      if !ColumnPasses(r, r.columns[k]) then false
      else ColumnsValid(r, k + 1)
  }

  lemma ColumnsFromStep(r: Relation, k: nat)
    requires WellFormed(r) && k < |r.columns|
    ensures (forall m | k <= m < |r.columns| :: ColumnIn1NF(r, r.columns[m])) <==>
              ColumnIn1NF(r, r.columns[k]) && forall m | k + 1 <= m < |r.columns| :: ColumnIn1NF(r, r.columns[m])
  {
  }

  /** `validate_1NF`: an empty frame (no rows or no columns) is not in 1NF. */
  function Validate1NF(r: Relation): (ok: bool)
    requires WellFormed(r)
    ensures ok <==> In1NF(r)
  {
    if |r.rows| == 0 || |r.columns| == 0 then false
    else
      var ok := ColumnsValid(r, 0);
      assert ok <==> In1NF(r) by {
        if ok {
          forall c | c in r.columns ensures ColumnIn1NF(r, c) {
            var m :| 0 <= m < |r.columns| && r.columns[m] == c;
          }
        }
      }
      ok
  }

  /** One cell exploded: each element replaces it in a copy of the row; an empty collection gives NaN. */
  function Spread(row: Row, c: Attr, es: seq<Value>): (out: seq<Row>)
    requires c in row
    ensures |out| == if |es| == 0 then 1 else |es|
    ensures |es| == 0 ==> out == [row[c := NaN]]
    ensures forall k | 0 <= k < |es| :: out[k] == row[c := es[k]]
  {
    if |es| == 0 then [row[c := NaN]]
    else seq(|es|, k requires 0 <= k < |es| => row[c := es[k]])
  }

  /**
   The rows `explode(c)` makes of one row. pandas explodes every list-like
   cell of the column, dicts included, and leaves other cells alone.
   */
  function ExplodeRow(row: Row, c: Attr): (out: seq<Row>)
    requires c in row
    ensures !IsNested(row[c]) ==> out == [row]
    ensures IsNested(row[c]) ==> |out| == if |Elements(row[c])| == 0 then 1 else |Elements(row[c])|
    ensures forall o | o in out :: o.Keys == row.Keys && forall a | a in row && a != c :: o[a] == row[a]
    ensures IsNested(row[c]) ==>
              forall o | o in out :: o[c] in Elements(row[c]) || (|Elements(row[c])| == 0 && o[c] == NaN)
    ensures forall e | e in Elements(row[c]) :: row[c := e] in out
    ensures IsNested(row[c]) && |Elements(row[c])| == 0 ==> out == [row[c := NaN]]
    ensures IsNested(row[c]) && |Elements(row[c])| > 0 ==>
              forall k | 0 <= k < |out| :: out[k] == row[c := Elements(row[c])[k]]
  {
    if IsNested(row[c]) then
      var es := Elements(row[c]);
      var out := Spread(row, c, es);
      assert forall e | e in es :: row[c := e] in out by {
        forall e | e in es ensures row[c := e] in out {
          var k :| 0 <= k < |es| && es[k] == e;
          assert out[k] == row[c := e];
        }
      }
      out
    else [row]
  }

  /** The rows of `relation.explode(c)`: every row's explosion, in row order. */
  function ExplodeRows(rows: seq<Row>, c: Attr): (out: seq<Row>)
    requires forall i | 0 <= i < |rows| :: c in rows[i]
    ensures forall o | o in out :: exists i :: 0 <= i < |rows| && o in ExplodeRow(rows[i], c)
    ensures forall i, o | 0 <= i < |rows| && o in ExplodeRow(rows[i], c) :: o in out
    ensures |out| >= |rows|
  {
    if |rows| == 0 then []
    else
      var head := ExplodeRow(rows[0], c);
      var tail := ExplodeRows(rows[1..], c);
      assert forall i | 1 <= i < |rows| :: rows[i] == rows[1..][i - 1];
      head + tail
  }

  /** Exploding a concatenation explodes each part in turn; one row explodes as `ExplodeRow` does. */
  lemma {:induction false} ExplodeRowsAppend(a: seq<Row>, b: seq<Row>, c: Attr)
    requires forall i | 0 <= i < |a| :: c in a[i]
    requires forall i | 0 <= i < |b| :: c in b[i]
    ensures ExplodeRows(a + b, c) == ExplodeRows(a, c) + ExplodeRows(b, c)
    ensures |a| == 1 ==> ExplodeRows(a, c) == ExplodeRow(a[0], c)
    decreases |a|
  {
    if |a| == 0 {
      assert a + b == b;
    } else {
      var tail := a[1..] + b;
      assert (a + b)[1..] == tail;
      assert forall i | 0 <= i < |tail| :: c in tail[i];
      ExplodeRowsAppend(a[1..], b, c);
      AppendStep(ExplodeRow(a[0], c), ExplodeRows(a[1..], c), ExplodeRows(b, c), ExplodeRows(tail, c));
      assert ExplodeRows(a + b, c) == ExplodeRow(a[0], c) + ExplodeRows(tail, c);
      if |a| == 1 {
        ExplodeOneRow(a, c);
      }
    }
  }

  lemma ExplodeOneRow(a: seq<Row>, c: Attr)
    requires |a| == 1 && c in a[0]
    ensures ExplodeRows(a, c) == ExplodeRow(a[0], c)
  {
    assert ExplodeRows(a[1..], c) == [];
  }

  lemma AppendStep(h: seq<Row>, x: seq<Row>, y: seq<Row>, xy: seq<Row>)
    requires xy == x + y
    ensures h + xy == (h + x) + y
  {
  }

  /** `relation.explode(c)`: the column list is unchanged. */
  function Explode(r: Relation, c: Attr): (e: Relation)
    requires WellFormed(r) && c in Cols(r)
    ensures e.columns == r.columns && WellFormed(e)
    ensures e.rows == ExplodeRows(r.rows, c)
    ensures |e.rows| >= |r.rows|
  {
    var e := Relation(r.columns, ExplodeRows(r.rows, c));
    assert WellFormed(e) by {
      forall k | 0 <= k < |e.rows| ensures e.rows[k].Keys == Cols(e) {
        var o := e.rows[k];
        assert o in e.rows;
        var i :| 0 <= i < |r.rows| && o in ExplodeRow(r.rows[i], c);
        assert o.Keys == r.rows[i].Keys;
      }
    }
    e
  }

  /** Some cell of column `c` is a list or a set. */
  predicate HasCollection(r: Relation, c: Attr)
    requires WellFormed(r) && c in Cols(r)
  {
    exists i :: 0 <= i < |r.rows| && IsNestedCollection(r.rows[i][c])
  }

  /** The column loop of `transform_to_1NF`, from column `k` on, each step on the previous result. */
  function ExplodeColumns(r: Relation, k: nat): (e: Relation)
    requires WellFormed(r) && k <= |r.columns|
    ensures e.columns == r.columns && WellFormed(e)
    decreases |r.columns| - k
  {
    if k == |r.columns| then r
    else ExplodeColumns(ExplodeStep(r, r.columns[k]), k + 1)
  }

  /** One step of the column loop: explode `c` when some cell of it is a collection. */
  function ExplodeStep(r: Relation, c: Attr): (e: Relation)
    requires WellFormed(r) && c in Cols(r)
    ensures e.columns == r.columns && WellFormed(e)
    ensures |e.rows| >= |r.rows|
    ensures HasCollection(r, c) ==> e == Explode(r, c)
    ensures !HasCollection(r, c) ==> e == r
  {
    if HasCollection(r, c) then Explode(r, c) else r
  }

  /** The column loop leaves alone a relation whose remaining columns hold no list or set. */
  lemma {:induction false} ExplodeColumnsKeepsClean(r: Relation, k: nat)
    requires WellFormed(r) && k <= |r.columns|
    requires forall m | k <= m < |r.columns| :: NoCollections(r, r.columns[m])
    ensures ExplodeColumns(r, k) == r
    decreases |r.columns| - k
  {
    if k < |r.columns| {
      assert !HasCollection(r, r.columns[k]);
      assert ExplodeStep(r, r.columns[k]) == r;
      ExplodeColumnsKeepsClean(r, k + 1);
    }
  }

  /** Only columns holding a list or set are exploded: without any, the transform returns the relation as it was. */
  lemma Transform1NFKeepsClean(r: Relation, pk: Name)
    requires WellFormed(r)
    ensures (forall c | c in r.columns :: NoCollections(r, c)) ==> Transform1NF(r, pk).0 == [(pk, r)]
  {
    if forall c | c in r.columns :: NoCollections(r, c) {
      ExplodeColumnsKeepsClean(r, 0);
    }
  }

  /** `transform_to_1NF(relation, pk)`: the relation set `{pk: relation}` and whether it was already in 1NF. */
  function Transform1NF(r: Relation, pk: Name): (out: (RelSet, bool))
    requires WellFormed(r)
    ensures out.1 <==> In1NF(r)
    ensures out.1 ==> out.0 == [(pk, r)]
    ensures |out.0| == 1 && out.0[0].0 == pk
    ensures out.0[0].1.columns == r.columns && WellFormed(out.0[0].1)
  {
    if Validate1NF(r) then ([(pk, r)], true)
    else ([(pk, ExplodeColumns(r, 0))], false)
  }

  /** Python dict keys are hashable: a dict cell's keys are never lists, sets or dicts. */
  predicate ScalarKeys(v: Value) {
    v.Dict? ==> forall k | 0 <= k < |v.entries| :: v.entries[k].0.Scalar?
  }

  /** A cell whose elements are neither lists nor sets, and whose dict elements have hashable keys. */
  predicate FlatCell(v: Value) {
    forall e | e in Elements(v) :: !IsNestedCollection(e) && ScalarKeys(e)
  }

  /** An element of a flat cell is itself a flat cell. */
  lemma ElementFlat(v: Value, x: Value)
    requires FlatCell(v) && x in Elements(v)
    ensures FlatCell(x)
  {
    if x.Dict? {
      forall y | y in Elements(x) ensures !IsNestedCollection(y) && ScalarKeys(y) {
        var k :| 0 <= k < |x.entries| && x.entries[k].0 == y;
      }
    }
  }

  /** Every collection cell holds only non-collection elements (one level of nesting). */
  predicate FlatCells(r: Relation) {
    forall i, a | 0 <= i < |r.rows| && a in r.rows[i] :: FlatCell(r.rows[i][a])
  }

  /** No cell of column `c` is a list or a set. */
  predicate NoCollections(r: Relation, c: Attr)
    requires WellFormed(r) && c in Cols(r)
  {
    forall i | 0 <= i < |r.rows| :: !IsNestedCollection(r.rows[i][c])
  }

  /** Each exploded row copies some source row off column `c`, and under flatness holds no collection in `c`. */
  lemma ExplodedRowSource(r: Relation, c: Attr, k: nat) returns (i: nat)
    requires WellFormed(r) && c in Cols(r) && FlatCells(r)
    requires k < |Explode(r, c).rows|
    ensures i < |r.rows|
    ensures forall d | d in r.rows[i] && d != c :: Explode(r, c).rows[k][d] == r.rows[i][d]
    ensures !IsNestedCollection(Explode(r, c).rows[k][c]) && FlatCell(Explode(r, c).rows[k][c])
  {
    var o := Explode(r, c).rows[k];
    assert o in ExplodeRows(r.rows, c);
    i :| 0 <= i < |r.rows| && o in ExplodeRow(r.rows[i], c);
    assert c in r.rows[i];
    CellAfterExplode(r.rows[i], c, o);
  }

  /** The exploded cell is an element of a flat cell, NaN, or a cell that was no collection. */
  lemma CellAfterExplode(row: Row, c: Attr, o: Row)
    requires c in row && o in ExplodeRow(row, c)
    requires FlatCell(row[c])
    ensures !IsNestedCollection(o[c]) && FlatCell(o[c])
  {
    if IsNested(row[c]) {
      if o[c] in Elements(row[c]) {
        ElementFlat(row[c], o[c]);
      } else {
        assert o[c] == NaN;
      }
    }
  }

  /** Exploding `c` clears `c` of collections, keeps the cells flat, and keeps cleared columns clear. */
  lemma ExplodeClears(r: Relation, c: Attr)
    requires WellFormed(r) && c in Cols(r) && FlatCells(r)
    ensures FlatCells(Explode(r, c))
    ensures NoCollections(Explode(r, c), c)
    ensures forall d | d in Cols(r) && NoCollections(r, d) :: NoCollections(Explode(r, c), d)
  {
    ExplodeFlattens(r, c);
    forall d | d in Cols(r) && NoCollections(r, d)
      ensures NoCollections(Explode(r, c), d)
    {
      ExplodeKeepsClear(r, c, d);
    }
  }

  lemma ExplodeFlattens(r: Relation, c: Attr)
    requires WellFormed(r) && c in Cols(r) && FlatCells(r)
    ensures FlatCells(Explode(r, c))
    ensures NoCollections(Explode(r, c), c)
  {
    var e := Explode(r, c);
    forall k, a | 0 <= k < |e.rows| && a in e.rows[k]
      ensures FlatCell(e.rows[k][a])
    {
      var i := ExplodedRowSource(r, c, k);
      if a != c {
        assert e.rows[k][a] == r.rows[i][a];
      }
    }
    forall k | 0 <= k < |e.rows| ensures !IsNestedCollection(e.rows[k][c]) {
      var i := ExplodedRowSource(r, c, k);
    }
  }

  lemma ExplodeKeepsClear(r: Relation, c: Attr, d: Attr)
    requires WellFormed(r) && c in Cols(r) && FlatCells(r)
    requires d in Cols(r) && NoCollections(r, d)
    ensures NoCollections(Explode(r, c), d)
  {
    var e := Explode(r, c);
    forall k | 0 <= k < |e.rows| ensures !IsNestedCollection(e.rows[k][d]) {
      var i := ExplodedRowSource(r, c, k);
      if d != c {
        assert e.rows[k][d] == r.rows[i][d];
      }
    }
  }

  /** A step of the column loop keeps the cells flat, clears its column, and keeps the earlier columns clear. */
  lemma ExplodeStepClears(r: Relation, k: nat)
    requires WellFormed(r) && k < |r.columns| && FlatCells(r)
    requires forall m | 0 <= m < k :: NoCollections(r, r.columns[m])
    ensures FlatCells(ExplodeStep(r, r.columns[k]))
    ensures forall m | 0 <= m <= k :: NoCollections(ExplodeStep(r, r.columns[k]), r.columns[m])
  {
    var c := r.columns[k];
    if HasCollection(r, c) {
      ExplodeClearsUpTo(r, k);
      assert ExplodeStep(r, c) == Explode(r, c);
    } else {
      assert ExplodeStep(r, c) == r;
      assert NoCollections(r, c);
    }
  }

  /** Exploding column `k` keeps the cells flat and leaves columns `0..k` clear of collections. */
  lemma ExplodeClearsUpTo(r: Relation, k: nat)
    requires WellFormed(r) && k < |r.columns| && FlatCells(r)
    requires forall m | 0 <= m < k :: NoCollections(r, r.columns[m])
    ensures FlatCells(Explode(r, r.columns[k]))
    ensures forall m | 0 <= m <= k :: NoCollections(Explode(r, r.columns[k]), r.columns[m])
  {
    var c := r.columns[k];
    ExplodeFlattens(r, c);
    forall m | 0 <= m < k ensures NoCollections(Explode(r, c), r.columns[m]) {
      ExplodeKeepsClear(r, c, r.columns[m]);
    }
  }

  lemma {:induction false} ExplodeColumnsClears(r: Relation, k: nat)
    requires WellFormed(r) && k <= |r.columns| && FlatCells(r)
    requires forall m | 0 <= m < k :: NoCollections(r, r.columns[m])
    ensures forall c | c in r.columns :: NoCollections(ExplodeColumns(r, k), c)
    decreases |r.columns| - k
  {
    if k < |r.columns| {
      var next := ExplodeStep(r, r.columns[k]);
      ExplodeStepClears(r, k);
      ExplodeColumnsClears(next, k + 1);
      assert ExplodeColumns(r, k) == ExplodeColumns(next, k + 1);
    } else {
      forall c | c in r.columns ensures NoCollections(r, c) {
        var m :| 0 <= m < |r.columns| && r.columns[m] == c;
      }
    }
  }

  /** When collections hold no further collections, the transformed relation has no list or set cell. */
  lemma Transform1NFFlattens(r: Relation, pk: Name)
    requires WellFormed(r) && FlatCells(r)
    ensures var t := Transform1NF(r, pk).0[0].1;
            forall i, c | 0 <= i < |t.rows| && c in t.columns :: !IsNestedCollection(t.rows[i][c])
  {
    if !Validate1NF(r) {
      ExplodeColumnsClears(r, 0);
    }
  }

  /** A cell after exploding: unchanged, or an element of the list-like cell it came from (NaN for an empty one). */
  predicate CellFrom(v: Value, w: Value) {
    w == v || (IsNested(v) && (w in Elements(v) || (|Elements(v)| == 0 && w == NaN)))
  }

  /** Row `o` comes from row `src`: the same columns, cells in `cols` as `CellFrom` allows, every other cell copied. */
  predicate RowFrom(src: Row, o: Row, cols: set<Attr>) {
    o.Keys == src.Keys && forall a | a in src :: if a in cols then CellFrom(src[a], o[a]) else o[a] == src[a]
  }

  /** Some row of `rows` is the source of `o`. */
  predicate ComesFrom(rows: seq<Row>, o: Row, cols: set<Attr>) {
    exists i :: 0 <= i < |rows| && RowFrom(rows[i], o, cols)
  }

  /** Some row of `out` comes from `src`. */
  predicate Yields(src: Row, out: seq<Row>, cols: set<Attr>) {
    exists k :: 0 <= k < |out| && RowFrom(src, out[k], cols)
  }

  /** Changes to disjoint column sets compose. */
  lemma RowFromCompose(x: Row, y: Row, z: Row, a: set<Attr>, b: set<Attr>)
    requires a !! b && RowFrom(x, y, a) && RowFrom(y, z, b)
    ensures RowFrom(x, z, a + b)
  {
    forall d | d in x ensures if d in a + b then CellFrom(x[d], z[d]) else z[d] == x[d] {
      assert d in y;
    }
  }

  /** One row's explosion is non-empty and each of its rows comes from the row, changed only in `c`. */
  lemma ExplodeRowFrom(row: Row, c: Attr)
    requires c in row
    ensures |ExplodeRow(row, c)| > 0
    ensures forall o | o in ExplodeRow(row, c) :: RowFrom(row, o, {c})
  {
  }

  /** One step of the column loop: every row comes from an input row changed only in `c`, and every input row yields one. */
  lemma ExplodeStepRows(r: Relation, c: Attr)
    requires WellFormed(r) && c in Cols(r)
    ensures forall o | o in ExplodeStep(r, c).rows :: ComesFrom(r.rows, o, {c})
    ensures forall i | 0 <= i < |r.rows| :: Yields(r.rows[i], ExplodeStep(r, c).rows, {c})
  {
    if HasCollection(r, c) {
      assert ExplodeStep(r, c).rows == ExplodeRows(r.rows, c);
      ExplodeRowsFrom(r.rows, c);
    } else {
      assert ExplodeStep(r, c) == r;
      RowsFromThemselves(r.rows, {c});
    }
  }

  /** Every exploded row comes from an input row changed only in `c`, and every input row yields one. */
  lemma ExplodeRowsFrom(rows: seq<Row>, c: Attr)
    requires forall i | 0 <= i < |rows| :: c in rows[i]
    ensures forall o | o in ExplodeRows(rows, c) :: ComesFrom(rows, o, {c})
    ensures forall i | 0 <= i < |rows| :: Yields(rows[i], ExplodeRows(rows, c), {c})
  {
    var out := ExplodeRows(rows, c);
    forall o | o in out ensures ComesFrom(rows, o, {c}) {
      var i :| 0 <= i < |rows| && o in ExplodeRow(rows[i], c);
      ExplodeRowFrom(rows[i], c);
    }
    forall i | 0 <= i < |rows| ensures Yields(rows[i], out, {c}) {
      ExplodeRowFrom(rows[i], c);
      var o := ExplodeRow(rows[i], c)[0];
      assert o in out;
      var k :| 0 <= k < |out| && out[k] == o;
    }
  }

  /** Left unchanged, every row is its own source. */
  lemma RowsFromThemselves(rows: seq<Row>, cols: set<Attr>)
    ensures forall o | o in rows :: ComesFrom(rows, o, cols)
    ensures forall i | 0 <= i < |rows| :: Yields(rows[i], rows, cols)
  {
    forall i | 0 <= i < |rows| ensures Yields(rows[i], rows, cols) {
      assert RowFrom(rows[i], rows[i], cols);
    }
    forall o | o in rows ensures ComesFrom(rows, o, cols) {
      var i :| 0 <= i < |rows| && rows[i] == o;
      assert RowFrom(rows[i], o, cols);
    }
  }

  /** The step of `ExplodeColumnsRows`: provenance through one step composes with provenance through the rest. */
  lemma ExplodeColumnsRowsStep(r: Relation, s: Relation, t: Relation, c: Attr, later: set<Attr>)
    requires c !in later
    requires forall o | o in s.rows :: ComesFrom(r.rows, o, {c})
    requires forall i | 0 <= i < |r.rows| :: Yields(r.rows[i], s.rows, {c})
    requires forall o | o in t.rows :: ComesFrom(s.rows, o, later)
    requires forall j | 0 <= j < |s.rows| :: Yields(s.rows[j], t.rows, later)
    ensures forall o | o in t.rows :: ComesFrom(r.rows, o, {c} + later)
    ensures forall i | 0 <= i < |r.rows| :: Yields(r.rows[i], t.rows, {c} + later)
  {
    forall o | o in t.rows ensures ComesFrom(r.rows, o, {c} + later) {
      var j :| 0 <= j < |s.rows| && RowFrom(s.rows[j], o, later);
      assert s.rows[j] in s.rows;
      var i :| 0 <= i < |r.rows| && RowFrom(r.rows[i], s.rows[j], {c});
      RowFromCompose(r.rows[i], s.rows[j], o, {c}, later);
    }
    forall i | 0 <= i < |r.rows| ensures Yields(r.rows[i], t.rows, {c} + later) {
      var j :| 0 <= j < |s.rows| && RowFrom(r.rows[i], s.rows[j], {c});
      var k :| 0 <= k < |t.rows| && RowFrom(s.rows[j], t.rows[k], later);
      RowFromCompose(r.rows[i], s.rows[j], t.rows[k], {c}, later);
    }
  }

  /**
   The column loop from column `k` on: every output row comes from an input
   row changed only in the columns still to visit, and every input row
   yields at least one output row. Column names are distinct, so no cell
   is exploded twice.
   */
  lemma {:induction false} ExplodeColumnsRows(r: Relation, k: nat)
    requires WellFormed(r) && k <= |r.columns| && NoDup(r.columns)
    ensures forall o | o in ExplodeColumns(r, k).rows :: ComesFrom(r.rows, o, Elems(r.columns[k..]))
    ensures forall i | 0 <= i < |r.rows| :: Yields(r.rows[i], ExplodeColumns(r, k).rows, Elems(r.columns[k..]))
    decreases |r.columns| - k
  {
    var later := Elems(r.columns[k..]);
    if k == |r.columns| {
      RowsFromThemselves(r.rows, later);
    } else {
      var c := r.columns[k];
      var s := ExplodeStep(r, c);
      ExplodeStepRows(r, c);
      ExplodeColumnsRows(s, k + 1);
      assert ExplodeColumns(r, k) == ExplodeColumns(s, k + 1);
      LaterColumns(r.columns, k);
      ExplodeColumnsRowsStep(r, s, ExplodeColumns(s, k + 1), c, Elems(r.columns[k + 1..]));
    }
  }

  /** The columns from `k` on are column `k` and, apart from it, the columns from `k + 1` on. */
  lemma LaterColumns(cols: seq<Attr>, k: nat)
    requires NoDup(cols) && k < |cols|
    ensures Elems(cols[k..]) == {cols[k]} + Elems(cols[k + 1..])
    ensures cols[k] !in Elems(cols[k + 1..])
  {
    assert cols[k..] == [cols[k]] + cols[k + 1..];
    ElemsConcat([cols[k]], cols[k + 1..]);
    forall m | k + 1 <= m < |cols| ensures cols[m] != cols[k] {
    }
  }

  /**
   The rows of the transform when it explodes: each comes from an input row
   whose cells are unchanged or replaced by one element of a list-like cell
   (NaN for an empty one), and each input row yields at least one of them.
   */
  lemma Transform1NFRows(r: Relation, pk: Name)
    requires WellFormed(r) && NoDup(r.columns)
    ensures var (rs, ok) := Transform1NF(r, pk);
            !ok ==>
              && (forall o | o in rs[0].1.rows :: ComesFrom(r.rows, o, Cols(r)))
              && (forall i | 0 <= i < |r.rows| :: Yields(r.rows[i], rs[0].1.rows, Cols(r)))
  {
    if !Validate1NF(r) {
      ExplodeColumnsRows(r, 0);
      assert r.columns[0..] == r.columns;
    }
  }
}

=== FILE: fourth_nf.dfy ===
/**
 Fourth normal form (`validate_4NF`, `transform_to_4NF`). A multi-valued
 dependency `det ->> dep` is flagged in a relation holding all its columns
 when grouping the rows by the determinant yields fewer groups than rows,
 that is when two rows agree on the determinant. The transform splits each
 relation on its first flagged dependency and repeats on its own output
 until a round leaves the number of entries unchanged.
 */
module FourthNF {
  import opened Schema
  import opened RelationSets
  import opened Grouping

  /** The test at lines 273-277 for one determinant and one dependent. */
  predicate MvdViolation(rel: Relation, det: seq<Attr>, dep: Attr) {
    Elems(det + [dep]) <= Cols(rel) && RowsAgreeOn(rel, det)
  }

  /** No dependent of `deps` from position `k` on is flagged with determinant `det` in `rel`. */
  predicate DependentsClean(rel: Relation, det: seq<Attr>, deps: seq<Attr>, k: nat) {
    forall b | k <= b < |deps| :: !MvdViolation(rel, det, deps[b])
  }

  /** The first dependent from `k` on that `det` flags in `rel`. */
  function FirstDependent(rel: Relation, det: seq<Attr>, deps: seq<Attr>, k: nat): (r: Option<nat>)
    requires k <= |deps|
    ensures r.Some? ==> k <= r.value < |deps| && MvdViolation(rel, det, deps[r.value])
                        && forall b | k <= b < r.value :: !MvdViolation(rel, det, deps[b])
    ensures r.None? <==> DependentsClean(rel, det, deps, k)
    decreases |deps| - k
  {
    if k == |deps| then None
    else
      GroupCountBelowRows(rel, det);
      if Elems(det + [deps[k]]) <= Cols(rel) && GroupCount(rel, det) < |rel.rows| then Some(k)
      else FirstDependent(rel, det, deps, k + 1)
  }

  /** No dependent of any dependency from `i` on is flagged in `rel`. */
  predicate CleanFrom(rel: Relation, mvds: seq<MVD>, i: nat) {
    forall a | i <= a < |mvds| :: DependentsClean(rel, mvds[a].det, mvds[a].deps, 0)
  }

  /** The first flagged (dependency, dependent) pair from dependency `i` on, in loop order. */
  function FirstViolation(rel: Relation, mvds: seq<MVD>, i: nat): (r: Option<(nat, nat)>)
    requires i <= |mvds|
    ensures r.Some? ==>
              && i <= r.value.0 < |mvds| && r.value.1 < |mvds[r.value.0].deps|
              && MvdViolation(rel, mvds[r.value.0].det, mvds[r.value.0].deps[r.value.1])
              && (forall b | 0 <= b < r.value.1 :: !MvdViolation(rel, mvds[r.value.0].det, mvds[r.value.0].deps[b]))
              && (forall a | i <= a < r.value.0 :: DependentsClean(rel, mvds[a].det, mvds[a].deps, 0))
    ensures r.None? <==> CleanFrom(rel, mvds, i)
    decreases |mvds| - i
  {
    if i == |mvds| then None
    else
      match FirstDependent(rel, mvds[i].det, mvds[i].deps, 0)
      case Some(b) => Some((i, b))
      case None =>
        CleanFromStep(rel, mvds, i);
        FirstViolation(rel, mvds, i + 1)
  }

  lemma CleanFromStep(rel: Relation, mvds: seq<MVD>, i: nat)
    requires i < |mvds|
    ensures CleanFrom(rel, mvds, i) <==>
              DependentsClean(rel, mvds[i].det, mvds[i].deps, 0) && CleanFrom(rel, mvds, i + 1)
  {
  }

  /**
   Every dependency can be grouped as the loops do: its determinant is
   non-empty (grouping by no columns raises in pandas) and no dependent
   lies inside its own determinant (resetting the index of the grouped
   dependent would then insert a column that already exists, which raises).
   */
  predicate Groupable(mvds: seq<MVD>) {
    forall a | 0 <= a < |mvds| :: |mvds[a].det| > 0 && forall b | 0 <= b < |mvds[a].deps| :: mvds[a].deps[b] !in mvds[a].det
  }

  /** The relation loop of `validate_4NF`, from relation `j` on. */
  function CleanRelations(rs: RelSet, mvds: seq<MVD>, j: nat): (ok: bool)
    requires j <= |rs|
    ensures ok <==> forall m | j <= m < |rs| :: CleanFrom(rs[m].1, mvds, 0)
    decreases |rs| - j
  {
    if j == |rs| then true
    else FirstViolation(rs[j].1, mvds, 0).None? && CleanRelations(rs, mvds, j + 1)
  }

  /** `validate_4NF(relations, mvds)`. */
  function Validate4NF(rs: RelSet, mvds: seq<MVD>): (ok: bool)
    requires Groupable(mvds)
    ensures ok <==> forall m, a, b | 0 <= m < |rs| && 0 <= a < |mvds| && 0 <= b < |mvds[a].deps| ::
                      !(Elems(mvds[a].det + [mvds[a].deps[b]]) <= Cols(rs[m].1) && RowsAgreeOn(rs[m].1, mvds[a].det))
  {
    var ok := CleanRelations(rs, mvds, 0);
    assert ok <==> forall m | 0 <= m < |rs| :: CleanFrom(rs[m].1, mvds, 0);
    ok
  }

  /** What one relation contributes to a round: its two split tables, or itself. */
  function Split4NF(name: Name, rel: Relation, mvds: seq<MVD>): (es: seq<Entry>)
    ensures |es| > 0 && es[|es| - 1].0 == name
    ensures FirstViolation(rel, mvds, 0).None? ==> es == [(name, rel)]
    ensures FirstViolation(rel, mvds, 0).Some? ==>
              var (a, b) := FirstViolation(rel, mvds, 0).value;
              var det := mvds[a].det;
              var dep := mvds[a].deps[b];
              && |es| == 2 && es[0].0 == det
              && es[0].1.columns == det + [dep]
              && Cols(es[1].1) == (Cols(rel) - {dep}) + Elems(det)
              && Cols(es[0].1) + Cols(es[1].1) == Cols(rel)
              && NoDup(es[0].1.rows) && (|es[1].1.columns| > 0 ==> NoDup(es[1].1.rows))
              && (WellFormed(rel) ==> WellFormed(es[0].1) && WellFormed(es[1].1))
  {
    match FirstViolation(rel, mvds, 0)
    case None => [(name, rel)]
    case Some((a, b)) =>
      var det := mvds[a].det;
      var dep := mvds[a].deps[b];
      ElemsConcat(det, [dep]);
      var others := Without(rel.columns, [dep] + det);
      ElemsConcat(det, others);
      var t1 := ProjectDistinct(rel, det + [dep]);
      var t2 := ProjectDistinct(rel, det + others);
      assert Cols(t2) == (Cols(rel) - {dep}) + Elems(det);
      [(det, t1), (name, t2)]
  }

  /** A row is in either split table exactly when it is some input row cut down to that table's columns. */
  lemma Split4NFRows(name: Name, rel: Relation, mvds: seq<MVD>, t: Row)
    requires FirstViolation(rel, mvds, 0).Some?
    ensures var es := Split4NF(name, rel, mvds);
            && (t in es[0].1.rows <==> exists i :: 0 <= i < |rel.rows| && t == Restrict(rel.rows[i], Cols(es[0].1)))
            && (t in es[1].1.rows <==> exists i :: 0 <= i < |rel.rows| && t == Restrict(rel.rows[i], Cols(es[1].1)))
  {
    var (a, b) := FirstViolation(rel, mvds, 0).value;
    var det := mvds[a].det;
    var dep := mvds[a].deps[b];
    ElemsConcat(det, [dep]);
    var others := Without(rel.columns, [dep] + det);
    ElemsConcat(det, others);
    var t1 := ProjectDistinct(rel, det + [dep]);
    var t2 := ProjectDistinct(rel, det + others);
    assert Split4NF(name, rel, mvds) == [(det, t1), (name, t2)];
    ProjectDistinctRows(rel, det + [dep], t);
    ProjectDistinctRows(rel, det + others, t);
  }

  /** Entry `e` is one of the tables some relation contributes to a round. */
  predicate ProducedBy(rs: RelSet, mvds: seq<MVD>, e: Entry) {
    exists m :: 0 <= m < |rs| && e in Split4NF(rs[m].0, rs[m].1, mvds)
  }

  /** What each relation contributes to a round, in relation order. */
  function RoundParts(rs: RelSet, mvds: seq<MVD>): (ps: seq<seq<Entry>>)
    ensures |ps| == |rs|
    ensures forall m | 0 <= m < |rs| :: ps[m] == Split4NF(rs[m].0, rs[m].1, mvds)
  {
    seq(|rs|, m requires 0 <= m < |rs| => Split4NF(rs[m].0, rs[m].1, mvds))
  }

  /** One round: `four_relations` as built by one call, starting empty. */
  function Round(rs: RelSet, mvds: seq<MVD>): (out: RelSet)
    ensures forall n | n in Names(rs) :: n in Names(out)
    ensures UniqueNames(out)
  {
    var ps := RoundParts(rs, mvds);
    PutPartsKeepsNames(rs, ps, []);
    PutParts([], ps, 0)
  }

  /** A round holds only tables that some relation's split produced. */
  lemma RoundProduced(rs: RelSet, mvds: seq<MVD>)
    ensures forall e | e in Round(rs, mvds) :: ProducedBy(rs, mvds, e)
  {
    var ps := RoundParts(rs, mvds);
    var out := PutParts([], ps, 0);
    assert Round(rs, mvds) == out;
    PutPartsFrom([], ps, 0);
    forall e | e in out ensures ProducedBy(rs, mvds, e) {
      var m :| 0 <= m < |ps| && e in ps[m];
    }
  }

  /** Last write wins in a round: a name holds the last table written under it, in relation order, and is absent when none is. */
  lemma RoundLookup(rs: RelSet, mvds: seq<MVD>, n: Name)
    ensures Lookup(Round(rs, mvds), n) == LastUnder(Concat(RoundParts(rs, mvds)), n)
  {
    PutPartsLookup([], RoundParts(rs, mvds), n);
  }

  /** The relation set after `n` rounds. */
  function Iterate(rs: RelSet, mvds: seq<MVD>, n: nat): (out: RelSet)
    ensures forall x | x in Names(rs) :: x in Names(out)
    ensures n > 0 || UniqueNames(rs) ==> UniqueNames(out)
    decreases n
  {
    if n == 0 then rs else Iterate(Round(rs, mvds), mvds, n - 1)
  }

  lemma IterateShift(rs: RelSet, mvds: seq<MVD>)
    ensures forall n: nat :: Iterate(rs, mvds, n + 1) == Iterate(Round(rs, mvds), mvds, n)
  {
  }

  /**
   `transform_to_4NF(relations, mvds)`. The recursion has no bound in the
   source; `fuel` caps the number of recursive calls.
   */
  function Transform4NF(rs: RelSet, mvds: seq<MVD>, fuel: nat): (r: Result<(RelSet, bool)>)
    requires Groupable(mvds)
    ensures Validate4NF(rs, mvds) ==> r == Ok((rs, true))
    ensures r.Err? ==> r.error == FuelExhausted
    ensures r.Ok? ==> forall x | x in Names(rs) :: x in Names(r.value.0)
    ensures r.Ok? && r.value.1 ==> Validate4NF(r.value.0, mvds)
    ensures r.Ok? && r.value.1 ==> exists n :: 0 <= n <= fuel && r.value.0 == Iterate(rs, mvds, n)
    ensures r.Ok? && !r.value.1 ==>
              exists n :: 0 <= n <= fuel && !Validate4NF(Iterate(rs, mvds, n), mvds)
                          && r.value.0 == Round(Iterate(rs, mvds, n), mvds)
                          && |r.value.0| == |Iterate(rs, mvds, n)|
    decreases fuel
  {
    if Validate4NF(rs, mvds) then
      assert rs == Iterate(rs, mvds, 0);
      Ok((rs, true))
    else
      var four := Round(rs, mvds);
      if |four| == |rs| then
        assert rs == Iterate(rs, mvds, 0);
        Ok((four, false))
      else if fuel == 0 then Err(FuelExhausted)
      else
        IterateShift(rs, mvds);
        var r := Transform4NF(four, mvds, fuel - 1);
        r
  }
}

=== FILE: grouping.dfy ===
/**
 Grouping rows by determinant columns, as `DataFrame.groupby(det)` does:
 each row's key is its determinant cells, and the groups are the distinct
 keys in order of first occurrence.
 */
module Grouping {
  import opened Schema

  /** The grouping key of each row: its determinant cells. */
  function GroupKeys(rel: Relation, det: seq<Attr>): (ks: seq<Row>)
    ensures |ks| == |rel.rows|
    ensures forall i | 0 <= i < |rel.rows| :: ks[i] == Restrict(rel.rows[i], Elems(det))
  {
    seq(|rel.rows|, i requires 0 <= i < |rel.rows| => Restrict(rel.rows[i], Elems(det)))
  }

  /** Two rows fall in the same group exactly when they agree on every determinant column. */
  lemma GroupKeysAgree(rel: Relation, det: seq<Attr>, i: nat, j: nat)
    requires WellFormed(rel) && Elems(det) <= Cols(rel) && i < |rel.rows| && j < |rel.rows|
    ensures GroupKeys(rel, det)[i] == GroupKeys(rel, det)[j] <==> forall a | a in det :: rel.rows[i][a] == rel.rows[j][a]
  {
  }

  /** The number of groups a `groupby` on the determinant forms: its distinct combinations of cells. */
  function GroupCount(rel: Relation, det: seq<Attr>): (n: nat)
    ensures n <= |rel.rows|
  {
    |Distinct(GroupKeys(rel, det))|
  }

  /** Two different rows carry the same determinant cells. */
  predicate RowsAgreeOn(rel: Relation, det: seq<Attr>) {
    exists i, j :: 0 <= i < j < |rel.rows| && Restrict(rel.rows[i], Elems(det)) == Restrict(rel.rows[j], Elems(det))
  }

  /** Fewer groups than rows exactly when two rows agree on the determinant. */
  lemma GroupCountBelowRows(rel: Relation, det: seq<Attr>)
    ensures GroupCount(rel, det) < |rel.rows| <==> RowsAgreeOn(rel, det)
  {
    var ks := GroupKeys(rel, det);
    DistinctLengthIffNoDup(ks);
    if RowsAgreeOn(rel, det) {
      var i, j :| 0 <= i < j < |rel.rows| && Restrict(rel.rows[i], Elems(det)) == Restrict(rel.rows[j], Elems(det));
      assert ks[i] == ks[j];
    } else {
      assert NoDup(ks);
    }
  }

  /** Some value occurs twice exactly when some value's multiplicity is not one. */
  lemma {:induction false} NoDupIffSingletons<T(!new)>(s: seq<T>)
    ensures NoDup(s) <==> forall x | x in s :: multiset(s)[x] == 1
    decreases |s|
  {
    if |s| > 0 {
      var p := s[..|s| - 1];
      var x := s[|s| - 1];
      assert s == p + [x];
      assert multiset(s) == multiset(p) + multiset{x};
      if NoDup(s) {
        assert NoDup(p);
        NoDupIffSingletons(p);
        assert x !in p;
        forall y | y in s ensures multiset(s)[y] == 1 {
          if y != x {
            assert y in p;
          }
        }
      } else {
        var i, j :| 0 <= i < j < |s| && s[i] == s[j];
        assert s == s[..j] + [s[j]] + s[j + 1..];
        assert multiset(s) == multiset(s[..j]) + multiset{s[j]} + multiset(s[j + 1..]);
        assert s[i] in s[..j];
        assert multiset(s)[s[j]] >= 2;
      }
    }
  }
}

=== FILE: relation_sets.dfy ===
/**
 A relation set: the Python dictionary from relation name (an attribute
 tuple) to relation that every stage from 1NF on returns. Insertion order
 is iteration order, and assigning to a key that is already present
 replaces its relation in place, keeping its position.
 */
module RelationSets {
  import opened Schema

  type Entry = (Name, Relation)
  type RelSet = seq<Entry>

  function Names(rs: RelSet): (ns: seq<Name>)
    ensures |ns| == |rs|
    ensures forall i | 0 <= i < |rs| :: ns[i] == rs[i].0
  {
    seq(|rs|, i requires 0 <= i < |rs| => rs[i].0)
  }

  /** A name is listed exactly when some entry is stored under it. */
  lemma NamesListed(rs: RelSet, n: Name)
    ensures n in Names(rs) <==> exists e :: e in rs && e.0 == n
  {
  }

  /** Dictionary keys are unique. */
  predicate UniqueNames(rs: RelSet) {
    forall i, j | 0 <= i < j < |rs| :: rs[i].0 != rs[j].0
  }

  /** The position of the first entry named `n`. */
  function IndexOf(rs: RelSet, n: Name): (i: nat)
    requires n in Names(rs)
    ensures i < |rs| && rs[i].0 == n
    ensures forall k | 0 <= k < i :: rs[k].0 != n
  {
    if rs[0].0 == n then 0
    else
      var tail := rs[1..];
      assert n in Names(tail) by {
        var m :| 0 <= m < |rs| && Names(rs)[m] == n;
        assert Names(tail)[m - 1] == n;
      }
      var j := IndexOf(tail, n);
      assert forall k | 1 <= k < |rs| :: rs[k] == tail[k - 1];
      1 + j
  }

  /** `rs[n]` when `n` is a key; None where Python raises KeyError. */
  function Lookup(rs: RelSet, n: Name): (r: Option<Relation>)
    ensures r.None? <==> n !in Names(rs)
    ensures r.Some? ==> (n, r.value) in rs
  {
    if n in Names(rs) then
      var i := IndexOf(rs, n);
      assert rs[i] == (n, rs[i].1);
      Some(rs[i].1)
    else None
  }

  /** In a set with unique keys an entry is what its key looks up. */
  lemma LookupEntry(rs: RelSet, i: nat)
    requires UniqueNames(rs) && i < |rs|
    ensures Lookup(rs, rs[i].0) == Some(rs[i].1)
  {
    assert Names(rs)[i] == rs[i].0;
    var k := IndexOf(rs, rs[i].0);
    assert k == i;
  }

  /** `rs[n] = t`: overwrite in place when `n` is a key, append otherwise. */
  function Put(rs: RelSet, n: Name, t: Relation): (out: RelSet)
    ensures |out| == if n in Names(rs) then |rs| else |rs| + 1
    ensures forall i | 0 <= i < |rs| :: out[i].0 == rs[i].0
    ensures n !in Names(rs) ==> out == rs + [(n, t)]
    ensures forall e | e in out :: e in rs || e == (n, t)
    ensures forall m :: m in Names(out) <==> m in Names(rs) || m == n
    ensures UniqueNames(rs) ==> UniqueNames(out)
  {
    if n in Names(rs) then
      var i := IndexOf(rs, n);
      var out := rs[i := (n, t)];
      assert forall m :: m in Names(out) <==> m in Names(rs) by {
        forall m ensures m in Names(out) <==> m in Names(rs) {
          if m in Names(out) {
            var k :| 0 <= k < |out| && Names(out)[k] == m;
            assert Names(rs)[k] == m;
          }
          if m in Names(rs) {
            var k :| 0 <= k < |rs| && Names(rs)[k] == m;
            assert Names(out)[k] == m;
          }
        }
      }
      out
    else
      var out := rs + [(n, t)];
      assert Names(out) == Names(rs) + [n];
      out
  }

  /** After `rs[n] = t`, `n` looks up `t` and every other key looks up what it did before. */
  lemma PutLookup(rs: RelSet, n: Name, t: Relation)
    ensures Lookup(Put(rs, n, t), n) == Some(t)
    ensures forall m | m != n :: Lookup(Put(rs, n, t), m) == Lookup(rs, m)
  {
    var out := Put(rs, n, t);
    if n in Names(rs) {
      var i := IndexOf(rs, n);
      assert Names(out)[i] == n;
      assert IndexOf(out, n) == i;
      forall m | m != n
        ensures Lookup(out, m) == Lookup(rs, m)
      {
        if m in Names(rs) {
          var k := IndexOf(rs, m);
          assert Names(out)[k] == m;
          assert IndexOf(out, m) == k;
        }
      }
    } else {
      assert Names(out)[|rs|] == n;
      assert IndexOf(out, n) == |rs|;
      forall m | m != n
        ensures Lookup(out, m) == Lookup(rs, m)
      {
        if m in Names(rs) {
          var k := IndexOf(rs, m);
          assert Names(out)[k] == m;
          assert IndexOf(out, m) == k;
        }
      }
    }
  }

  /** Assign the entries of `es` in order, as a loop of `rs[n] = t` statements does. */
  function PutAll(rs: RelSet, es: seq<Entry>): (out: RelSet)
    ensures forall e | e in out :: e in rs || e in es
    ensures forall m :: m in Names(out) <==> m in Names(rs) || m in Names(es)
    ensures |out| <= |rs| + |es|
    ensures UniqueNames(rs) ==> UniqueNames(out)
    decreases |es|
  {
    if |es| == 0 then rs
    else
      assert Names(es) == [es[0].0] + Names(es[1..]);
      PutAll(Put(rs, es[0].0, es[0].1), es[1..])
  }

  /**
   The relation of the last entry of `es` named `n`, read from the back:
   what a run of assignments leaves under `n`, if it assigns `n` at all.
   */
  function LastUnder(es: seq<Entry>, n: Name): (r: Option<Relation>)
    ensures r.None? <==> n !in Names(es)
    decreases |es|
  {
    if |es| == 0 then None
    else
      var init := es[..|es| - 1];
      assert Names(es) == Names(init) + [es[|es| - 1].0];
      if es[|es| - 1].0 == n then Some(es[|es| - 1].1) else LastUnder(init, n)
  }

  /** What `LastUnder` finds is an entry under `n` with no later entry under `n`. */
  lemma {:induction false} LastUnderIsLast(es: seq<Entry>, n: Name)
    ensures LastUnder(es, n).Some? ==>
              exists k :: 0 <= k < |es| && es[k] == (n, LastUnder(es, n).value) && forall l | k < l < |es| :: es[l].0 != n
    decreases |es|
  {
    if |es| > 0 && es[|es| - 1].0 != n {
      var init := es[..|es| - 1];
      LastUnderIsLast(init, n);
      if LastUnder(init, n).Some? {
        var k :| 0 <= k < |init| && init[k] == (n, LastUnder(init, n).value) && forall l | k < l < |init| :: init[l].0 != n;
        assert es[k] == init[k];
        assert forall l | k < l < |es| :: es[l].0 != n by {
          forall l | k < l < |es| ensures es[l].0 != n {
            if l < |es| - 1 {
              assert es[l] == init[l];
            }
          }
        }
      }
    }
  }

  /** Read from the front: the last entry under `n` is in the tail if the tail has one, else it is the head or there is none. */
  lemma {:induction false} LastUnderCons(es: seq<Entry>, n: Name)
    requires |es| > 0
    ensures LastUnder(es, n) ==
            if LastUnder(es[1..], n).Some? then LastUnder(es[1..], n)
            else if es[0].0 == n then Some(es[0].1) else None
    decreases |es|
  {
    var last := es[|es| - 1];
    var tail := es[1..];
    if |es| == 1 {
      assert LastUnder(tail, n) == None;
      assert last == es[0];
    } else if last.0 == n {
      assert tail[|tail| - 1] == last;
      assert LastUnder(tail, n) == Some(last.1);
    } else {
      var init := es[..|es| - 1];
      LastUnderCons(init, n);
      assert tail[|tail| - 1] == last;
      assert |init[1..]| == |tail[..|tail| - 1]|;
      assert forall k | 0 <= k < |init| - 1 :: init[1..][k] == es[k + 1] == tail[..|tail| - 1][k];
      assert init[1..] == tail[..|tail| - 1];
      assert LastUnder(tail, n) == LastUnder(init[1..], n);
      assert LastUnder(es, n) == LastUnder(init, n);
      assert init[0] == es[0];
    }
  }

  /**
   Last write wins: after a run of assignments, `n` looks up the relation
   of the last entry assigned under `n`, and what it looked up before when
   the run does not assign `n`.
   */
  lemma {:induction false} PutAllLookup(rs: RelSet, es: seq<Entry>, n: Name)
    ensures Lookup(PutAll(rs, es), n) ==
            if LastUnder(es, n).Some? then LastUnder(es, n) else Lookup(rs, n)
    decreases |es|
  {
    if |es| > 0 {
      var next := Put(rs, es[0].0, es[0].1);
      PutAllLookup(next, es[1..], n);
      PutLookup(rs, es[0].0, es[0].1);
      LastUnderCons(es, n);
    }
  }

  /** A run of assignments split in two is the first half followed by the second. */
  lemma {:induction false} PutAllAppend(rs: RelSet, a: seq<Entry>, b: seq<Entry>)
    ensures PutAll(rs, a + b) == PutAll(PutAll(rs, a), b)
    decreases |a|
  {
    if |a| == 0 {
      assert a + b == b;
    } else {
      assert (a + b)[0] == a[0];
      assert (a + b)[1..] == a[1..] + b;
      PutAllAppend(Put(rs, a[0].0, a[0].1), a[1..], b);
    }
  }

  /** The parts' entries one after another. */
  function Concat(ps: seq<seq<Entry>>): (es: seq<Entry>)
    ensures forall e | e in es :: exists m :: 0 <= m < |ps| && e in ps[m]
    ensures forall m, e | 0 <= m < |ps| && e in ps[m] :: e in es
    ensures |ps| > 0 ==> es == ps[0] + Concat(ps[1..])
  {
    if |ps| == 0 then []
    else
      var rest := Concat(ps[1..]);
      assert forall m | 1 <= m < |ps| :: ps[m] == ps[1..][m - 1];
      ps[0] + rest
  }

  /**
   Assign the entries of `parts[j]`, `parts[j + 1]`, ... in turn: the
   relation loop of a stage transform, where each relation contributes the
   entries of one part.
   */
  function PutParts(acc: RelSet, parts: seq<seq<Entry>>, j: nat): (out: RelSet)
    requires j <= |parts|
    ensures forall n | n in Names(acc) :: n in Names(out)
    ensures forall m, n | j <= m < |parts| && n in Names(parts[m]) :: n in Names(out)
    ensures UniqueNames(acc) ==> UniqueNames(out)
    decreases |parts| - j
  {
    if j == |parts| then acc
    else PutParts(PutAll(acc, parts[j]), parts, j + 1)
  }

  /** The relation loop is one run of assignments over all the parts' entries, in order. */
  lemma {:induction false} PutPartsIsPutAll(acc: RelSet, parts: seq<seq<Entry>>, j: nat)
    requires j <= |parts|
    ensures PutParts(acc, parts, j) == PutAll(acc, Concat(parts[j..]))
    decreases |parts| - j
  {
    if j < |parts| {
      var next := PutAll(acc, parts[j]);
      PutPartsIsPutAll(next, parts, j + 1);
      assert parts[j..][1..] == parts[j + 1..];
      assert Concat(parts[j..]) == parts[j] + Concat(parts[j + 1..]);
      PutAllAppend(acc, parts[j], Concat(parts[j + 1..]));
    } else {
      assert Concat(parts[j..]) == [];
    }
  }

  /**
   Last write wins across the relation loop: `n` looks up the relation of
   the last entry under `n` in the last part that writes `n`, and what it
   looked up in `acc` when no part does.
   */
  lemma PutPartsLookup(acc: RelSet, parts: seq<seq<Entry>>, n: Name)
    ensures Lookup(PutParts(acc, parts, 0), n) ==
            if LastUnder(Concat(parts), n).Some? then LastUnder(Concat(parts), n) else Lookup(acc, n)
  {
    PutPartsIsPutAll(acc, parts, 0);
    assert parts[0..] == parts;
    PutAllLookup(acc, Concat(parts), n);
  }

  /** Every entry the loop writes was in `acc` or belongs to one of the parts. */
  lemma {:induction false} PutPartsFrom(acc: RelSet, parts: seq<seq<Entry>>, j: nat)
    requires j <= |parts|
    ensures forall e | e in PutParts(acc, parts, j) :: e in acc || exists m :: j <= m < |parts| && e in parts[m]
    decreases |parts| - j
  {
    if j < |parts| {
      var next := PutAll(acc, parts[j]);
      PutPartsFrom(next, parts, j + 1);
      assert PutParts(acc, parts, j) == PutParts(next, parts, j + 1);
    }
  }

  /** When part `m` ends with an entry named like `rs[m]`, the loop keeps every name of `rs`. */
  lemma PutPartsKeepsNames(rs: RelSet, parts: seq<seq<Entry>>, acc: RelSet)
    requires |parts| == |rs|
    requires forall m | 0 <= m < |rs| :: |parts[m]| > 0 && parts[m][|parts[m]| - 1].0 == rs[m].0
    ensures forall n | n in Names(rs) :: n in Names(PutParts(acc, parts, 0))
  {
    forall n | n in Names(rs) ensures n in Names(PutParts(acc, parts, 0)) {
      var m :| 0 <= m < |rs| && Names(rs)[m] == n;
      assert n in Names(parts[m]) by {
        assert parts[m][|parts[m]| - 1].0 == n;
      }
    }
  }

  lemma NamesAppend(rs: RelSet, e: Entry)
    ensures Names(rs + [e]) == Names(rs) + [e.0]
  {
  }

  /** Assigning entries with fresh, distinct names appends them in order. */
  lemma {:induction false} PutAllFresh(rs: RelSet, es: seq<Entry>)
    requires UniqueNames(es)
    requires forall i | 0 <= i < |es| :: es[i].0 !in Names(rs)
    ensures PutAll(rs, es) == rs + es
    decreases |es|
  {
    if |es| > 0 {
      var rs' := rs + [es[0]];
      assert Put(rs, es[0].0, es[0].1) == rs';
      NamesAppend(rs, es[0]);
      var tail := es[1..];
      assert UniqueNames(tail) by {
        forall i, j | 0 <= i < j < |tail| ensures tail[i].0 != tail[j].0 {
          assert tail[i] == es[i + 1] && tail[j] == es[j + 1];
        }
      }
      forall i | 0 <= i < |tail| ensures tail[i].0 !in Names(rs') {
        assert tail[i] == es[i + 1];
        assert es[i + 1].0 != es[0].0;
      }
      PutAllFresh(rs', tail);
      AppendAssoc(rs, es);
    }
  }

  lemma AppendAssoc(rs: RelSet, es: seq<Entry>)
    requires |es| > 0
    ensures (rs + [es[0]]) + es[1..] == rs + es
  {
    assert es == [es[0]] + es[1..];
  }
}

=== FILE: schema.dfy ===
/**
 The value types the normaliser works on: cell values with their Python
 runtime type, rows as attribute maps, relations as an ordered column list
 plus a sequence of rows, and functional / multi-valued dependencies.
 Also the DataFrame operations the normaliser uses: column selection,
 `drop(columns=...)` and `drop_duplicates()`.
 */
module Schema {

  type Attr = string

  /** The key a relation is stored under in a relation set: an attribute tuple. */
  type Name = seq<Attr>

  datatype Option<T> = None | Some(value: T)

  /** Exceptions the normaliser can raise on well-typed input. */
  datatype Error =
    | MissingRelation(name: Name)      // a dictionary lookup with an absent key
    | MissingColumns(attrs: seq<Attr>) // a column selection naming absent columns
    | FuelExhausted                    // the recursion bound of the 4NF transform was reached
    | TupleIndexedByName               // a row tuple subscripted with a column name
    | NoGroupKeys                      // `groupby` called with an empty list of columns

  datatype Result<T> = Ok(value: T) | Err(error: Error)

  /** What Python's `type(v)` reports for a cell. */
  datatype RuntimeType = ScalarType(typeName: string) | ListType | SetType | DictType

  /** A cell. Scalars carry their runtime type name; a set is kept in its iteration order. */
  datatype Value =
    | Scalar(typeName: string, text: string)
    | List(items: seq<Value>)
    | Set(members: seq<Value>)
    | Dict(entries: seq<(Value, Value)>)

  /** The cell pandas writes when it explodes an empty collection. */
  const NaN: Value := Scalar("float", "nan")

  function TypeOf(v: Value): RuntimeType {
    match v
    case Scalar(t, _) => ScalarType(t)
    case List(_) => ListType
    case Set(_) => SetType
    case Dict(_) => DictType
  }

  type Row = map<Attr, Value>

  datatype Relation = Relation(columns: seq<Attr>, rows: seq<Row>)

  /** A functional dependency `lhs -> rhs`, one entry of the `fds` dictionary. */
  datatype FD = FD(lhs: seq<Attr>, rhs: seq<Attr>)

  /** A multi-valued dependency `det ->> deps`, one entry of the `mvds` dictionary. */
  datatype MVD = MVD(det: seq<Attr>, deps: seq<Attr>)

  function Elems<T>(s: seq<T>): set<T> {
    set x | x in s
  }

  lemma ElemsConcat<T>(a: seq<T>, b: seq<T>)
    ensures Elems(a + b) == Elems(a) + Elems(b)
  {
  }

  function Cols(r: Relation): set<Attr> {
    Elems(r.columns)
  }

  /** Every row holds exactly one value per column, as in a DataFrame. */
  predicate WellFormed(r: Relation) {
    forall i | 0 <= i < |r.rows| :: r.rows[i].Keys == Cols(r)
  }

  predicate NoDup<T(==)>(s: seq<T>) {
    forall i, j | 0 <= i < j < |s| :: s[i] != s[j]
  }

  /** The elements of `s` in order of first occurrence (`drop_duplicates`, keep='first'). */
  function Distinct<T(==,!new)>(s: seq<T>): (d: seq<T>)
    ensures forall x :: x in d <==> x in s
    ensures NoDup(d)
    ensures |d| <= |s|
    decreases |s|
  {
    if |s| == 0 then []
    else
      var d := Distinct(s[..|s| - 1]);
      var x := s[|s| - 1];
      if x in d then d else d + [x]
  }

  /** The position of the first occurrence of `x` in `s`. */
  function FirstIndex<T(==)>(s: seq<T>, x: T): (i: nat)
    requires x in s
    ensures i < |s| && s[i] == x
    ensures forall k | 0 <= k < i :: s[k] != x
  {
    if s[0] == x then 0 else 1 + FirstIndex(s[1..], x)
  }

  /** A position holding `x` with no `x` before it is the first occurrence. */
  lemma FirstIndexAt<T>(s: seq<T>, x: T, i: nat)
    requires i < |s| && s[i] == x
    requires forall k | 0 <= k < i :: s[k] != x
    ensures FirstIndex(s, x) == i
  {
  }

  /**
   The first-occurrence list keeps the order of first occurrences: an
   element listed before another first occurs before it.
   */
  lemma {:induction false} DistinctKeepsFirst<T(!new)>(s: seq<T>)
    ensures forall k, l | 0 <= k < l < |Distinct(s)| :: FirstIndex(s, Distinct(s)[k]) < FirstIndex(s, Distinct(s)[l])
    decreases |s|
  {
    if |s| > 0 {
      var p := s[..|s| - 1];
      var x := s[|s| - 1];
      var dp := Distinct(p);
      DistinctKeepsFirst(p);
      forall y | y in p ensures FirstIndex(s, y) == FirstIndex(p, y) {
        FirstIndexAt(s, y, FirstIndex(p, y));
      }
      if x !in dp {
        assert x !in p;
        FirstIndexAt(s, x, |s| - 1);
        var d := Distinct(s);
        assert d == dp + [x];
        forall k, l | 0 <= k < l < |d| ensures FirstIndex(s, d[k]) < FirstIndex(s, d[l]) {
          assert d[k] == dp[k] && d[k] in p;
          if l < |dp| {
            assert d[l] == dp[l] && d[l] in p;
          }
        }
      } else {
        forall k, l | 0 <= k < l < |dp| ensures FirstIndex(s, dp[k]) < FirstIndex(s, dp[l]) {
          assert dp[k] in p && dp[l] in p;
        }
      }
    }
  }

  /** A sequence without repetitions is its own first-occurrence list. */
  lemma {:induction false} DistinctOfNoDup<T(!new)>(s: seq<T>)
    requires NoDup(s)
    ensures Distinct(s) == s
    decreases |s|
  {
    if |s| > 0 {
      var p := s[..|s| - 1];
      assert NoDup(p);
      DistinctOfNoDup(p);
      assert s[|s| - 1] !in p;
      assert p + [s[|s| - 1]] == s;
    }
  }

  /** A repetition makes the first-occurrence list strictly shorter. */
  lemma {:induction false} DistinctShorter<T(!new)>(s: seq<T>, i: nat, j: nat)
    requires i < j < |s| && s[i] == s[j]
    ensures |Distinct(s)| < |s|
    decreases |s|
  {
    var p := s[..|s| - 1];
    if j == |s| - 1 {
      assert s[i] == p[i];
      assert s[j] in Distinct(p);
    } else {
      assert p[i] == p[j];
      DistinctShorter(p, i, j);
    }
  }

  /** `|Distinct(s)| == |s|` exactly when `s` has no repetition. */
  lemma DistinctLengthIffNoDup<T(!new)>(s: seq<T>)
    ensures |Distinct(s)| == |s| <==> NoDup(s)
  {
    if NoDup(s) {
      DistinctOfNoDup(s);
    } else {
      var i, j :| 0 <= i < j < |s| && s[i] == s[j];
      DistinctShorter(s, i, j);
    }
  }

  /** `c` is `s` with some positions left out. */
  predicate IsSubsequence<T(==)>(c: seq<T>, s: seq<T>)
    decreases |s|
  {
    if |c| == 0 then true
    else if |s| == 0 then false
    else (c[0] == s[0] && IsSubsequence(c[1..], s[1..])) || IsSubsequence(c, s[1..])
  }

  /** `s` without the elements of `xs`, order kept (a list comprehension filter). */
  function Without<T(==,!new)>(s: seq<T>, xs: seq<T>): (r: seq<T>)
    ensures forall x :: x in r <==> x in s && x !in xs
    ensures |r| <= |s|
  {
    if |s| == 0 then []
    else if s[0] in xs then Without(s[1..], xs)
    else [s[0]] + Without(s[1..], xs)
  }

  /** The cells of `row` in the columns `attrs`. */
  function Restrict(row: Row, attrs: set<Attr>): (r: Row)
    ensures r.Keys == row.Keys * attrs
    ensures forall a | a in r :: r[a] == row[a]
  {
    map a | a in row.Keys * attrs :: row[a]
  }

  /** Restricting to a superset of the row's columns gives the row back. */
  lemma RestrictAll(row: Row, attrs: set<Attr>)
    requires row.Keys <= attrs
    ensures Restrict(row, attrs) == row
  {
  }

  /** Laying a row over any of its restrictions gives the row back. */
  lemma RestrictUnderRow(row: Row, attrs: set<Attr>)
    ensures Restrict(row, attrs) + row == row
    ensures Restrict(Restrict(row, attrs), attrs) == Restrict(row, attrs)
  {
    var u := Restrict(row, attrs) + row;
    assert u.Keys == row.Keys;
    assert forall a | a in u :: u[a] == row[a];
  }

  /** Restricting to columns away from the dropped ones ignores the drop. */
  lemma RestrictDropped(row: Row, dropped: set<Attr>, attrs: set<Attr>)
    requires attrs !! dropped
    ensures Restrict(row - dropped, attrs) == Restrict(row, attrs)
  {
    assert Restrict(row - dropped, attrs).Keys == Restrict(row, attrs).Keys;
  }

  /** `rel[cols]`: column selection; pandas raises KeyError for an absent column. */
  function Project(r: Relation, cols: seq<Attr>): (p: Relation)
    requires Elems(cols) <= Cols(r)
    ensures p.columns == cols && |p.rows| == |r.rows|
    ensures WellFormed(r) ==> WellFormed(p)
    ensures forall i | 0 <= i < |r.rows| :: p.rows[i] == Restrict(r.rows[i], Elems(cols))
  {
    Relation(cols, seq(|r.rows|, i requires 0 <= i < |r.rows| => Restrict(r.rows[i], Elems(cols))))
  }

  /**
   `rel[cols].drop_duplicates()`: the distinct projections of the rows,
   first occurrence first. pandas returns a frame with no columns as it
   is, so selecting no columns keeps every row.
   */
  function ProjectDistinct(r: Relation, cols: seq<Attr>): (p: Relation)
    requires Elems(cols) <= Cols(r)
    ensures p.columns == cols
    ensures WellFormed(r) ==> WellFormed(p)
    ensures |p.rows| <= |r.rows|
    ensures |cols| > 0 ==> NoDup(p.rows)
    ensures |cols| == 0 ==> |p.rows| == |r.rows|
  {
    var q := Project(r, cols);
    if |cols| == 0 then q
    else
    var d := Distinct(q.rows);
    assert WellFormed(r) ==> forall k | 0 <= k < |d| :: d[k].Keys == Elems(cols) by {
      if WellFormed(r) {
        forall k | 0 <= k < |d|
          ensures d[k].Keys == Elems(cols)
        {
          assert d[k] in q.rows;
        }
      }
    }
    Relation(cols, d)
  }

  /** The rows of `rel[cols].drop_duplicates()` are exactly the restrictions of the input rows to `cols`. */
  lemma ProjectDistinctRows(r: Relation, cols: seq<Attr>, t: Row)
    requires Elems(cols) <= Cols(r)
    ensures t in ProjectDistinct(r, cols).rows <==> exists i :: 0 <= i < |r.rows| && t == Restrict(r.rows[i], Elems(cols))
  {
    var q := Project(r, cols);
    assert ProjectDistinct(r, cols).rows == (if |cols| == 0 then q.rows else Distinct(q.rows));
    if t in q.rows {
      var i :| 0 <= i < |q.rows| && q.rows[i] == t;
      assert t == Restrict(r.rows[i], Elems(cols));
    }
    if exists i :: 0 <= i < |r.rows| && t == Restrict(r.rows[i], Elems(cols)) {
      var i :| 0 <= i < |r.rows| && t == Restrict(r.rows[i], Elems(cols));
      assert q.rows[i] == t;
    }
  }

  /** `rel.drop(columns=cols)`: the columns go, the rows stay (no de-duplication). */
  function Drop(r: Relation, cols: seq<Attr>): (d: Relation)
    requires Elems(cols) <= Cols(r)
    ensures Cols(d) == Cols(r) - Elems(cols)
    ensures |d.rows| == |r.rows|
    ensures WellFormed(r) ==> WellFormed(d)
    ensures forall i | 0 <= i < |r.rows| :: d.rows[i] == r.rows[i] - Elems(cols)
  {
    Relation(Without(r.columns, cols), seq(|r.rows|, i requires 0 <= i < |r.rows| => r.rows[i] - Elems(cols)))
  }
}

=== FILE: second_nf.dfy ===
/**
 Second normal form (`validate_2NF`, `transform_to_2NF`): a functional
 dependency whose determinant is a proper subset of the primary key and
 which determines a non-key column is a partial dependency; the transform
 moves each one into its own relation and drops its dependents from the
 base relation.
 */
module SecondNF {
  import opened Schema
  import opened RelationSets

  /** The determinant's columns are a strict subset of the key's. */
  predicate ProperKeySubset(lhs: seq<Attr>, pk: Name) {
    Elems(lhs) < Elems(pk)
  }

  /** A dependency the 2NF check rejects: a partial-key determinant with a non-key column among its dependents. */
  predicate IsPartialDependency(fd: FD, pk: Name, rel: Relation) {
    ProperKeySubset(fd.lhs, pk) && exists a :: a in fd.rhs && a in rel.columns && a !in pk
  }

  /** Dictionary keys are unique: no two dependencies share a determinant. */
  predicate DistinctDeterminants(fds: seq<FD>) {
    forall i, j | 0 <= i < j < |fds| :: fds[i].lhs != fds[j].lhs
  }

  /** The loop of `validate_2NF` from dependency `k` on. */
  function NoPartialFrom(pk: Name, fds: seq<FD>, rel: Relation, k: nat): (ok: bool)
    requires k <= |fds|
    ensures ok <==> forall i | k <= i < |fds| :: !IsPartialDependency(fds[i], pk, rel)
    decreases |fds| - k
  {
    if k == |fds| then true
    else if IsPartialDependency(fds[k], pk, rel) then false
    else NoPartialFrom(pk, fds, rel, k + 1)
  }

  /** `validate_2NF(pk, fds, rel)`. */
  function Validate2NF(pk: Name, fds: seq<FD>, rel: Relation): (ok: bool)
    ensures !ok <==> exists i, a :: 0 <= i < |fds| && Elems(fds[i].lhs) < Elems(pk)
                      && a in fds[i].rhs && a in rel.columns && a !in pk
  {
    NoPartialFrom(pk, fds, rel, 0)
  }

  /** The dependencies the transform acts on, in dictionary order. */
  function Violating(fds: seq<FD>, pk: Name, rel: Relation): (vs: seq<FD>)
    ensures forall fd :: fd in vs <==> fd in fds && IsPartialDependency(fd, pk, rel)
    ensures IsSubsequence(vs, fds)
    ensures DistinctDeterminants(fds) ==> DistinctDeterminants(vs)
  {
    if |fds| == 0 then []
    else
      var rest := Violating(fds[1..], pk, rel);
      assert DistinctDeterminants(fds) ==> forall fd | fd in rest :: fd.lhs != fds[0].lhs by {
        if DistinctDeterminants(fds) {
          forall fd | fd in rest ensures fd.lhs != fds[0].lhs {
            var j :| 0 <= j < |fds[1..]| && fds[1..][j] == fd;
            assert fds[j + 1] == fd;
          }
        }
      }
      assert DistinctDeterminants(fds) ==> DistinctDeterminants(fds[1..]) by {
        if DistinctDeterminants(fds) {
          forall i, j | 0 <= i < j < |fds[1..]| ensures fds[1..][i].lhs != fds[1..][j].lhs {
            assert fds[1..][i] == fds[i + 1] && fds[1..][j] == fds[j + 1];
          }
        }
      }
      if IsPartialDependency(fds[0], pk, rel) then [fds[0]] + rest else rest
  }

  /** Columns a dependency names that `rel` lacks (pandas raises KeyError on selecting them). */
  function MissingOf(fd: FD, rel: Relation): seq<Attr> {
    Without(fd.lhs + fd.rhs, rel.columns)
  }

  /** The missing columns of the first dependency whose selection would fail, if any. */
  function FirstMissing(vs: seq<FD>, rel: Relation): (m: Option<seq<Attr>>)
    ensures m.None? <==> forall fd | fd in vs :: Elems(fd.lhs + fd.rhs) <= Cols(rel)
    ensures m.Some? ==> |m.value| > 0 && forall a | a in m.value :: a !in Cols(rel)
  {
    if |vs| == 0 then None
    else
      var missing := MissingOf(vs[0], rel);
      if |missing| > 0 then
        assert missing[0] in vs[0].lhs + vs[0].rhs && missing[0] !in rel.columns;
        assert missing[0] in Elems(vs[0].lhs + vs[0].rhs) && missing[0] !in Cols(rel);
        Some(missing)
      else
        assert Elems(vs[0].lhs + vs[0].rhs) <= Cols(rel) by {
          forall a | a in vs[0].lhs + vs[0].rhs ensures a in Cols(rel) {
            assert a in rel.columns;
          }
        }
        assert forall fd | fd in vs :: fd == vs[0] || fd in vs[1..];
        FirstMissing(vs[1..], rel)
  }

  /** The entry each violating dependency writes: the distinct rows on its determinant and dependents, under its determinant. */
  function SplitEntries(vs: seq<FD>, rel: Relation): (es: seq<Entry>)
    requires forall fd | fd in vs :: Elems(fd.lhs + fd.rhs) <= Cols(rel)
    ensures |es| == |vs|
    ensures forall i | 0 <= i < |vs| :: es[i] == (vs[i].lhs, ProjectDistinct(rel, vs[i].lhs + vs[i].rhs))
  {
    seq(|vs|, i requires 0 <= i < |vs| => (vs[i].lhs, ProjectDistinct(rel, vs[i].lhs + vs[i].rhs)))
  }

  /** The table written for a violating dependency holds exactly the input rows cut down to its determinant and dependents. */
  lemma SplitEntryRows(vs: seq<FD>, rel: Relation, i: nat, t: Row)
    requires forall fd | fd in vs :: Elems(fd.lhs + fd.rhs) <= Cols(rel)
    requires i < |vs|
    ensures SplitEntries(vs, rel)[i].0 == vs[i].lhs
    ensures t in SplitEntries(vs, rel)[i].1.rows <==>
              exists j :: 0 <= j < |rel.rows| && t == Restrict(rel.rows[j], Elems(vs[i].lhs) + Elems(vs[i].rhs))
  {
    assert vs[i] in vs;
    ElemsConcat(vs[i].lhs, vs[i].rhs);
    ProjectDistinctRows(rel, vs[i].lhs + vs[i].rhs, t);
  }

  /** The dependents of the violating dependencies that are not in their own determinant. */
  function Removed(vs: seq<FD>): set<Attr> {
    set i, a | 0 <= i < |vs| && a in vs[i].rhs && a !in vs[i].lhs :: a
  }

  /** The inner loop at lines 110-112: append each new dependent outside `lhs` once. */
  function AddDependents(rhs: seq<Attr>, lhs: seq<Attr>, acc: seq<Attr>): (r: seq<Attr>)
    ensures NoDup(acc) ==> NoDup(r)
    ensures forall a :: a in r <==> a in acc || (a in rhs && a !in lhs)
    decreases |rhs|
  {
    if |rhs| == 0 then acc
    else
      var a := rhs[0];
      var acc' := if a !in lhs && a !in acc then acc + [a] else acc;
      AddDependents(rhs[1..], lhs, acc')
  }

  /** `attributes_to_remove` after the loop over the violating dependencies. */
  function AttributesToRemove(vs: seq<FD>, acc: seq<Attr>): (r: seq<Attr>)
    ensures NoDup(acc) ==> NoDup(r)
    ensures Elems(r) == Elems(acc) + Removed(vs)
    decreases |vs|
  {
    if |vs| == 0 then acc
    else
      var next := AddDependents(vs[0].rhs, vs[0].lhs, acc);
      var r := AttributesToRemove(vs[1..], next);
      assert Removed(vs) == (Elems(vs[0].rhs) - Elems(vs[0].lhs)) + Removed(vs[1..]) by {
        forall a | a in Removed(vs) ensures a in (Elems(vs[0].rhs) - Elems(vs[0].lhs)) + Removed(vs[1..]) {
          var i :| 0 <= i < |vs| && a in vs[i].rhs && a !in vs[i].lhs;
          if i > 0 {
            assert vs[1..][i - 1] == vs[i];
          }
        }
        forall a | a in Removed(vs[1..]) ensures a in Removed(vs) {
          var i :| 0 <= i < |vs[1..]| && a in vs[1..][i].rhs && a !in vs[1..][i].lhs;
          assert vs[1..][i] == vs[i + 1];
        }
      }
      r
  }

  /** The base relation after `rel.drop(columns=attributes_to_remove)`. */
  function ReducedBase(vs: seq<FD>, rel: Relation): (base: Relation)
    requires forall fd | fd in vs :: Elems(fd.lhs + fd.rhs) <= Cols(rel)
    ensures Cols(base) == Cols(rel) - Removed(vs)
    ensures WellFormed(rel) ==> WellFormed(base)
    ensures |base.rows| == |rel.rows|
    ensures forall i | 0 <= i < |rel.rows| :: base.rows[i] == rel.rows[i] - Removed(vs)
  {
    var drop := AttributesToRemove(vs, []);
    assert Elems(drop) == Removed(vs) by {
      assert Elems<Attr>([]) == {};
    }
    assert Elems(drop) <= Cols(rel) by {
      forall a | a in Removed(vs) ensures a in Cols(rel) {
        var i :| 0 <= i < |vs| && a in vs[i].rhs && a !in vs[i].lhs;
        assert vs[i] in vs;
        assert a in vs[i].lhs + vs[i].rhs;
        assert a in Elems(vs[i].lhs + vs[i].rhs);
      }
    }
    Drop(rel, drop)
  }

  /** The relation set the transform builds once every selection succeeds. */
  function Decompose2NF(vs: seq<FD>, rel: Relation, pk: Name): (out: RelSet)
    requires forall fd | fd in vs :: Elems(fd.lhs + fd.rhs) <= Cols(rel)
    ensures Lookup(out, pk) == Some(ReducedBase(vs, rel))
    ensures forall e | e in out :: e.0 == pk || exists i :: 0 <= i < |vs| && e.0 == vs[i].lhs
  {
    var es := SplitEntries(vs, rel);
    var tables := PutAll([], es);
    var out := Put(tables, pk, ReducedBase(vs, rel));
    PutLookup(tables, pk, ReducedBase(vs, rel));
    assert forall e | e in out :: e.0 == pk || exists i :: 0 <= i < |vs| && e.0 == vs[i].lhs by {
      forall e | e in out && e.0 != pk ensures exists i :: 0 <= i < |vs| && e.0 == vs[i].lhs {
        assert e in tables;
        assert e in es;
        var i :| 0 <= i < |es| && es[i] == e;
      }
    }
    out
  }

  /** `transform_to_2NF(rel, pk, fds)`: `rel` is the relation set of the 1NF stage, read at `pk`. */
  function Transform2NF(rs: RelSet, pk: Name, fds: seq<FD>): (r: Result<(RelSet, bool)>)
    ensures Lookup(rs, pk).None? ==> r == Err(MissingRelation(pk))
    ensures Lookup(rs, pk).Some? && Validate2NF(pk, fds, Lookup(rs, pk).value) ==>
              r == Ok(([(pk, Lookup(rs, pk).value)], true))
    ensures Lookup(rs, pk).Some? && !Validate2NF(pk, fds, Lookup(rs, pk).value) ==>
              var rel := Lookup(rs, pk).value;
              var vs := Violating(fds, pk, rel);
              && (r.Err? <==> exists fd :: fd in vs && !(Elems(fd.lhs + fd.rhs) <= Cols(rel)))
              && (r.Ok? ==> !r.value.1 && (forall fd | fd in vs :: Elems(fd.lhs + fd.rhs) <= Cols(rel))
                            && r.value.0 == Decompose2NF(vs, rel, pk))
  {
    match Lookup(rs, pk)
    case None => Err(MissingRelation(pk))
    case Some(rel) =>
      if Validate2NF(pk, fds, rel) then Ok(([(pk, rel)], true))
      else
        var vs := Violating(fds, pk, rel);
        match FirstMissing(vs, rel)
        case Some(m) => Err(MissingColumns(m))
        case None => Ok((Decompose2NF(vs, rel, pk), false))
  }

  /** The base relation under `pk` loses exactly the dependents, outside their own determinant, of the violating dependencies. */
  lemma Transform2NFBase(rs: RelSet, pk: Name, fds: seq<FD>)
    requires Lookup(rs, pk).Some?
    ensures Transform2NF(rs, pk, fds).Ok? && !Validate2NF(pk, fds, Lookup(rs, pk).value) ==>
              var rel := Lookup(rs, pk).value;
              var out := Transform2NF(rs, pk, fds).value.0;
              && Lookup(out, pk).Some?
              && Cols(Lookup(out, pk).value) == Cols(rel) - Removed(Violating(fds, pk, rel))
              && |Lookup(out, pk).value.rows| == |rel.rows|
              && forall i | 0 <= i < |rel.rows| ::
                   Lookup(out, pk).value.rows[i] == rel.rows[i] - Removed(Violating(fds, pk, rel))
  {
  }

  /**
   With a dictionary of dependencies (distinct determinants) the result is
   exactly one entry per violating dependency, in order, followed by the
   reduced base relation under `pk`.
   */
  lemma Transform2NFSplits(rs: RelSet, pk: Name, fds: seq<FD>)
    requires DistinctDeterminants(fds)
    requires Lookup(rs, pk).Some?
    ensures Transform2NF(rs, pk, fds).Ok? && !Validate2NF(pk, fds, Lookup(rs, pk).value) ==>
              var rel := Lookup(rs, pk).value;
              var vs := Violating(fds, pk, rel);
              && (forall fd | fd in vs :: Elems(fd.lhs + fd.rhs) <= Cols(rel))
              && Transform2NF(rs, pk, fds).value.0 == SplitEntries(vs, rel) + [(pk, ReducedBase(vs, rel))]
  {
    if Transform2NF(rs, pk, fds).Ok? && !Validate2NF(pk, fds, Lookup(rs, pk).value) {
      var rel := Lookup(rs, pk).value;
      var vs := Violating(fds, pk, rel);
      assert FirstMissing(vs, rel).None?;
      var es := SplitEntries(vs, rel);
      assert UniqueNames(es) by {
        forall i, j | 0 <= i < j < |es| ensures es[i].0 != es[j].0 {
          assert es[i].0 == vs[i].lhs && es[j].0 == vs[j].lhs;
        }
      }
      PutAllFresh([], es);
      assert [] + es == es;
      assert pk !in Names(es) by {
        forall i | 0 <= i < |es| ensures es[i].0 != pk {
          assert vs[i] in vs;
          assert Elems(vs[i].lhs) < Elems(pk);
        }
      }
    }
  }

  /** The output relations together hold exactly the columns of the input relation. */
  lemma Transform2NFCoversColumns(rs: RelSet, pk: Name, fds: seq<FD>)
    requires DistinctDeterminants(fds)
    requires Lookup(rs, pk).Some?
    ensures Transform2NF(rs, pk, fds).Ok? && !Validate2NF(pk, fds, Lookup(rs, pk).value) ==>
              var out := Transform2NF(rs, pk, fds).value.0;
              forall a :: a in Cols(Lookup(rs, pk).value) <==> exists j :: 0 <= j < |out| && a in Cols(out[j].1)
  {
    if Transform2NF(rs, pk, fds).Ok? && !Validate2NF(pk, fds, Lookup(rs, pk).value) {
      var rel := Lookup(rs, pk).value;
      var vs := Violating(fds, pk, rel);
      Transform2NFSplits(rs, pk, fds);
      PartsCoverColumns(vs, rel, pk);
    }
  }

  /** The split tables and the reduced base together hold exactly the relation's columns. */
  lemma PartsCoverColumns(vs: seq<FD>, rel: Relation, pk: Name)
    requires forall fd | fd in vs :: Elems(fd.lhs + fd.rhs) <= Cols(rel)
    ensures var out := SplitEntries(vs, rel) + [(pk, ReducedBase(vs, rel))];
            forall a :: a in Cols(rel) <==> exists j :: 0 <= j < |out| && a in Cols(out[j].1)
  {
    var es := SplitEntries(vs, rel);
    var base := ReducedBase(vs, rel);
    var out := es + [(pk, base)];
    forall a | a in Cols(rel) ensures exists j :: 0 <= j < |out| && a in Cols(out[j].1) {
      if a in Removed(vs) {
        var i :| 0 <= i < |vs| && a in vs[i].rhs && a !in vs[i].lhs;
        SplitHolds(vs, rel, i, a);
        assert out[i] == es[i];
      } else {
        assert out[|es|].1 == base;
      }
    }
    forall a, j | 0 <= j < |out| && a in Cols(out[j].1) ensures a in Cols(rel) {
      if j < |es| {
        assert out[j] == es[j];
        SplitWithin(vs, rel, j);
      } else {
        assert out[j].1 == base;
      }
    }
  }

  lemma SplitHolds(vs: seq<FD>, rel: Relation, i: nat, a: Attr)
    requires forall fd | fd in vs :: Elems(fd.lhs + fd.rhs) <= Cols(rel)
    requires i < |vs| && a in vs[i].rhs
    ensures a in Cols(SplitEntries(vs, rel)[i].1)
  {
    assert a in vs[i].lhs + vs[i].rhs;
  }

  lemma SplitWithin(vs: seq<FD>, rel: Relation, i: nat)
    requires forall fd | fd in vs :: Elems(fd.lhs + fd.rhs) <= Cols(rel)
    requires i < |vs|
    ensures Cols(SplitEntries(vs, rel)[i].1) <= Cols(rel)
  {
    assert vs[i] in vs;
  }

  /** After the transform the relation under `pk` passes `validate_2NF`. */
  lemma Transform2NFReachesSecondNF(rs: RelSet, pk: Name, fds: seq<FD>)
    ensures Transform2NF(rs, pk, fds).Ok? ==>
              var out := Transform2NF(rs, pk, fds).value.0;
              Lookup(out, pk).Some? && Validate2NF(pk, fds, Lookup(out, pk).value)
  {
    if Transform2NF(rs, pk, fds).Ok? {
      var rel := Lookup(rs, pk).value;
      var out := Transform2NF(rs, pk, fds).value.0;
      if Validate2NF(pk, fds, rel) {
        assert out == [(pk, rel)];
        assert Names(out)[0] == pk;
        assert Lookup(out, pk) == Some(rel);
      } else {
        var vs := Violating(fds, pk, rel);
        assert forall fd | fd in vs :: Elems(fd.lhs + fd.rhs) <= Cols(rel);
        assert Lookup(out, pk) == Some(ReducedBase(vs, rel));
        ReducedBaseIn2NF(fds, pk, rel);
      }
    }
  }

  /** No dependency with a partial-key determinant names a non-key column of the reduced base. */
  lemma ReducedBaseIn2NF(fds: seq<FD>, pk: Name, rel: Relation)
    requires forall fd | fd in Violating(fds, pk, rel) :: Elems(fd.lhs + fd.rhs) <= Cols(rel)
    ensures Validate2NF(pk, fds, ReducedBase(Violating(fds, pk, rel), rel))
  {
    var vs := Violating(fds, pk, rel);
    var base := ReducedBase(vs, rel);
    forall i, a | 0 <= i < |fds| && Elems(fds[i].lhs) < Elems(pk) && a in fds[i].rhs && a in rel.columns && a !in pk
      ensures a !in base.columns
    {
      assert IsPartialDependency(fds[i], pk, rel);
      var k :| 0 <= k < |vs| && vs[k] == fds[i];
      assert a !in Elems(pk);
      assert a !in vs[k].lhs;
      InRemoved(vs, k, a);
    }
  }

  lemma InRemoved(vs: seq<FD>, k: nat, a: Attr)
    requires k < |vs| && a in vs[k].rhs && a !in vs[k].lhs
    ensures a in Removed(vs)
  {
  }
}

=== FILE: third_nf.dfy ===
/**
 Third normal form (`has_partial_dependencies`, `validate_3NF`,
 `create_new_relations`, `transform_to_3NF`). The validator is modelled as
 written: its key set holds determinant tuples while the membership test
 asks about single attributes, so the test never holds for a non-empty
 determinant. The transform splits each relation on the first dependency,
 in dictionary order, whose determinant it contains and whose dependents
 are not all in the determinant.
 */
module ThirdNF {
  import opened Schema
  import opened RelationSets
  import Closure

  /** The two kinds of Python value compared by `in` at line 138. */
  datatype PyValue = Str(attr: Attr) | Tuple(items: seq<Attr>)

  /** The key set of the 3NF check: every determinant, each kept whole as one tuple value. */
  function KeyTuples(fds: seq<FD>): (ks: set<PyValue>)
    ensures forall a :: Str(a) !in ks
    ensures ks == {} <==> |fds| == 0
  {
    var ks := set i | 0 <= i < |fds| :: Tuple(fds[i].lhs);
    assert |fds| > 0 ==> Tuple(fds[0].lhs) in ks;
    ks
  }

  /** The three-part test at lines 137-139 for one relation and one dependency. */
  predicate PartialAt(rel: Relation, fd: FD, fds: seq<FD>) {
    && Elems(fd.lhs) <= Cols(rel)
    && !(forall a | a in fd.lhs :: Str(a) in KeyTuples(fds))
    && Elems(fd.rhs) <= Closure.Dependents(fds)
  }

  /** For a dependency of the dictionary the test reduces to: a non-empty determinant inside the relation. */
  lemma PartialAtReduces(rel: Relation, fds: seq<FD>, i: nat)
    requires i < |fds|
    ensures PartialAt(rel, fds[i], fds) <==> |fds[i].lhs| > 0 && Elems(fds[i].lhs) <= Cols(rel)
  {
    if |fds[i].lhs| > 0 {
      assert fds[i].lhs[0] in fds[i].lhs;
      assert Str(fds[i].lhs[0]) !in KeyTuples(fds);
    }
  }

  /** The inner loop of `has_partial_dependencies`, from dependency `i` on. */
  function RelationHasPartial(rel: Relation, fds: seq<FD>, i: nat): (b: bool)
    requires i <= |fds|
    ensures b <==> exists k :: i <= k < |fds| && |fds[k].lhs| > 0 && Elems(fds[k].lhs) <= Cols(rel)
    decreases |fds| - i
  {
    if i == |fds| then false
    else
      PartialAtReduces(rel, fds, i);
      if PartialAt(rel, fds[i], fds) then true
      else RelationHasPartial(rel, fds, i + 1)
  }

  /** The outer loop of `has_partial_dependencies`, from relation `j` on. */
  function HasPartialFrom(rs: RelSet, fds: seq<FD>, j: nat): (b: bool)
    requires j <= |rs|
    ensures b <==> exists m, k :: j <= m < |rs| && 0 <= k < |fds|
                     && |fds[k].lhs| > 0 && Elems(fds[k].lhs) <= Cols(rs[m].1)
    decreases |rs| - j
  {
    if j == |rs| then false
    else if RelationHasPartial(rs[j].1, fds, 0) then true
    else HasPartialFrom(rs, fds, j + 1)
  }

  /** `has_partial_dependencies(relations_dict, fds)`. */
  function HasPartialDependencies(rs: RelSet, fds: seq<FD>): (b: bool)
    ensures b <==> exists m, k :: 0 <= m < |rs| && 0 <= k < |fds|
                     && |fds[k].lhs| > 0 && Elems(fds[k].lhs) <= Cols(rs[m].1)
  {
    HasPartialFrom(rs, fds, 0)
  }

  /** `validate_3NF`: no relation contains the (non-empty) determinant of any dependency. */
  function Validate3NF(rs: RelSet, fds: seq<FD>): (ok: bool)
    ensures ok <==> forall m, k | 0 <= m < |rs| && 0 <= k < |fds| && |fds[k].lhs| > 0 ::
                      !(Elems(fds[k].lhs) <= Cols(rs[m].1))
  {
    !HasPartialDependencies(rs, fds)
  }

  /** The condition of the transform at lines 170-171. */
  predicate SplitsOn(rel: Relation, fd: FD) {
    Elems(fd.lhs) <= Cols(rel) && !(Elems(fd.rhs) <= Elems(fd.lhs))
  }

  /** The first dependency from `i` on that the transform splits `rel` with. */
  function FirstSplit(rel: Relation, fds: seq<FD>, i: nat): (r: Option<nat>)
    requires i <= |fds|
    ensures r.Some? ==> i <= r.value < |fds| && SplitsOn(rel, fds[r.value])
                        && forall m | i <= m < r.value :: !SplitsOn(rel, fds[m])
    ensures r.None? ==> forall m | i <= m < |fds| :: !SplitsOn(rel, fds[m])
    decreases |fds| - i
  {
    if i == |fds| then None
    else if SplitsOn(rel, fds[i]) then Some(i)
    else FirstSplit(rel, fds, i + 1)
  }

  /** `create_new_relations`: `lhs + rhs` and the remaining columns, each without duplicate rows. */
  function CreateNewRelations(lhs: seq<Attr>, rhs: seq<Attr>, rel: Relation): (t: (Relation, Relation))
    requires Elems(lhs + rhs) <= Cols(rel)
    ensures t.0.columns == lhs + rhs
    ensures Cols(t.1) == Cols(rel) - Elems(rhs)
    ensures Cols(t.0) + Cols(t.1) == Cols(rel)
    ensures (|lhs + rhs| > 0 ==> NoDup(t.0.rows)) && (|t.1.columns| > 0 ==> NoDup(t.1.rows)) && NoDup(t.1.columns)
    ensures WellFormed(rel) ==> WellFormed(t.0) && WellFormed(t.1)
  {
    var cols2 := Distinct(Without(rel.columns, rhs));
    var t := (ProjectDistinct(rel, lhs + rhs), ProjectDistinct(rel, cols2));
    assert Cols(t.0) == Elems(lhs) + Elems(rhs);
    t
  }

  /** A row is in either new table exactly when it is some input row cut down to that table's columns. */
  lemma CreateNewRelationsRows(lhs: seq<Attr>, rhs: seq<Attr>, rel: Relation, t: Row)
    requires Elems(lhs + rhs) <= Cols(rel)
    ensures var p := CreateNewRelations(lhs, rhs, rel);
            && (t in p.0.rows <==> exists i :: 0 <= i < |rel.rows| && t == Restrict(rel.rows[i], Cols(p.0)))
            && (t in p.1.rows <==> exists i :: 0 <= i < |rel.rows| && t == Restrict(rel.rows[i], Cols(p.1)))
  {
    var cols2 := Distinct(Without(rel.columns, rhs));
    ProjectDistinctRows(rel, lhs + rhs, t);
    ProjectDistinctRows(rel, cols2, t);
  }

  /** What one relation contributes to the result: itself, or the two tables of its first split. */
  function Split3NF(name: Name, rel: Relation, fds: seq<FD>): (r: Result<seq<Entry>>)
    ensures FirstSplit(rel, fds, 0).None? ==> r == Ok([(name, rel)])
    ensures FirstSplit(rel, fds, 0).Some? ==>
              var fd := fds[FirstSplit(rel, fds, 0).value];
              && (r.Err? <==> !(Elems(fd.rhs) <= Cols(rel)))
              && (r.Ok? ==>
                    && |r.value| == 2
                    && r.value[0].0 == fd.lhs && r.value[0].1.columns == fd.lhs + fd.rhs
                    && r.value[1].0 == name && Cols(r.value[1].1) == Cols(rel) - Elems(fd.rhs)
                    && Cols(r.value[0].1) + Cols(r.value[1].1) == Cols(rel))
  {
    match FirstSplit(rel, fds, 0)
    case None => Ok([(name, rel)])
    case Some(k) =>
      var fd := fds[k];
      if !(Elems(fd.rhs) <= Cols(rel)) then Err(MissingColumns(Without(fd.rhs, rel.columns)))
      else
        var t := CreateNewRelations(fd.lhs, fd.rhs, rel);
        Ok([(fd.lhs, t.0), (name, t.1)])
  }

  /** Entry `e` is one of the tables some relation from `j` on contributes. */
  predicate ProducedBy(rs: RelSet, fds: seq<FD>, j: nat, e: Entry) {
    exists m :: j <= m < |rs| && Split3NF(rs[m].0, rs[m].1, fds).Ok? && e in Split3NF(rs[m].0, rs[m].1, fds).value
  }

  /** The relation loop of `transform_to_3NF` from relation `j` on, writing into `acc`. */
  function Rebuild(rs: RelSet, fds: seq<FD>, j: nat, acc: RelSet): (r: Result<RelSet>)
    requires j <= |rs|
    ensures r.Err? <==> exists m :: j <= m < |rs| && Split3NF(rs[m].0, rs[m].1, fds).Err?
    ensures r.Ok? ==> forall n | n in Names(acc) :: n in Names(r.value)
    ensures r.Ok? && UniqueNames(acc) ==> UniqueNames(r.value)
    ensures r.Ok? ==> forall m | j <= m < |rs| :: rs[m].0 in Names(r.value)
    ensures r.Ok? ==> forall e | e in r.value :: e in acc || ProducedBy(rs, fds, j, e)
    decreases |rs| - j
  {
    if j == |rs| then Ok(acc)
    else
      match Split3NF(rs[j].0, rs[j].1, fds)
      case Err(e) => Err(e)
      case Ok(es) =>
        assert rs[j].0 in Names(es) by {
          assert es[|es| - 1].0 == rs[j].0;
        }
        Rebuild(rs, fds, j + 1, PutAll(acc, es))
  }

  /** The tables every relation from `j` on contributes, in relation order, when none of their splits fails. */
  function SplitOutputs(rs: RelSet, fds: seq<FD>, j: nat): seq<Entry>
    requires j <= |rs|
    requires forall m | j <= m < |rs| :: Split3NF(rs[m].0, rs[m].1, fds).Ok?
    decreases |rs| - j
  {
    if j == |rs| then [] else Split3NF(rs[j].0, rs[j].1, fds).value + SplitOutputs(rs, fds, j + 1)
  }

  /** When no split fails, the relation loop is one run of assignments over all the split tables. */
  lemma {:induction false} RebuildIsPutAll(rs: RelSet, fds: seq<FD>, j: nat, acc: RelSet)
    requires j <= |rs|
    requires forall m | j <= m < |rs| :: Split3NF(rs[m].0, rs[m].1, fds).Ok?
    ensures Rebuild(rs, fds, j, acc) == Ok(PutAll(acc, SplitOutputs(rs, fds, j)))
    decreases |rs| - j
  {
    if j < |rs| {
      var es := Split3NF(rs[j].0, rs[j].1, fds).value;
      RebuildIsPutAll(rs, fds, j + 1, PutAll(acc, es));
      PutAllAppend(acc, es, SplitOutputs(rs, fds, j + 1));
    }
  }

  /** Last write wins across the relation loop: a name holds the last table any relation's split wrote under it, in relation order. */
  lemma RebuildLookup(rs: RelSet, fds: seq<FD>, n: Name)
    requires forall m | 0 <= m < |rs| :: Split3NF(rs[m].0, rs[m].1, fds).Ok?
    ensures Rebuild(rs, fds, 0, []).Ok?
    ensures Lookup(Rebuild(rs, fds, 0, []).value, n) == LastUnder(SplitOutputs(rs, fds, 0), n)
  {
    RebuildIsPutAll(rs, fds, 0, []);
    PutAllLookup([], SplitOutputs(rs, fds, 0), n);
  }

  /** `transform_to_3NF(relations_dict, fds)`. */
  function Transform3NF(rs: RelSet, fds: seq<FD>): (r: Result<(RelSet, bool)>)
    ensures Validate3NF(rs, fds) ==> r == Ok((rs, true))
    ensures !Validate3NF(rs, fds) ==>
              && (r.Err? <==> exists m :: 0 <= m < |rs| && Split3NF(rs[m].0, rs[m].1, fds).Err?)
              && (r.Ok? ==>
                    && !r.value.1
                    && (forall m | 0 <= m < |rs| :: rs[m].0 in Names(r.value.0))
                    && UniqueNames(r.value.0)
                    && forall e | e in r.value.0 :: ProducedBy(rs, fds, 0, e))
  {
    if Validate3NF(rs, fds) then Ok((rs, true))
    else
      match Rebuild(rs, fds, 0, [])
      case Err(e) => Err(e)
      case Ok(out) => Ok((out, false))
  }
}
